=== FILE: README.md ===
# TaxPal-Pro tax engine and page logic in Dafny

This project models the computational core of TaxPal-Pro, a tax tracker for
freelancers. It has an Express back end over income and expense records and
a Next.js front end. The model covers:

- **The progressive tax engine** of the tax controller:
  - the seven-bracket table on top of the 13,850 standard deduction;
  - the bracket walk (`calculateFederalTax`), both as a function and as the loop with its early exit;
  - the marginal-rate lookup with its unreachable fallback;
  - the six-rule recommendation list;
  - the estimate, what-if scenario, quarterly schedule and sorted deadline list built around them.
- **The report controller**:
  - totals and the simplified flat 22% estimate;
  - grouping by category with percentages, sorted by amount;
  - the twelve-month breakdown and the quarterly payments;
  - year-over-year changes with their zero guards and the three summary rules;
  - the CSV export with its single header line.
- **The dashboard controller**:
  - the overview: the same flat estimate, the deduction coverage and the monthly breakdown;
  - the summary: all-time, monthly and yearly totals, profits, the 25% tax block and the five most recent entries;
  - the trends: twelve months filled from by-month aggregates.
- **The two list handlers**: the database filter each builds, the sort, the skip and limit arithmetic, the page count and the summary sums.
- **The client helpers** (`utils.ts`): the 15.3% estimate, the quarterly share, the next three deadlines after a given instant, the keyword categoriser and the bounded tax score.
- **The pages**:
  - the estimate page's own marginal rate, four-rule list, scenario request and displayed values;
  - the register form's password rules and check order;
  - the income and expense forms' validation, payloads, edit forms and label formatting;
  - the pricing page's price and savings arithmetic;
  - the dashboard page's rates, chart rows, coverage bar and compact number format.
- **The client session service** (`auth.ts`): the name split of sign-up, and the auth-state listener registry.

How the model is organised:

- A database query is replaced by the sequence of records it would return.
  Where the database orders the results, the ordering is a function parameter.
- Money is an exact `real`.
- A date is a (year, month, day) triple.
- "Now", today's date and the current year are parameters.
- A `parseFloat` result is an input `Option<real>`, with `None` standing for `NaN`.
- Each of the application's four tax formulas is kept separate, exactly as written:
  - the bracket walk plus 14.13% self-employment tax (tax endpoints);
  - 14.13% plus a flat 22% above the deduction (report and overview);
  - 25% of the yearly income less all deductions (dashboard summary);
  - 15.3% above the deduction (client helper).
- Lemmas relate the formulas to each other where they meet. Examples: `Dashboard.OverviewEstimatedTax` and `EstimatePage.AgreesWithEndpointRate`.

Modules, one per component:

- `TaxBrackets`, `TaxRecommendations` and `TaxEstimate`: the tax controller.
- `AnnualReport` and `ReportExport`: the report controller.
- `Dashboard`: the dashboard controller.
- `ListQuery`: the two list handlers.
- `FrontendUtils`: `utils.ts`.
- The pages: `EstimatePage`, `RegisterPage`, `IncomePage`, `ExpensesPage`, `PricingPage` and `DashboardPage`.
- `Auth`: `auth.ts`.
- Shared definitions, each written once:
  - `Common`: options, dates, ASCII case, trimming, split and join, sums;
  - `Records`: the two stored entities and their sums;
  - `Grouping`: the category reduce;
  - `Rules`: ordered rule tables;
  - `Sorting`: a stable sort by key.

For 80,000 of income and 10,000 of deductions the tax endpoint computes a taxable income of 70,000, because `calculateFederalTax` subtracts the standard deduction itself. `TaxEstimate.EstimateOf80k` states the resulting figures:

- federal tax 7,660.50;
- self-employment tax 11,304;
- total 18,964.50.

## Model

| member | source | states |
|---|---|---|
| TaxBrackets.BracketTableContiguous | backend/src/controllers/taxController.js:5-13 | The table starts at 0, each bracket starts where the previous one ends, rates strictly increase, only the last bracket is unbounded, and rates run from 10% to 37% |
| TaxBrackets.TableIsChain | backend/src/controllers/taxController.js:5-13 | The table is a contiguous chain from 0 with every rate between 10% and 37%, the shape the walk's proofs use |
| TaxBrackets.WalkIsPortionTax | backend/src/controllers/taxController.js:23-29 | The loop's greedy walk `Walk` equals the textbook progressive tax: each bracket's portion of the income taxed at its own rate |
| TaxBrackets.PortionSumCoversIncome | backend/src/controllers/taxController.js:23-29 | The bracket portions of a contiguous table add up to the whole income above its start, with nothing taxed twice or missed |
| TaxBrackets.PortionsBelowChain | backend/src/controllers/taxController.js:23-29 | Income below a table's start falls in no bracket and is taxed 0 |
| TaxBrackets.PortionTaxBetweenRates | backend/src/controllers/taxController.js:23-29 | With rates between lo and hi, the tax lies between lo and hi times the taxed income |
| TaxBrackets.PortionGrows | backend/src/controllers/taxController.js:26 | A bracket's portion is non-negative and never shrinks as income grows |
| TaxBrackets.PortionTaxMonotone | backend/src/controllers/taxController.js:23-29 | The progressive tax never decreases as income grows |
| TaxBrackets.AdjustedIncome | backend/src/controllers/taxController.js:21 | The walked income is non-negative, 0 up to the standard deduction, and the income less the deduction above it |
| TaxBrackets.CalculateFederalTax | backend/src/controllers/taxController.js:19-32 | The federal tax is the progressive tax of the income above 13,850: non-negative, 0 up to 13,850, and between 10% and 37% of the income above 13,850 |
| TaxBrackets.FederalTaxMonotone | backend/src/controllers/taxController.js:19-32 | The federal tax never decreases as taxable income grows |
| TaxBrackets.FederalTaxAtBracketTops | backend/src/controllers/taxController.js:5-32 | 24,850 gives 1,100, 58,575 gives 5,147 and 70,000 gives 7,660.50 |
| TaxBrackets.WalkStep | backend/src/controllers/taxController.js:24-28 | One turn of the loop with income left: the bracket's share is taxed and the walk continues with the rest |
| TaxBrackets.WalkLoop | backend/src/controllers/taxController.js:20-31 | The loop, with its break once nothing remains, computes the recursive walk of the table |
| TaxBrackets.FederalTaxLoop | backend/src/controllers/taxController.js:19-32 | The loop over the bracket table returns the federal tax |
| TaxBrackets.FirstFit | backend/src/controllers/taxController.js:38-42 | The lookup returns the first bracket the amount fits under, and None exactly when it fits under none |
| TaxBrackets.FirstFitIsFirst | backend/src/controllers/taxController.js:38-42 | A bracket that fits, with none fitting before it, is the one found |
| TaxBrackets.GetMarginalTaxRate | backend/src/controllers/taxController.js:35-44 | The marginal rate is one of 10, 12, 22, 24, 32, 35 and 37, and 10 for every income up to 13,850 |
| TaxBrackets.MarginalFallbackUnreachable | backend/src/controllers/taxController.js:43 | Every income fits under some bracket, so the fallback after the loop is never reached |
| TaxBrackets.MarginalRateOfContainingBracket | backend/src/controllers/taxController.js:35-44 | The marginal rate is the rate of the bracket containing the income above the deduction |
| TaxBrackets.RatesIncrease | backend/src/controllers/taxController.js:5-13 | A later bracket never has a lower rate |
| TaxBrackets.BracketTopsIncrease | backend/src/controllers/taxController.js:5-13 | Bracket upper ends strictly increase along the table |
| TaxBrackets.MarginalRateMonotone | backend/src/controllers/taxController.js:35-44 | The marginal rate never decreases as taxable income grows |
| TaxBrackets.MarginalRateAtBracketTop | backend/src/controllers/taxController.js:39 | At exactly a bracket's upper end the lower bracket's rate applies (the test is `<=`); one cent above it, the next bracket's rate applies |
| TaxRecommendations.RulesRanked | backend/src/controllers/taxController.js:47-78 | The six rules are listed in strictly increasing test order |
| TaxRecommendations.FiredRules | backend/src/controllers/taxController.js:50-78 | A rule is kept exactly when its condition holds, and the kept rules stay in test order |
| TaxRecommendations.AdviceOrFallback | backend/src/controllers/taxController.js:80-82 | With no rule fired, the list is the closing message alone; otherwise it is one advice per fired rule, in order |
| TaxRecommendations.AdviceListsFired | backend/src/controllers/taxController.js:47-85 | An advice is in the list iff its rule fired, and the closing message is in it iff none fired |
| TaxRecommendations.GenerateTaxRecommendations | backend/src/controllers/taxController.js:47-85 | Never empty; each rule's advice is present iff its condition holds, and the advice entries appear in the order the rules are checked; the closing message is present iff no rule fires, and then it is alone |
| TaxRecommendations.RecommendationsInRuleOrder | backend/src/controllers/taxController.js:47-85 | The list is determined: for any list of rules holding exactly the fired ones in checking order, the recommendations are those rules' advice in turn, or the closing message alone when none fires |
| TaxRecommendations.IncomeRuleImpliesOthers | backend/src/controllers/taxController.js:51-76 | Income over 50,000 with under 5,000 of deductions also fires the missing-deductions, quarterly-payment and equipment rules |
| Rules.Fired | backend/src/controllers/taxController.js:50-78 | Filtering a rule table keeps exactly the listed rules whose condition holds |
| Rules.FiredKeepsOrder | backend/src/controllers/taxController.js:50-78 | Filtering a table in rule order leaves the kept rules in rule order |
| TaxEstimate.TaxableIncome | backend/src/controllers/taxController.js:120 | Taxable income is non-negative: the income less the deductions, or 0 when the deductions exceed the income |
| TaxEstimate.EffectiveRate | backend/src/controllers/taxController.js:126 | With income, the rate is the tax as a percentage of the income; without income, it is 0 |
| TaxEstimate.EstimateFromTotals | backend/src/controllers/taxController.js:113-151 | The estimate echoes the year and the three totals; taxable income is income less deductions floored at 0; total tax is federal tax on the taxable income plus 14.13% of all income; the quarterly payment is a quarter of it; the effective rate is the tax as a percentage of income (0 without income); the marginal rate is that of the taxable income; the recommendations are those generated for income, deductions, expenses and that effective rate |
| TaxEstimate.GetTaxEstimate | backend/src/controllers/taxController.js:113-151 | The estimate is the one computed from the sums of the year's income, expense and deductible-expense records, so its totals are those sums; with non-negative amounts the tax is non-negative |
| TaxEstimate.EstimateOf80k | backend/src/controllers/taxController.js:113-128 | 80,000 of income with 10,000 deductible gives taxable 70,000, federal 7,660.50, self-employment 11,304 and total 18,964.50 |
| TaxEstimate.SnapshotOf | backend/src/controllers/taxController.js:209-227 | A side of the comparison carries its income, deductions, taxable income, total tax and effective rate |
| TaxEstimate.OrZero | backend/src/controllers/taxController.js:170-172 | A request field left out counts as 0 |
| TaxEstimate.CalculateTaxScenario | backend/src/controllers/taxController.js:199-235 | The scenario adds the extra income, and the extra expenses plus the retirement contribution, to the current figures; the difference echoes the three inputs (0 when left out); taxSavings is current minus scenario tax; netImpact is the extra income plus taxSavings |
| TaxEstimate.ScenarioZeroDeltas | backend/src/controllers/taxController.js:199-235 | With no changes the scenario equals the current situation, and taxSavings and netImpact are 0 |
| TaxEstimate.ScenarioSavingsNonNegative | backend/src/controllers/taxController.js:199-235 | When the extra income is left out or 0, non-negative extra deductions never raise the tax |
| TaxEstimate.QuarterlySchedule | backend/src/controllers/taxController.js:280-308 | Four installments Q1 to Q4, each a quarter of the tax and together the whole tax; the periods end on Mar 31, May 31, Aug 31 and Dec 31 and run consecutively from Jan 1; the due dates are Apr 15, Jun 17 and Sep 16 of the year and Jan 15 of the next; each is due after its period ends |
| TaxEstimate.GetTaxDeadlines | backend/src/controllers/taxController.js:332-375 | The response holds exactly the six deadlines, sorted by date |
| TaxEstimate.DeadlineKeysIncrease | backend/src/controllers/taxController.js:332-369 | In the order Q1, Q2, Q3, Q4, 1099 forms, annual return, the dates strictly increase |
| TaxEstimate.DeadlinesInDateOrder | backend/src/controllers/taxController.js:332-375 | After sorting, the list is Q1, Q2, Q3, Q4, 1099 forms, annual return: Q4 and the forms move ahead of the annual return |
| Sorting.InsertKeepsElements | backend/src/controllers/taxController.js:375 | Inserting into the sorted part adds exactly the inserted element |
| Sorting.InsertKeepsSorted | backend/src/controllers/taxController.js:375 | Inserting into a sorted sequence keeps it sorted |
| Sorting.SortBy | backend/src/controllers/taxController.js:375 | The sort returns a permutation of its input in ascending key order, and it is stable: the elements of each key keep their input order |
| Sorting.InsertWithKey | backend/src/controllers/taxController.js:375 | Inserting an element puts it first among the elements of its key and leaves the others of every key in order |
| Sorting.SortedHeadLeast | backend/src/controllers/taxController.js:375 | The first element of a sorted sequence has the least key |
| Sorting.StrictHeadUnique | backend/src/controllers/taxController.js:375 | With strictly increasing keys, only the head has the least key |
| Sorting.TailsSorted | backend/src/controllers/taxController.js:375 | Dropping the head keeps a sequence sorted, or strictly sorted |
| Sorting.SortedPermutationUnique | backend/src/controllers/taxController.js:375 | When all keys differ, a sorted permutation is unique, so the sorted deadline list is determined |
| Records.Deductibles | backend/src/controllers/reportController.js:32-34 | The filter keeps exactly the deductible expenses |
| Records.IncomeTotalNonNegative | backend/src/models/Income.js:24 | With non-negative amounts, the income total is non-negative |
| Records.ExpenseTotalNonNegative | backend/src/models/Expense.js:18 | With non-negative amounts, the expense total is non-negative |
| Records.DeductibleWithinTotal | backend/src/controllers/reportController.js:31-34 | With non-negative amounts, the deductible sum lies between 0 and the expense total |
| Records.IncomeTotalAppend | backend/src/controllers/reportController.js:30 | The income sum of two lists is the sum of their sums |
| Records.ExpenseTotalAppend | backend/src/controllers/reportController.js:31 | The expense sum of two lists is the sum of their sums |
| Records.OneUpToCountsOnce | backend/src/controllers/reportController.js:93-103 | Over months 1 to n, an amount is counted once if its month is among them, otherwise not at all |
| Records.IncomeUpToMonthSplit | backend/src/controllers/reportController.js:93-103 | The income of months 1 to n splits into the first record's share and the rest's |
| Records.IncomeUpToMonthEmpty | backend/src/controllers/reportController.js:93-103 | Without records every month is 0 |
| Records.MonthlyIncomesSumToTotal | backend/src/controllers/reportController.js:93-103 | When every record is dated in the year, the twelve monthly incomes add up to the total income |
| Records.MonthlyTotals | backend/src/controllers/dashboardController.js:41-59 | Twelve rows numbered 1 to 12, each holding the income and expenses dated in that month of the year |
| Records.MonthlyTotalsPrefix | backend/src/controllers/dashboardController.js:41-59 | The first n rows hold the income of months 1 to n |
| Records.MonthlyTotalsCoverIncome | backend/src/controllers/dashboardController.js:41-59 | When every record is dated in the year, the rows' incomes add up to the total income |
| Grouping.FindGroup | backend/src/controllers/reportController.js:46 | The lookup finds a group of the category, or None exactly when there is none |
| Grouping.FirstFlagSnoc | backend/src/controllers/reportController.js:67-84 | Adding an entry changes a category's first deductible flag only if the category had no entry yet |
| Grouping.FirstFlagNoneIffAbsent | backend/src/controllers/reportController.js:67-84 | A category has no first flag iff no entry has that category |
| Grouping.HasCategorySnoc | backend/src/controllers/reportController.js:45-59 | After adding an entry, a category is present iff it was present before or is the entry's |
| Grouping.AddEntry | backend/src/controllers/reportController.js:45-57 | One reduce step adds a group only for a category not seen yet, leaves a group of that category in the result, and leaves the other categories' groups as they were |
| Grouping.AddToExisting | backend/src/controllers/reportController.js:47-72 | Adding an entry to its existing group keeps every grouping invariant |
| Grouping.AddNew | backend/src/controllers/reportController.js:50-82 | Starting a group for a new category keeps every grouping invariant |
| Grouping.GroupByCategorySummarises | backend/src/controllers/reportController.js:45-84 | `GroupByCategory`'s grouping has one group per category that occurs. Each group's amount, count and deductible amount are the sum, number and deductible sum of the entries of its own category (`InCategory`); the group amounts, counts and deductible amounts add up to the totals; each flag is that of the category's first entry |
| Grouping.InCategorySnoc | backend/src/controllers/reportController.js:45-59 | Appending an entry extends its own category's selection by that entry and leaves every other category's selection unchanged |
| Grouping.GroupAmountsAddUp | backend/src/controllers/reportController.js:45-59 | The group amounts add up to the entries' amounts |
| AnnualReport.ReportEstimatedTax | backend/src/controllers/reportController.js:35-42 | At least 14.13% of income: exactly that up to 13,850 of taxable income, plus 22% of the taxable income above 13,850 |
| AnnualReport.ReportTaxMonotone | backend/src/controllers/reportController.js:35-42 | More income never lowers the report's estimate; more deductions never raise it |
| AnnualReport.QuarterlyPayments | backend/src/controllers/reportController.js:115-144 | Four unpaid payments, each a quarter of the estimate, carrying the tax endpoint's installments, so the same periods and the due dates Apr 15, Jun 17, Sep 16 and Jan 15 of the next year |
| AnnualReport.ReportDeadlines | backend/src/controllers/reportController.js:165-171 | Five deadlines in the order Q1 (Apr 15), Q2 (Jun 17), Q3 (Sep 16), annual return (Apr 15 of the next year), Q4 (Jan 15 of the next year): exactly the tax endpoint's deadlines without the 1099 forms, with Q4 listed after the later annual return |
| AnnualReport.IncomeItems | backend/src/controllers/reportController.js:45-59 | One grouping item per income, carrying its category and amount |
| AnnualReport.ExpenseItems | backend/src/controllers/reportController.js:67-84 | One grouping item per expense, carrying its category, amount and deductible flag |
| AnnualReport.IncomeItemsTotal | backend/src/controllers/reportController.js:30 | The items' amounts add up to the income total |
| AnnualReport.ExpenseItemsTotals | backend/src/controllers/reportController.js:31-34 | The items' amounts add up to the expense total, and their deductible amounts to the deductible total |
| AnnualReport.Percentage | backend/src/controllers/reportController.js:63-88 | With a positive total, the percentage is the amount's share times 100; otherwise it is 0 |
| AnnualReport.IncomeCategories | backend/src/controllers/reportController.js:61-64 | Each group keeps its category, amount and count, and gets its share of the total |
| AnnualReport.ExpenseCategories | backend/src/controllers/reportController.js:86-89 | Each group keeps its category, amount, count, deductible amount and flag, and gets its share of the total |
| AnnualReport.PercentagesSum | backend/src/controllers/reportController.js:61-64 | The groups' percentages add up to the groups' summed amount as a percentage of the total |
| AnnualReport.IncomeCategoriesPercentages | backend/src/controllers/reportController.js:60-63 | The income categories' percentages add up to the same sum as the groups' percentages |
| AnnualReport.ExpenseCategoriesPercentages | backend/src/controllers/reportController.js:86-89 | The expense categories' percentages add up to the same sum as the groups' percentages |
| AnnualReport.IncomePercentagesSumTo100 | backend/src/controllers/reportController.js:45-64 | With some income, the income-category percentages add up to 100 |
| AnnualReport.ExpensePercentagesSumTo100 | backend/src/controllers/reportController.js:66-89 | With some expenses, the expense-category percentages add up to 100 |
| AnnualReport.IncomeByCategory | backend/src/controllers/reportController.js:159 | The returned income categories are a permutation of the groups, sorted by amount, largest first |
| AnnualReport.ExpensesByCategory | backend/src/controllers/reportController.js:160 | The returned expense categories are a permutation of the groups, sorted by amount, largest first |
| AnnualReport.IncomeItemsCategories | backend/src/controllers/reportController.js:45-59 | The items carry exactly the incomes' categories |
| AnnualReport.IncomeGroupsSummarise | backend/src/controllers/reportController.js:45-59 | Each income category appears once; the group amounts add up to the total income and the counts to the number of entries; a group exists iff some income has its category; each group's amount and count are the sum and number of the incomes of its category |
| AnnualReport.ExpenseGroupsSummarise | backend/src/controllers/reportController.js:32-84 | Each expense category appears once; the amounts add up to the total, the deductible amounts to the deductible total, and the counts to the number of entries; with non-negative amounts each group's deductible amount is at most its amount; each flag is that of the category's first entry; each group's amount, count and deductible amount are those of the expenses of its category |
| AnnualReport.IncomeByCategorySums | backend/src/controllers/reportController.js:45-59 | Each row of the report's income breakdown has the sum and number of the incomes of its own category |
| AnnualReport.ExpensesByCategorySums | backend/src/controllers/reportController.js:66-84 | Each row of the report's expense breakdown has the sum, number and deductible sum of the expenses of its own category |
| AnnualReport.MonthlyBreakdown | backend/src/controllers/reportController.js:92-112 | Twelve rows numbered 1 to 12, each with the income and expenses dated in its month, and net income as their difference |
| AnnualReport.GenerateAnnualReport | backend/src/controllers/reportController.js:30-179 | The report carries the requested year; the summary's totals are the records' sums; taxable income, estimate, net income and effective rate (0 without income) follow from them; the category breakdowns are IncomeByCategory and ExpensesByCategory of the records; the report carries the monthly breakdown, the quarterly payments and the report's deadline list; the monthly averages are a twelfth of the totals |
| AnnualReport.Change | backend/src/controllers/reportController.js:231-233 | The change is the percentage growth from the previous value when that is positive, and 0 otherwise |
| AnnualReport.ChangeDirection | backend/src/controllers/reportController.js:231-233 | From a positive previous value, the change is positive iff the figure grew and 0 iff it stayed; it is never below -100% for a non-negative current value |
| AnnualReport.Figures | backend/src/controllers/reportController.js:217-249 | A year's figures: net income is income less expenses, and the entry count counts both kinds of record |
| AnnualReport.GetReportSummary | backend/src/controllers/reportController.js:193-270 | The four changes are the year-over-year changes, the net change being 0 when the previous net is not positive. A summary rule is listed iff it fires, in rule order, at most three |
| ReportExport.IncomeRows | backend/src/controllers/reportController.js:326-328 | One row per income, in order |
| ReportExport.ExpenseRows | backend/src/controllers/reportController.js:335-337 | One row per expense, in order |
| ReportExport.TotalRecords | backend/src/controllers/reportController.js:317 | The record count counts the selected sections only, and all records for type "all" |
| ReportExport.LinesAppend | backend/src/controllers/reportController.js:322-338 | Writing two blocks of lines one after the other writes all their lines |
| ReportExport.LinesIsJoin | backend/src/controllers/reportController.js:322-338 | `Lines`: lines each ended by a newline are the lines joined by newlines with a final empty line |
| ReportExport.NoNewlineConcat | backend/src/controllers/reportController.js:327-336 | Joining two texts without line breaks gives a text without line breaks |
| ReportExport.IncomeRowClean | backend/src/controllers/reportController.js:327 | `IncomeRow`: an income row whose fields have no line breaks has none itself |
| ReportExport.ExpenseRowClean | backend/src/controllers/reportController.js:336 | `ExpenseRow`: an expense row whose fields have no line breaks has none itself |
| ReportExport.HeadersClean | backend/src/controllers/reportController.js:325-333 | The headers have no line breaks, and the income header starts with the text the expense branch looks for |
| ReportExport.ExportHasOneHeader | backend/src/controllers/reportController.js:320-338 | `ExportCsv`'s export is empty when no section is selected, and otherwise exactly one header line followed by one line per record of the selected sections |
| ReportExport.ExportLines | backend/src/controllers/reportController.js:320-338 | Split at line breaks, `ExportCsv`'s export gives the header, the record lines and a final empty piece: two more pieces than records |
| Dashboard.OverviewEstimatedTax | backend/src/controllers/dashboardController.js:31-34 | The overview's estimate is at least 14.13% of income and equals the annual report's estimate for the same figures |
| Dashboard.ShareBounded | backend/src/controllers/dashboardController.js:38 | A part between 0 and the whole covers between 0 and 100 percent |
| Dashboard.CoverageBounded | backend/src/controllers/dashboardController.js:24-38 | With non-negative amounts, the coverage lies between 0 and 100 |
| Dashboard.GetDashboardOverview | backend/src/controllers/dashboardController.js:7-81 | The overview's totals are the records' sums; the estimate equals the annual report's and the quarterly tax is a quarter of it; the coverage is the deductible share of the expenses as a percentage, 0 without expenses and within [0, 100] for non-negative amounts; the breakdown is twelve months whose incomes add up to the total when every record is in the year |
| Dashboard.Since | backend/src/controllers/dashboardController.js:118-138 | The `$gte` date filter, for incomes and expenses alike, keeps exactly the records dated on or after the start |
| Dashboard.IncomesSinceShrinks | backend/src/controllers/dashboardController.js:112-125 | With non-negative amounts, a later start never adds income: monthly ≤ yearly ≤ all-time |
| Dashboard.ExpensesSinceShrinks | backend/src/controllers/dashboardController.js:127-140 | With non-negative amounts, a later start never adds expenses: monthly ≤ yearly ≤ all-time |
| Dashboard.CategoryTotals | backend/src/controllers/dashboardController.js:149-155 | Each group becomes a category total with the same category, sum and count |
| Dashboard.ByCategory | backend/src/controllers/dashboardController.js:147-157 | The category totals, as a permutation, sorted by total, largest first |
| Dashboard.ByCategorySums | backend/src/controllers/dashboardController.js:147-157 | Each row's total and count are the sum and number of the entries of its own category |
| Dashboard.Recent | backend/src/controllers/dashboardController.js:159-161 | At most five records, drawn from the input without duplication beyond it (a sub-multiset), most recent first; no record left out is more recent than one kept |
| Dashboard.SummaryTaxOf | backend/src/controllers/dashboardController.js:187-191 | The taxable income is the yearly income less the deductions, floored at 0, and the estimate is 25% of it |
| Dashboard.GetDashboardSummary | backend/src/controllers/dashboardController.js:86-192 | All-time, monthly and yearly totals are the sums of the records since each start; each profit is income less expenses; the category lists are the per-category totals of income and of expenses, largest first; the recent lists are the five most recent income and expense records; the tax block is non-negative; with non-negative amounts monthly ≤ yearly ≤ all-time |
| Dashboard.DeductiblesSnoc | backend/src/controllers/dashboardController.js:142-145 | Adding an expense extends the deductible filter by it exactly when it is deductible |
| Dashboard.SinceSnoc | backend/src/controllers/dashboardController.js:118-140 | Adding a record at the end extends the date filter's result by it exactly when it is on or after the start, and leaves the rest in order |
| Dashboard.SummaryTaxCountsEarlierDeductions | backend/src/controllers/dashboardController.js:142-190 | A deductible expense dated before the year leaves the yearly expenses unchanged but raises the tax block's deductible amount |
| Dashboard.FindMonth | backend/src/controllers/dashboardController.js:251-252 | The lookup returns the first aggregate with that month number, or None exactly when there is none |
| Dashboard.MonthlyTrends | backend/src/controllers/dashboardController.js:250-262 | Twelve months numbered 1 to 12, each with its aggregate's total and count, or zeros when the month has none, and profit as income less expenses |
| Dashboard.DatedOf | backend/src/controllers/dashboardController.js:215-246 | One dated amount per income or expense, in order, carrying its date and amount |
| Dashboard.EmptyMonthSumsToZero | backend/src/controllers/dashboardController.js:222-228 | A month with no records sums to 0 |
| Dashboard.IncomeMonthSum | backend/src/controllers/dashboardController.js:222-228 | The aggregation's sum for a month is the month's income |
| Dashboard.ExpenseMonthSum | backend/src/controllers/dashboardController.js:238-244 | The aggregation's sum for a month is the month's expenses |
| Dashboard.MonthAggregates | backend/src/controllers/dashboardController.js:215-246 | The by-month aggregation lists only months with records, each once, in increasing month order |
| Dashboard.FindPastHead | backend/src/controllers/dashboardController.js:251-252 | The lookup skips a leading aggregate of another month |
| Dashboard.FindInAggregates | backend/src/controllers/dashboardController.js:215-252 | Looking a month up in the aggregation gives that month's sum and count, or zeros |
| Dashboard.TrendOfMonth | backend/src/controllers/dashboardController.js:206-262 | Each trend month holds the income, expenses, profit and counts of the records dated in that month |
| Dashboard.TrendsMatchRecords | backend/src/controllers/dashboardController.js:206-262 | `GetMonthlyTrends`: all twelve trend months match the records, and their incomes and expenses agree with the overview's monthly breakdown |
| ListQuery.SortOf | backend/src/controllers/expenseController.js:8-37 | The sort is ascending only for "asc"; the field defaults to date |
| ListQuery.Skip | backend/src/controllers/expenseController.js:40 | The skip is non-negative, and one page further it reaches page × limit |
| ListQuery.Pages | backend/src/controllers/expenseController.js:66 | The page count is the least number of pages that holds every record |
| ListQuery.SkipWithinTotal | backend/src/controllers/expenseController.js:40-66 | Every page from the first to the last starts at a record that exists |
| ListQuery.PageOf | backend/src/controllers/expenseController.js:42 | A page has at most `limit` records: the slice at the skip when it is full, and nothing past the end |
| ListQuery.FirstPagesArePrefix | backend/src/controllers/expenseController.js:40-42 | Reading the first n pages gives the first n × limit matches |
| ListQuery.PagesCoverMatches | backend/src/controllers/expenseController.js:40-66 | Reading every page from 1 to the page count returns every match exactly once, in order |
| ListQuery.PaginationOf | backend/src/controllers/expenseController.js:62-67 | The pagination echoes page, limit and total, with the least page count that holds the total |
| ListQuery.ExpenseQueryOf | backend/src/controllers/expenseController.js:12-33 | The filter always carries the user, and its deductible filter is present iff the parameter is, and true iff the parameter is "true" |
| ListQuery.ExpenseQueryMeaning | backend/src/controllers/expenseController.js:12-33 | An expense matches iff it is the user's and passes each filter whose parameter is given: category, search over description or vendor, date bounds, deductible flag |
| ListQuery.ExpenseMatching | backend/src/controllers/expenseController.js:42-43 | The matches are exactly the stored records the filter accepts |
| ListQuery.ExpenseMatchingSnoc | backend/src/controllers/expenseController.js:42-50 | A record stored last is appended to the matches exactly when the filter accepts it, and adds its amount to the matches' total, so each record counts once and in storage order |
| ListQuery.StorageOrderPermutes | backend/src/controllers/expenseController.js:42 | Storage order is a valid database order: it rearranges nothing it is not given |
| ListQuery.DeductibleQueryMeaning | backend/src/controllers/expenseController.js:52-55 | With `DeductibleQuery`'s forced filter, the deductible sum counts the deductible records among those the other filters accept, whatever deductible filter was asked for |
| ListQuery.GetExpenses | backend/src/controllers/expenseController.js:6-74 | For any order that rearranges the matches, the page is the slice of the ordered matches at the skip and holds only the user's records the filter accepts; pagination and totals describe all matches; the deductible sum uses the forced filter; a page has at most 100 records |
| ListQuery.IncomeQueryOf | backend/src/controllers/incomeController.js:12-29 | The filter always carries the user |
| ListQuery.IncomeQueryMeaning | backend/src/controllers/incomeController.js:12-29 | An income matches iff it is the user's and passes each filter whose parameter is given: category, search over source or description, date bounds |
| ListQuery.IncomeMatching | backend/src/controllers/incomeController.js:38-39 | The matches are exactly the stored records the filter accepts |
| ListQuery.IncomeMatchingSnoc | backend/src/controllers/incomeController.js:38-46 | A record stored last is appended to the matches exactly when the filter accepts it, and adds its amount to the matches' total |
| ListQuery.GetIncomes | backend/src/controllers/incomeController.js:6-63 | For any order that rearranges the matches, the page is the slice of the ordered matches at the skip and holds only the user's records the filter accepts; pagination and total describe all matches; a page has at most 100 records |
| FrontendUtils.CalculateTax | frontend/src/lib/utils.ts:23-28 | Non-negative; 0 when income less expenses is at most 13,850; otherwise 15.3% of the excess |
| FrontendUtils.CalculateTaxMonotone | frontend/src/lib/utils.ts:23-28 | More income never lowers the estimate; more expenses never raise it |
| FrontendUtils.CalculateQuarterlyTax | frontend/src/lib/utils.ts:30-32 | Four quarterly shares make up the annual tax |
| FrontendUtils.After | frontend/src/lib/utils.ts:45 | The filter keeps exactly the deadlines strictly after now |
| FrontendUtils.ClientDeadlinesChronological | frontend/src/lib/utils.ts:36-42 | The fixed list's dates strictly increase |
| FrontendUtils.ChronologicalTail | frontend/src/lib/utils.ts:36-42 | The tail of a chronological list is chronological and comes after its head |
| FrontendUtils.AfterChronological | frontend/src/lib/utils.ts:45 | Filtering a chronological list keeps it chronological |
| FrontendUtils.GetNextTaxDeadlines | frontend/src/lib/utils.ts:34-46 | At most three deadlines from the list, all strictly after now, in increasing order, and the first ones of the list's part after now |
| FrontendUtils.NextDeadlinesAreEarliest | frontend/src/lib/utils.ts:34-46 | A later deadline left out comes after every deadline returned |
| FrontendUtils.FirstMatch | frontend/src/lib/utils.ts:51-73 | The label is a rule that matches, or Other when no rule does |
| FrontendUtils.CategorizeExpense | frontend/src/lib/utils.ts:48-74 | A label other than Other has a keyword in the lower-cased description; Other iff no rule's keyword occurs |
| FrontendUtils.FirstMatchIsFirst | frontend/src/lib/utils.ts:51-73 | The first rule that matches wins |
| FrontendUtils.CategorizeIgnoresCase | frontend/src/lib/utils.ts:49 | Upper and lower case do not change the label |
| FrontendUtils.EarlierRuleWins | frontend/src/lib/utils.ts:51-56 | "phone software" matches two rules and is labelled Internet & Phone |
| FrontendUtils.CalculateTaxScore | frontend/src/lib/utils.ts:76-99 | The score is a multiple of 5 in [0, 100]. It is 100 iff there are income entries, more than ten expense entries, a positive income, and expenses above 20% of it |
| FrontendUtils.ScoreMonotoneInExpenseEntries | frontend/src/lib/utils.ts:88-89 | More expense entries never lower the score |
| EstimatePage.GetMarginalRate | frontend/src/app/dashboard/estimate/page.tsx:71-76 | One of 10, 12, 22 and 24; 10 up to 11,000; never above 24 |
| EstimatePage.MarginalRateMonotone | frontend/src/app/dashboard/estimate/page.tsx:71-76 | The page's rate never decreases as income grows |
| EstimatePage.AgreesWithEndpointRate | frontend/src/app/dashboard/estimate/page.tsx:71-76 | Up to 182,050, the page's rate is the tax endpoint's rate once the endpoint's deduction is added back; above that, it is never higher |
| EstimatePage.SameConditionsAsEndpoint | frontend/src/app/dashboard/estimate/page.tsx:78-95 | Each page rule tests the same condition, in the same position, as one of the first four rules of the tax endpoint |
| EstimatePage.PageRulesRanked | frontend/src/app/dashboard/estimate/page.tsx:78-95 | The four rules are listed in strictly increasing test order |
| EstimatePage.FiredPageRules | frontend/src/app/dashboard/estimate/page.tsx:81-95 | A rule is kept exactly when its condition holds, in test order |
| EstimatePage.AdviceOrLooksGood | frontend/src/app/dashboard/estimate/page.tsx:97-99 | With no rule fired, the list is the closing message alone; otherwise it is one advice per fired rule |
| EstimatePage.AdviceListsFired | frontend/src/app/dashboard/estimate/page.tsx:78-102 | An advice is present iff its rule fired, and the closing message iff none fired |
| EstimatePage.GenerateRecommendations | frontend/src/app/dashboard/estimate/page.tsx:78-102 | Never empty; an advice is present iff its rule fires, and the advice entries appear in the order the rules are checked; the closing message is present iff none fires, and then it is alone |
| EstimatePage.RecommendationsInRuleOrder | frontend/src/app/dashboard/estimate/page.tsx:78-102 | The list is determined: for any list of rules holding exactly the fired ones in checking order, the recommendations are those rules' advice in turn, or the closing message alone |
| EstimatePage.IncomeLevelImpliesMissing | frontend/src/app/dashboard/estimate/page.tsx:81-93 | The income-level rule also fires the missing-deductions rule |
| EstimatePage.ScenarioRequestOf | frontend/src/app/dashboard/estimate/page.tsx:109-117 | An unparseable input becomes 0, a parsed one is sent as it is, and the retirement contribution is 0 |
| EstimatePage.ScenarioViewOf | frontend/src/app/dashboard/estimate/page.tsx:122-135 | The shown scenario carries the selected year, the scenario's income, deductions, taxable income, tax and effective rate, and the current expenses; its quarterly payment is a quarter of its tax |
| EstimatePage.CalculateScenario | backend/src/routes/taxRoutes.js:10-15 | The scenario request gets a view exactly when the route schema accepts it: no parsed amount is negative |
| EstimatePage.ScenarioRoundTrip | frontend/src/app/dashboard/estimate/page.tsx:109-135 | A negative input is rejected; otherwise the shown income and deductions are the current ones plus the parsed inputs, the shown tax is the tax of those figures and the quarterly payment a quarter of it; empty inputs reproduce the current tax |
| EstimatePage.DeductionSavings | frontend/src/app/dashboard/estimate/page.tsx:325-332 | The shown savings are the deductions times the marginal rate over 100 |
| EstimatePage.SavingsWithinRates | frontend/src/app/dashboard/estimate/page.tsx:325-332 | At the endpoint's marginal rate, the savings lie between 10% and 37% of the deductions |
| EstimatePage.ChangePrefix | frontend/src/app/dashboard/estimate/page.tsx:395-415 | '+' iff the scenario value strictly exceeds the current one, and nothing otherwise |
| RegisterPage.ValidatePassword | frontend/src/app/register/page.tsx:27-35 | Each requirement holds iff the password has at least 8 characters, an upper-case letter, a lower-case letter or a digit, respectively |
| RegisterPage.AcceptedPasswordPassesServer | frontend/src/app/register/page.tsx:29 | A password the page accepts has the server's minimum of 6 characters |
| RegisterPage.HandleSubmit | frontend/src/app/register/page.tsx:40-71 | Register is called, with the form's values, iff names, password, confirmation and terms all pass; otherwise the first failing check, in that order, gives the error |
| RegisterPage.BlankNameRejected | frontend/src/app/register/page.tsx:46-50 | A first or last name of only white space is rejected before anything else |
| RegisterPage.UnicodeSpaceNameRejected | frontend/src/app/register/page.tsx:46-50 | A first name of an ideographic space and a last name of an em space and a no-break space are rejected as blank |
| RegisterPage.RegisteredPasswordLongEnough | frontend/src/app/register/page.tsx:40-71 | Every submit that reaches register sends a password the server accepts |
| IncomePage.AmountCheck | frontend/src/app/dashboard/income/page.tsx:124-131 | No amount error iff the text is present and parses to a positive number; the not-a-number message iff the text is present and does not parse, overriding the required message |
| IncomePage.ValidateForm | frontend/src/app/dashboard/income/page.tsx:119-135 | Source and description are flagged iff blank after trimming; category and date iff empty |
| IncomePage.ValidateFormMeaning | frontend/src/app/dashboard/income/page.tsx:119-135 | The form passes iff source and description hold a visible character, the amount parses to a positive number, and category and date are filled; the platform plays no part |
| IncomePage.HandleSubmit | frontend/src/app/dashboard/income/page.tsx:137-154 | A payload is sent iff the form passes: source and description trimmed and non-empty, the parsed positive amount, and an empty platform left out |
| IncomePage.EditDate | frontend/src/app/dashboard/income/page.tsx:190 | The edit date is the longest prefix of the stored date without 'T' |
| IncomePage.EditDateOfTimestamp | frontend/src/app/dashboard/income/page.tsx:190 | A timestamp `day + "T" + time` gives back its day |
| IncomePage.EditDateIdempotent | frontend/src/app/dashboard/income/page.tsx:190 | Taking the date part twice changes nothing |
| IncomePage.EditForm | frontend/src/app/dashboard/income/page.tsx:182-191 | The edit form copies the entry, shows a missing platform as empty text, and keeps only the date part |
| IncomePage.EditThenSubmitKeepsEntry | frontend/src/app/dashboard/income/page.tsx:147-191 | Saving an unchanged edit form sends back the entry's amount, category, date and platform |
| IncomePage.Capitalize | frontend/src/app/dashboard/income/page.tsx:231 | Same length; the first character upper-cased, the rest kept |
| IncomePage.CapitalizeAll | frontend/src/app/dashboard/income/page.tsx:230-231 | Each word capitalised, in order |
| IncomePage.Labelled | frontend/src/app/dashboard/income/page.tsx:229-233 | The character-by-character reference: each '-' becomes a space, the first character and every character after a '-' are upper-cased |
| IncomePage.LabelledWord | frontend/src/app/dashboard/income/page.tsx:231 | A word without '-' is labelled by capitalising it |
| IncomePage.LabelledSplitsAtHyphen | frontend/src/app/dashboard/income/page.tsx:229-233 | The label of `word-rest` is the capitalised word, a space, and the label of the rest |
| IncomePage.FormatCategoryNameIsLabelled | frontend/src/app/dashboard/income/page.tsx:229-233 | `FormatCategoryName`'s split, capitalise and join agree with the character-by-character reference |
| IncomePage.FormatCategoryNameProperties | frontend/src/app/dashboard/income/page.tsx:229-233 | The label has the category's length and no '-', and formatting it again changes nothing |
| IncomePage.BankTransferLabel | frontend/src/app/dashboard/income/page.tsx:229-233 | "bank-transfer" reads "Bank Transfer" |
| IncomePage.LabelledBankTransfer | frontend/src/app/dashboard/income/page.tsx:229-233 | The reference label of "bank-transfer" is "Bank Transfer" |
| ExpensesPage.ValidateForm | frontend/src/app/dashboard/expenses/page.tsx:134-150 | The description is flagged iff blank; category, payment method and date iff empty; the amount as on the income page, including the not-a-number override |
| ExpensesPage.ValidateFormMeaning | frontend/src/app/dashboard/expenses/page.tsx:134-150 | The form passes iff the description holds a visible character, the amount parses to a positive number, and category, payment method and date are filled; the two flags play no part |
| ExpensesPage.HandleSubmit | frontend/src/app/dashboard/expenses/page.tsx:152-170 | A payload is sent iff the form passes, with the trimmed description, the parsed amount and the form's other fields |
| ExpensesPage.BlankForm | frontend/src/app/dashboard/expenses/page.tsx:57-65 | The initial form (and the form the dialog resets to) is deductible and not recurring, with empty fields and today's date |
| ExpensesPage.BlankFormBlocked | frontend/src/app/dashboard/expenses/page.tsx:134-150 | Submitting a blank form is always blocked, with the description flagged |
| ExpensesPage.EditForm | frontend/src/app/dashboard/expenses/page.tsx:198-208 | The edit form shows the entry's description, amount text and category, a missing payment method as empty text, the date part and the two flags |
| ExpensesPage.EditThenSubmit | frontend/src/app/dashboard/expenses/page.tsx:162-208 | Saving an unchanged edit form is sent exactly when the description has a visible character, the amount text and category are non-empty, the amount is positive, the date is set and the entry has a non-empty payment method; what is sent is the trimmed description, the amount, category, payment method, date and flags of the entry |
| ExpensesPage.FindChoice | frontend/src/app/dashboard/expenses/page.tsx:248-253 | The lookup finds the first entry with the value, or None exactly when no entry has it |
| ExpensesPage.LabelOf | frontend/src/app/dashboard/expenses/page.tsx:247-255 | An unlisted value is shown as it is |
| ExpensesPage.LabelOfListed | frontend/src/app/dashboard/expenses/page.tsx:247-255 | In a table of distinct values, a listed value is shown with its caption |
| ExpensesPage.CategoriesDistinct | frontend/src/app/dashboard/expenses/page.tsx:69-83 | The thirteen category values are distinct |
| ExpensesPage.PaymentMethodsDistinct | frontend/src/app/dashboard/expenses/page.tsx:85-93 | The seven payment-method values are distinct |
| ExpensesPage.LabelLookups | frontend/src/app/dashboard/expenses/page.tsx:247-255 | A listed category or payment method gets its table caption; anything else is shown unchanged |
| ExpensesPage.OrFallback | frontend/src/app/dashboard/expenses/page.tsx:118-119 | A missing or zero value falls back |
| ExpensesPage.PageCards | frontend/src/app/dashboard/expenses/page.tsx:116-123 | The cards sum the page's entries and deductible entries, with the deductible sum at most the total; the page count is the pagination's when present and non-zero, else 1; the entry count is the pagination total when present and non-zero, else the number of entries; the average is over that count |
| ExpensesPage.Average | frontend/src/app/dashboard/expenses/page.tsx:332 | The average is 0 without entries, and otherwise the amount that many entries add up to the total |
| PricingPage.GetPrice | frontend/src/app/pricing/page.tsx:85-87 | The annual price on annual billing, the monthly price otherwise |
| PricingPage.GetSavings | frontend/src/app/pricing/page.tsx:89-95 | No savings iff the annual price is 0; otherwise savings plus the annual price is a year of monthly billing, and the percentage is the savings' share of a year of monthly billing, rounded |
| PricingPage.PlansHaveSavings | frontend/src/app/pricing/page.tsx:12-83 | Every plan in the table can be priced both ways |
| PricingPage.PlanSavings | frontend/src/app/pricing/page.tsx:16-95 | Free saves nothing; Pro saves 45 (31%); Premium saves 99 (28%) |
| PricingPage.SavingsPercentageBounded | frontend/src/app/pricing/page.tsx:89-95 | An annual price of at most a year of monthly billing saves between 0 and 100 percent |
| PricingPage.SavingsBadgeOnPaidPlans | frontend/src/app/pricing/page.tsx:196 | The savings badge shows for Pro and Premium exactly on annual billing, and never for Free |
| DashboardPage.PageFigures | frontend/src/app/dashboard/page.tsx:151-153 | Net income is income less expenses; with income, the rates are the tax and what is left after expenses and tax as percentages of it; without income, both are 0 |
| DashboardPage.RatesShareNetIncome | frontend/src/app/dashboard/page.tsx:151-153 | With income, the tax rate plus the savings rate is net income's share of income |
| DashboardPage.EffectiveRateAtLeastSelfEmployment | frontend/src/app/dashboard/page.tsx:152 | For an overview from the endpoint, the effective rate is at least 14.13% whenever there is income |
| DashboardPage.RateAtLeastShare | frontend/src/app/dashboard/page.tsx:152 | A tax of at least 14.13% of income is a rate of at least 14.13 |
| DashboardPage.ChartData | frontend/src/app/dashboard/page.tsx:156-159 | One chart row per month, keeping its fields and adding net income as income less expenses |
| DashboardPage.ChartNetAddsUp | frontend/src/app/dashboard/page.tsx:156-159 | The chart's net incomes add up to the breakdown's income less its expenses |
| DashboardPage.CoverageBarWidth | frontend/src/app/dashboard/page.tsx:394 | The bar is as wide as the coverage, capped at 100 |
| DashboardPage.CoverageBarShowsCoverage | frontend/src/app/dashboard/page.tsx:394 | For non-negative records the coverage never exceeds 100, so the bar shows it uncapped |
| DashboardPage.FormatCompactNumber | frontend/src/app/dashboard/page.tsx:65-73 | Millions iff the number is at least 1,000,000; thousands iff it is in [1,000, 1,000,000); plain otherwise |
| DashboardPage.CompactScalesBack | frontend/src/app/dashboard/page.tsx:65-73 | The scaled figure times its unit gives the number back, and lies in the range its suffix promises |
| Auth.SplitName | frontend/src/lib/auth.ts:56-58 | Without a space, the whole name is the first name; a leading space keeps the whole name as first name; otherwise the first name is non-empty and has no space; with a space, the last name is everything after the first space |
| Auth.SplitNameRebuilds | frontend/src/lib/auth.ts:56-58 | A name with a space that does not start with one equals first name, a space and last name |
| Auth.SplitNameOfJoined | frontend/src/lib/auth.ts:56-58 | Joining a first name without spaces and any last name with a space, then splitting, gives both back |
| Auth.Notify | frontend/src/lib/auth.ts:44-46 | Every listener is called once, in registration order, with the current user |
| Auth.Subscribe | frontend/src/lib/auth.ts:113-116 | The listener is appended and called at once with the current user |
| Auth.Remove | frontend/src/lib/auth.ts:120 | The filter keeps exactly the other listeners |
| Auth.RemoveAppend | frontend/src/lib/auth.ts:120 | Filtering works piece by piece, so the other listeners keep their order |
| Auth.RemoveKeepsOthers | frontend/src/lib/auth.ts:120 | Every other listener is kept as often as it was registered; the removed one not at all |
| Auth.RemoveAbsent | frontend/src/lib/auth.ts:120 | Removing a listener that is not registered changes nothing |
| Auth.Unsubscribe | frontend/src/lib/auth.ts:119-121 | Every registration of the listener is dropped, the others are kept, and nobody is called |
| Auth.SubscribeThenUnsubscribe | frontend/src/lib/auth.ts:113-121 | Subscribing a new listener and unsubscribing it restores the registry |
| Auth.SetUser | frontend/src/lib/auth.ts:33-82 | The user is stored, then every listener is told of it, in order |
| Auth.ClearAuth | frontend/src/lib/auth.ts:48-52 | The user is cleared before notifying, so every listener is told there is no user |
| Auth.ClearAuthIdempotent | frontend/src/lib/auth.ts:48-52 | After a clear no listener hears of a user, and clearing again tells the same listeners the same thing |
| Common.Round | frontend/src/app/pricing/page.tsx:93 | The rounded value lies within half a unit of the number |
| Common.ToLower | frontend/src/lib/utils.ts:49 | Same length, each character lower-cased |
| Common.ToLowerIdempotent | frontend/src/lib/utils.ts:49 | Lower-casing twice is lower-casing once |
| Common.TrimEmptyIffBlank | frontend/src/app/register/page.tsx:46 | A text trims to nothing iff it is only white space |
| Common.Split | frontend/src/lib/auth.ts:56 | At least one part, and no part holds the separator |
| Common.JoinSplit | frontend/src/lib/auth.ts:56-58 | Splitting and joining with the same separator gives the text back |
| Common.SplitJoin | frontend/src/app/dashboard/income/page.tsx:230-232 | Joining separator-free parts and splitting again gives the parts back |

## Left out

- The database is not modelled. Each `find`, `aggregate` and `countDocuments` is replaced by the sequence of matching records. The order the database sorts them in is a parameter of the list handlers (`order`). The report's JavaScript sort is stable, and `Sorting.SortBy` is proved stable. The dashboard's by-category `$sort` leaves the order of ties unspecified; the model keeps them in storage order.
- The `aggregate` pipelines are assumed to select the same records as `find` with the same `userId` filter (dashboardController.js:113-160 and 215-246, expenseController.js:47-56, incomeController.js:43-46). Mongoose does not cast the values inside an aggregation `$match` to the schema's ObjectId, so this holds only if the authentication middleware stores `req.user.id` as an ObjectId. That middleware is not part of this model.
- The create, read-one, update and delete handlers are left out. They are single persistence calls.
- Route schemas and the stored models enter only as preconditions:
  - amounts of at least 0;
  - page at least 1 and limit from 1 to 100;
  - the server's 6-character password minimum.
- Times of day are not modelled. Dates are calendar days, so the `23:59:59` year and month ends and the midnight start of a client deadline become day comparisons.
- `$month` takes the month in UTC, and the handlers build dates in server-local time; the model uses one calendar.
- The trends handler's `yearEnd` is midnight of December 31. The model counts all of December 31.
- The search filter's `$regex` is modelled as a case-insensitive substring match. Regular-expression metacharacters in the search text are not interpreted.
- Upper and lower case are mapped on ASCII letters only. JavaScript maps all of Unicode.
- String lengths count characters, not UTF-16 code units.
- Money is an exact real; IEEE-754 rounding of the sums and ratios is not reproduced.
- `Intl.NumberFormat`, `toLocaleDateString`, `toFixed`, `toString` and `toISOString` are not modelled. Formatted values are kept as numbers or given as opaque text (the CSV's date and amount texts, an amount's edit text).
- Month names in the breakdowns are not modelled.
- `parseFloat` is not modelled: its result is an input `Option<real>`, with `None` standing for `NaN`.
- `new Date()` is not modelled: "now", today's date and the current year and month are parameters.
- Messages are represented by tags, with their texts given by a function. Equal messages are compared by tag.
- DashboardPage.FormatCompactNumber: the one-decimal text is not modelled, only the branch and the scaled value.
- The report's `generatedAt`, the export's `exportDate`, the JSON export branch and the response headers are left out. They are clock reads and I/O.
- The React state, loading flags, dialogs and network calls of the pages are left out. So are `api.clearToken`, the asynchronous sign-in and sign-up calls and their error paths in the session service; only the state changes and listener calls are modelled.
- PricingPage.GetSavings requires that a plan with a non-zero annual price has a non-zero monthly price. Otherwise JavaScript divides by zero, which no plan in the table does.
- ListQuery.GetExpenses and ListQuery.GetIncomes require the paging the route schema admits. Without it, `parseInt` and a non-positive limit are outside the model.
- The expense page's list parameters (page size 10, search and category) are left out. They are only passed through to the list handler.

=== FILE: auth.dfy ===
/** The client-side session service: how `signUp` splits a full name into
    first and last name, and the registry of auth-state listeners (subscribe,
    unsubscribe, notify, clear). A listener is identified by a number, as a
    callback is by its reference; the calls a step makes are returned in
    order instead of being made. */
module Auth {
  import opened Common

  // ---------------------------------------------------------------------
  // Name split

  datatype NameParts = NameParts(firstName: string, lastName: string)

  /** `name.split(' ')`: the first part, or the whole name when that part is
      empty; the other parts joined with single spaces, which is everything
      after the first space. */
  function SplitName(name: string): (n: NameParts)
    ensures ' ' !in name ==> n == NameParts(name, "")
    ensures |name| > 0 && name[0] == ' ' ==> n.firstName == name
    ensures |name| > 0 && name[0] != ' ' ==> ' ' !in n.firstName && n.firstName != ""
    ensures ' ' in name ==> n.lastName == name[IndexOf(name, ' ').value + 1..]
  {
    var parts := Split(name, ' ');
    SplitHead(name, ' ');
    assert ' ' in name ==> Join(parts[1..], ' ') == name[IndexOf(name, ' ').value + 1..] by {
      if ' ' in name {
        var i := IndexOf(name, ' ').value;
        assert parts[1..] == Split(name[i + 1..], ' ');
        JoinSplit(name[i + 1..], ' ');
      }
    }
    NameParts(if parts[0] != "" then parts[0] else name, Join(parts[1..], ' '))
  }

  /** A name that has a space and does not start with one is rebuilt from
      its two halves. */
  lemma SplitNameRebuilds(name: string)
    requires ' ' in name && name[0] != ' '
    ensures SplitName(name).firstName + " " + SplitName(name).lastName == name
  {
    var parts := Split(name, ' ');
    SplitHead(name, ' ');
    JoinSplit(name, ' ');
    assert |parts| >= 2;
    assert Join(parts, ' ') == parts[0] + [' '] + Join(parts[1..], ' ');
  }

  /** Joining a first and a last name with a space and splitting the result
      gives them back, as long as the first name has no space and is not
      empty. */
  lemma SplitNameOfJoined(firstName: string, lastName: string)
    requires firstName != "" && ' ' !in firstName
    ensures SplitName(firstName + " " + lastName) == NameParts(firstName, lastName)
  {
    var name := firstName + " " + lastName;
    IndexOfAfterFreePrefix(firstName, ' ', lastName);
    assert name[..|firstName|] == firstName;
    assert name[|firstName| + 1..] == lastName;
    var parts := Split(name, ' ');
    assert parts == [firstName] + Split(lastName, ' ');
    assert parts[1..] == Split(lastName, ' ');
    JoinSplit(lastName, ' ');
  }

  // ---------------------------------------------------------------------
  // Listener registry

  datatype User = User(id: string, email: string)

  type Listener = nat

  datatype Session = Session(user: Option<User>, listeners: seq<Listener>)

  /** One callback invocation: which listener was called with which user. */
  datatype Call = Call(listener: Listener, user: Option<User>)

  datatype Step = Step(session: Session, calls: seq<Call>)

  /** `notifyListeners`: every listener, in registration order, with the
      current user. */
  function Notify(s: Session): (calls: seq<Call>)
    ensures |calls| == |s.listeners|
    ensures forall i :: 0 <= i < |calls| ==> calls[i] == Call(s.listeners[i], s.user)
  {
    seq(|s.listeners|, i requires 0 <= i < |s.listeners| => Call(s.listeners[i], s.user))
  }

  /** `onAuthStateChange`: the listener is appended and called at once with
      the current user. */
  function Subscribe(s: Session, cb: Listener): (r: Step)
    ensures r.session.listeners == s.listeners + [cb] && r.session.user == s.user
    ensures r.calls == [Call(cb, s.user)]
  {
    Step(Session(s.user, s.listeners + [cb]), [Call(cb, s.user)])
  }

  /** `listeners.filter(l => l !== cb)`. */
  function Remove(xs: seq<Listener>, cb: Listener): (r: seq<Listener>)
    ensures cb !in r
    ensures forall x :: x in r <==> x in xs && x != cb
    ensures |r| <= |xs|
  {
    if |xs| == 0 then []
    else (if xs[0] == cb then [] else [xs[0]]) + Remove(xs[1..], cb)
  }

  /** Removal works piece by piece, so the remaining listeners keep their
      order. */
  lemma {:induction false} RemoveAppend(xs: seq<Listener>, ys: seq<Listener>, cb: Listener)
    ensures Remove(xs + ys, cb) == Remove(xs, cb) + Remove(ys, cb)
    decreases |xs|
  {
    if |xs| == 0 {
      assert xs + ys == ys;
    } else {
      assert (xs + ys)[1..] == xs[1..] + ys;
      RemoveAppend(xs[1..], ys, cb);
    }
  }

  /** Every other listener is kept as often as it was registered. */
  lemma {:induction false} RemoveKeepsOthers(xs: seq<Listener>, cb: Listener)
    ensures multiset(Remove(xs, cb))[cb] == 0
    ensures forall x :: x != cb ==> multiset(Remove(xs, cb))[x] == multiset(xs)[x]
    decreases |xs|
  {
    if |xs| > 0 {
      RemoveKeepsOthers(xs[1..], cb);
      assert xs == [xs[0]] + xs[1..];
    }
  }

  /** Removing a listener that is not registered changes nothing. */
  lemma {:induction false} RemoveAbsent(xs: seq<Listener>, cb: Listener)
    requires cb !in xs
    ensures Remove(xs, cb) == xs
    decreases |xs|
  {
    if |xs| > 0 {
      RemoveAbsent(xs[1..], cb);
    }
  }

  /** The function `onAuthStateChange` returns: every registration of the
      listener is dropped and nobody is called. */
  function Unsubscribe(s: Session, cb: Listener): (r: Step)
    ensures r.session.user == s.user && r.calls == []
    ensures cb !in r.session.listeners
    ensures forall x :: x != cb ==> multiset(r.session.listeners)[x] == multiset(s.listeners)[x]
  {
    RemoveKeepsOthers(s.listeners, cb);
    Step(Session(s.user, Remove(s.listeners, cb)), [])
  }

  /** Subscribing a new listener and unsubscribing it restores the
      registry. */
  lemma SubscribeThenUnsubscribe(s: Session, cb: Listener)
    requires cb !in s.listeners
    ensures Unsubscribe(Subscribe(s, cb).session, cb).session == s
  {
    RemoveAppend(s.listeners, [cb], cb);
    RemoveAbsent(s.listeners, cb);
    assert Remove([cb], cb) == [];
  }

  /** A successful sign-in, sign-up or token check: the user is stored, then
      every listener is told. */
  function SetUser(s: Session, u: User): (r: Step)
    ensures r.session == Session(Some(u), s.listeners)
    ensures |r.calls| == |s.listeners|
    ensures forall i :: 0 <= i < |r.calls| ==> r.calls[i] == Call(s.listeners[i], Some(u))
  {
    var t := Session(Some(u), s.listeners);
    Step(t, Notify(t))
  }

  /** `clearAuth`: the user is cleared first, so every listener is told
      there is no user. */
  function ClearAuth(s: Session): (r: Step)
    ensures r.session == Session(None, s.listeners)
    ensures |r.calls| == |s.listeners|
    ensures forall i :: 0 <= i < |r.calls| ==> r.calls[i] == Call(s.listeners[i], None)
  {
    var t := Session(None, s.listeners);
    Step(t, Notify(t))
  }

  /** After a clear no listener hears of a user, and clearing twice tells
      the same listeners the same thing. */
  lemma ClearAuthIdempotent(s: Session)
    ensures ClearAuth(ClearAuth(s).session) == ClearAuth(s)
    ensures forall c :: c in ClearAuth(s).calls ==> c.user.None?
  {
  }
}

=== FILE: common.dfy ===
/** Small vocabulary shared by every part of the model: an optional value,
    clamping helpers over exact money, calendar dates as triples, and the
    handful of string operations the application performs (ASCII case
    mapping, trimming, substring search, split and join). */
module Common {

  /** A value that may be absent: a missing query parameter, an unparseable
      number (JavaScript's NaN), an aggregation over no documents. */
  datatype Option<T> = None | Some(value: T)

  function Max(a: real, b: real): (r: real)
    ensures r >= a && r >= b
    ensures r == a || r == b
  {
    if a >= b then a else b
  }

  function Min(a: real, b: real): (r: real)
    ensures r <= a && r <= b
    ensures r == a || r == b
  {
    if a <= b then a else b
  }

  /** `Math.round`: the nearest integer, halves rounded towards +infinity. */
  function Round(x: real): (r: int)
    ensures r as real - 0.5 <= x < r as real + 0.5
  {
    (x + 0.5).Floor
  }

  // ---------------------------------------------------------------------
  // Calendar dates

  /** A calendar date; the time of day is not modelled. */
  datatype Date = Date(year: int, month: int, day: int)

  predicate ValidDate(d: Date) {
    1 <= d.month <= 12 && 1 <= d.day <= 31
  }

  /** Strict chronological order: lexicographic on (year, month, day). */
  predicate Before(a: Date, b: Date) {
    a.year < b.year
    || (a.year == b.year && a.month < b.month)
    || (a.year == b.year && a.month == b.month && a.day < b.day)
  }

  /** A single number that orders valid dates chronologically. */
  function DayKey(d: Date): int {
    d.year * 10000 + d.month * 100 + d.day
  }

  lemma DayKeyOrdersDates(a: Date, b: Date)
    requires ValidDate(a) && ValidDate(b)
    ensures Before(a, b) <==> DayKey(a) < DayKey(b)
  {
    if a.year < b.year {
      assert DayKey(a) < (a.year + 1) * 10000 <= DayKey(b);
    } else if a.year > b.year {
      assert DayKey(b) < (b.year + 1) * 10000 <= DayKey(a);
    }
  }

  // ---------------------------------------------------------------------
  // Characters

  predicate IsUpper(c: char) { 'A' <= c <= 'Z' }
  predicate IsLower(c: char) { 'a' <= c <= 'z' }
  predicate IsDigit(c: char) { '0' <= c <= '9' }

  function ToUpperChar(c: char): (u: char)
    ensures !IsLower(u)
    ensures IsLower(c) ==> IsUpper(u)
    ensures !IsLower(c) ==> u == c
  {
    if IsLower(c) then (c as int - 32) as char else c
  }

  function ToLowerChar(c: char): (l: char)
    ensures !IsUpper(l)
    ensures IsUpper(c) ==> IsLower(l)
    ensures !IsUpper(c) ==> l == c
  {
    if IsUpper(c) then (c as int + 32) as char else c
  }

  /** `String.prototype.toLowerCase` restricted to ASCII letters. */
  function ToLower(s: string): (l: string)
    ensures |l| == |s|
    ensures forall i :: 0 <= i < |s| ==> l[i] == ToLowerChar(s[i])
  {
    seq(|s|, i requires 0 <= i < |s| => ToLowerChar(s[i]))
  }

  lemma ToLowerIdempotent(s: string)
    ensures ToLower(ToLower(s)) == ToLower(s)
  {
  }

  // ---------------------------------------------------------------------
  // Trimming

  /** The characters `String.prototype.trim` strips: the WhiteSpace and
      LineTerminator code points of ECMA-262 (sections 12.2 and 12.3), that
      is tab, vertical tab, form feed, the byte-order mark, the Unicode
      space separators (category Zs) and the four line terminators. */
  predicate IsSpace(c: char) {
    || c == '\t' || c == '\U{000B}' || c == '\U{000C}' || c == '\U{FEFF}'
    || c == '\n' || c == '\r' || c == '\U{2028}' || c == '\U{2029}'
    || c == ' ' || c == '\U{00A0}' || c == '\U{1680}' || '\U{2000}' <= c <= '\U{200A}'
    || c == '\U{202F}' || c == '\U{205F}' || c == '\U{3000}'
  }

  function TrimStart(s: string): (t: string)
    ensures |t| <= |s| && t == s[|s| - |t|..]
    ensures |t| > 0 ==> !IsSpace(t[0])
    ensures forall i :: 0 <= i < |s| - |t| ==> IsSpace(s[i])
  {
    if |s| > 0 && IsSpace(s[0]) then TrimStart(s[1..]) else s
  }

  function TrimEnd(s: string): (t: string)
    ensures |t| <= |s| && t == s[..|t|]
    ensures |t| > 0 ==> !IsSpace(t[|t| - 1])
    ensures forall i :: |t| <= i < |s| ==> IsSpace(s[i])
  {
    if |s| > 0 && IsSpace(s[|s| - 1]) then TrimEnd(s[..|s| - 1]) else s
  }

  /** `String.prototype.trim`. */
  function Trim(s: string): string {
    TrimEnd(TrimStart(s))
  }

  /** Trimming leaves nothing exactly when every character is white space. */
  lemma TrimEmptyIffBlank(s: string)
    ensures Trim(s) == "" <==> forall i :: 0 <= i < |s| ==> IsSpace(s[i])
  {
    var a := TrimStart(s);
    if Trim(s) == "" {
      assert |a| == 0;
    } else {
      var t := Trim(s);
      assert t == a[..|t|];
      assert !IsSpace(a[0]);
      assert s[|s| - |a|] == a[0];
    }
  }

  // ---------------------------------------------------------------------
  // Substring search

  /** `t` occurs in `s` starting at index `i`. */
  predicate OccursAt(s: string, t: string, i: int) {
    0 <= i <= |s| - |t| && s[i..i + |t|] == t
  }

  /** `s.includes(t)`. */
  predicate Contains(s: string, t: string) {
    exists i :: 0 <= i <= |s| - |t| && OccursAt(s, t, i)
  }

  lemma ContainsPrefix(s: string, t: string)
    requires |t| <= |s| && s[..|t|] == t
    ensures Contains(s, t)
  {
    assert OccursAt(s, t, 0);
  }

  lemma NotContainedInEmpty(t: string)
    requires |t| > 0
    ensures !Contains("", t)
  {
  }

  // ---------------------------------------------------------------------
  // Split and join on a one-character separator

  /** Index of the first occurrence of `c` in `s`, if any. */
  function IndexOf(s: string, c: char): (r: Option<nat>)
    ensures r.None? <==> c !in s
    ensures r.Some? ==> r.value < |s| && s[r.value] == c && c !in s[..r.value]
  {
    if |s| == 0 then None
    else if s[0] == c then Some(0)
    else match IndexOf(s[1..], c)
      case None => None
      case Some(k) => assert s[1..][..k] == s[1..k + 1]; Some(k + 1)
  }

  /** `s.split(c)` for a one-character separator `c`. */
  function Split(s: string, c: char): (parts: seq<string>)
    ensures |parts| >= 1
    ensures forall k :: 0 <= k < |parts| ==> c !in parts[k]
    decreases |s|
  {
    match IndexOf(s, c)
    case None => [s]
    case Some(i) => [s[..i]] + Split(s[i + 1..], c)
  }

  /** `parts.join(c)`. */
  function Join(parts: seq<string>, c: char): string {
    if |parts| == 0 then ""
    else if |parts| == 1 then parts[0]
    else parts[0] + [c] + Join(parts[1..], c)
  }

  /** Joining the pieces of a split with the same separator gives back the
      original text. */
  lemma {:induction false} JoinSplit(s: string, c: char)
    ensures Join(Split(s, c), c) == s
    decreases |s|
  {
    match IndexOf(s, c)
    case None =>
    case Some(i) =>
      var rest := Split(s[i + 1..], c);
      var parts := [s[..i]] + rest;
      assert Split(s, c) == parts;
      assert parts[0] == s[..i] && parts[1..] == rest;
      assert Join(parts, c) == s[..i] + [c] + Join(rest, c);
      JoinSplit(s[i + 1..], c);
      assert s == s[..i] + [c] + s[i + 1..];
  }

  lemma IndexOfAfterFreePrefix(p: string, c: char, rest: string)
    requires c !in p
    ensures IndexOf(p + [c] + rest, c) == Some(|p|)
  {
    var s := p + [c] + rest;
    assert s[|p|] == c;
    assert s[..|p|] == p;
  }

  /** Splitting a join of separator-free pieces gives back the pieces. */
  lemma {:induction false} SplitJoin(parts: seq<string>, c: char)
    requires |parts| >= 1
    requires forall k :: 0 <= k < |parts| ==> c !in parts[k]
    ensures Split(Join(parts, c), c) == parts
    decreases |parts|
  {
    if |parts| > 1 {
      var p := parts[0];
      var tail := Join(parts[1..], c);
      var s := p + [c] + tail;
      assert Join(parts, c) == s;
      IndexOfAfterFreePrefix(p, c, tail);
      assert s[..|p|] == p;
      assert s[|p| + 1..] == tail;
      assert Split(s, c) == [p] + Split(tail, c);
      SplitJoin(parts[1..], c);
      assert parts == [p] + parts[1..];
    }
  }

  /** The first piece of a split is the text before the first separator. */
  lemma SplitHead(s: string, c: char)
    ensures c !in s ==> Split(s, c)[0] == s
    ensures c in s ==> Split(s, c)[0] == s[..IndexOf(s, c).value] && |Split(s, c)| >= 2
  {
  }

  // ---------------------------------------------------------------------
  // Sums

  /** `xs.reduce((sum, x) => sum + f(x), 0)`. */
  function SumOf<T>(xs: seq<T>, f: T -> real): real
    decreases |xs|
  {
    if |xs| == 0 then 0.0 else f(xs[0]) + SumOf(xs[1..], f)
  }

  lemma {:induction false} SumOfAppend<T>(xs: seq<T>, ys: seq<T>, f: T -> real)
    ensures SumOf(xs + ys, f) == SumOf(xs, f) + SumOf(ys, f)
    decreases |xs|
  {
    if |xs| > 0 {
      assert (xs + ys)[1..] == xs[1..] + ys;
      SumOfAppend(xs[1..], ys, f);
    } else {
      assert xs + ys == ys;
    }
  }

  /** Replacing one element changes the sum by the difference. */
  lemma {:induction false} SumOfUpdate<T>(xs: seq<T>, k: nat, y: T, f: T -> real)
    requires k < |xs|
    ensures SumOf(xs[k := y], f) == SumOf(xs, f) - f(xs[k]) + f(y)
    decreases |xs|
  {
    if k > 0 {
      assert xs[k := y][1..] == xs[1..][k - 1 := y];
      SumOfUpdate(xs[1..], k - 1, y, f);
    } else {
      assert xs[k := y][1..] == xs[1..];
    }
  }

  lemma SumOfSnoc<T>(xs: seq<T>, x: T, f: T -> real)
    ensures SumOf(xs + [x], f) == SumOf(xs, f) + f(x)
  {
    SumOfAppend(xs, [x], f);
    assert [x][1..] == [];
  }

  lemma {:induction false} SumOfNonNegative<T>(xs: seq<T>, f: T -> real)
    requires forall k :: 0 <= k < |xs| ==> f(xs[k]) >= 0.0
    ensures SumOf(xs, f) >= 0.0
    decreases |xs|
  {
    if |xs| > 0 {
      SumOfNonNegative(xs[1..], f);
    }
  }
}

=== FILE: dashboard.dfy ===
/** The three dashboard handlers: the overview of the current year (totals,
    a flat-rate tax estimate, deduction coverage and a twelve-month
    breakdown), the summary (all-time, monthly and yearly totals with a 25%
    tax estimate) and the monthly trends built from per-month aggregates.
    The current date is a parameter. */
module Dashboard {
  import opened Common
  import opened Records
  import opened Grouping
  import Sorting
  import AnnualReport

  // ---------------------------------------------------------------------
  // Overview

  /** The overview's simplified tax: self-employment tax on all income and
      22% of the taxable income above the standard deduction. It clamps the
      product instead of the difference, and so agrees with the annual
      report's estimate. */
  function OverviewEstimatedTax(totalIncome: real, deductibleExpenses: real): (t: real)
    ensures t >= totalIncome * 0.1413
    ensures t == AnnualReport.ReportEstimatedTax(totalIncome, deductibleExpenses)
  {
    var taxable := Max(0.0, totalIncome - deductibleExpenses);
    totalIncome * 0.1413 + Max(0.0, (taxable - 13850.0) * 0.22)
  }

  /** Non-negative amounts keep the coverage between 0 and 100. */
  lemma CoverageBounded(expenses: seq<Expense>)
    requires ExpensesValid(expenses)
    ensures 0.0 <= AnnualReport.Percentage(DeductibleTotal(expenses), ExpenseTotal(expenses)) <= 100.0
  {
    DeductibleWithinTotal(expenses);
    ShareBounded(DeductibleTotal(expenses), ExpenseTotal(expenses));
  }

  lemma ShareBounded(d: real, t: real)
    requires 0.0 <= d <= t
    ensures 0.0 <= AnnualReport.Percentage(d, t) <= 100.0
  {
    if t > 0.0 {
      assert d / t <= 1.0 by {
        assert (d / t) * t == d;
      }
    }
  }

  datatype Overview = Overview(
    totalIncome: real,
    totalExpenses: real,
    deductibleExpenses: real,
    estimatedTax: real,
    quarterlyTax: real,
    incomeEntries: nat,
    expenseEntries: nat,
    deductionCoverage: real,
    monthlyBreakdown: seq<MonthTotals>,
    year: int)

  /** `getDashboardOverview` over the records dated in `year`. */
  function GetDashboardOverview(year: int, incomes: seq<Income>, expenses: seq<Expense>): (o: Overview)
    ensures o.totalIncome == IncomeTotal(incomes) && o.totalExpenses == ExpenseTotal(expenses)
    ensures o.deductibleExpenses == DeductibleTotal(expenses)
    ensures o.estimatedTax == AnnualReport.ReportEstimatedTax(o.totalIncome, o.deductibleExpenses)
    ensures 4.0 * o.quarterlyTax == o.estimatedTax
    ensures o.incomeEntries == |incomes| && o.expenseEntries == |expenses|
    ensures o.deductionCoverage == AnnualReport.Percentage(o.deductibleExpenses, o.totalExpenses)
    ensures o.totalExpenses <= 0.0 ==> o.deductionCoverage == 0.0
    ensures ExpensesValid(expenses) ==> 0.0 <= o.deductionCoverage <= 100.0
    ensures o.monthlyBreakdown == MonthlyTotals(incomes, expenses, year)
    ensures IncomesInYear(incomes, year) ==> SumOf(o.monthlyBreakdown, MonthTotalsIncome) == o.totalIncome
    ensures o.year == year
  {
    var totalIncome := IncomeTotal(incomes);
    var totalExpenses := ExpenseTotal(expenses);
    var deductible := DeductibleTotal(expenses);
    var estimated := OverviewEstimatedTax(totalIncome, deductible);
    assert ExpensesValid(expenses) ==> 0.0 <= AnnualReport.Percentage(deductible, totalExpenses) <= 100.0 by {
      if ExpensesValid(expenses) {
        CoverageBounded(expenses);
      }
    }
    assert IncomesInYear(incomes, year) ==>
      SumOf(MonthlyTotals(incomes, expenses, year), MonthTotalsIncome) == totalIncome by {
      if IncomesInYear(incomes, year) {
        MonthlyTotalsCoverIncome(incomes, expenses, year);
      }
    }
    Overview(totalIncome, totalExpenses, deductible, estimated, estimated / 4.0, |incomes|, |expenses|,
             AnnualReport.Percentage(deductible, totalExpenses), MonthlyTotals(incomes, expenses, year), year)
  }

  // ---------------------------------------------------------------------
  // Summary

  function IncomeDate(e: Income): Date { e.date }
  function ExpenseDate(e: Expense): Date { e.date }

  /** Records dated on or after `start` (`date: { $gte: start }`); there is
      no upper bound. */
  function Since<T(!new)>(xs: seq<T>, dateOf: T -> Date, start: Date): (r: seq<T>)
    ensures forall e :: e in r <==> e in xs && !Before(dateOf(e), start)
    decreases |xs|
  {
    if |xs| == 0 then []
    else (if !Before(dateOf(xs[0]), start) then [xs[0]] else []) + Since(xs[1..], dateOf, start)
  }

  function IncomesSince(xs: seq<Income>, start: Date): seq<Income> {
    Since(xs, IncomeDate, start)
  }

  function ExpensesSince(xs: seq<Expense>, start: Date): seq<Expense> {
    Since(xs, ExpenseDate, start)
  }

  /** A later start never adds income; with non-negative amounts the income
      since a later date is at most the income since an earlier one. */
  lemma {:induction false} IncomesSinceShrinks(xs: seq<Income>, early: Date, late: Date)
    requires IncomesValid(xs) && !Before(late, early)
    ensures 0.0 <= IncomeTotal(IncomesSince(xs, late)) <= IncomeTotal(IncomesSince(xs, early)) <= IncomeTotal(xs)
    decreases |xs|
  {
    if |xs| > 0 {
      IncomesSinceShrinks(xs[1..], early, late);
      var h := if !Before(xs[0].date, late) then [xs[0]] else [];
      var g := if !Before(xs[0].date, early) then [xs[0]] else [];
      IncomeTotalAppend(h, IncomesSince(xs[1..], late));
      IncomeTotalAppend(g, IncomesSince(xs[1..], early));
      assert IncomeTotal([xs[0]]) == xs[0].amount;
    }
  }

  lemma {:induction false} ExpensesSinceShrinks(xs: seq<Expense>, early: Date, late: Date)
    requires ExpensesValid(xs) && !Before(late, early)
    ensures 0.0 <= ExpenseTotal(ExpensesSince(xs, late)) <= ExpenseTotal(ExpensesSince(xs, early)) <= ExpenseTotal(xs)
    decreases |xs|
  {
    if |xs| > 0 {
      ExpensesSinceShrinks(xs[1..], early, late);
      var h := if !Before(xs[0].date, late) then [xs[0]] else [];
      var g := if !Before(xs[0].date, early) then [xs[0]] else [];
      ExpenseTotalAppend(h, ExpensesSince(xs[1..], late));
      ExpenseTotalAppend(g, ExpensesSince(xs[1..], early));
      assert ExpenseTotal([xs[0]]) == xs[0].amount;
    }
  }

  /** One `$group` result of the by-category aggregations. */
  datatype CategoryTotal = CategoryTotal(id: string, total: real, count: nat)

  function CategoryTotalDescending(c: CategoryTotal): real { -c.total }

  function CategoryTotals(gs: seq<Group>): (cs: seq<CategoryTotal>)
    ensures |cs| == |gs|
    ensures forall k :: 0 <= k < |gs| ==> cs[k] == CategoryTotal(gs[k].category, gs[k].amount, gs[k].count)
  {
    seq(|gs|, k requires 0 <= k < |gs| => CategoryTotal(gs[k].category, gs[k].amount, gs[k].count))
  }

  /** The category totals sorted by total, largest first
      (`$sort: { total: -1 }`). */
  function ByCategory(items: seq<Item>): (cs: seq<CategoryTotal>)
    ensures multiset(cs) == multiset(CategoryTotals(GroupByCategory(items)))
    ensures forall i, j :: 0 <= i < j < |cs| ==> cs[i].total >= cs[j].total
  {
    var cs := Sorting.SortBy(CategoryTotals(GroupByCategory(items)), CategoryTotalDescending);
    assert forall i, j :: 0 <= i < j < |cs| ==> CategoryTotalDescending(cs[i]) <= CategoryTotalDescending(cs[j]);
    cs
  }

  /** Each row of a by-category aggregation carries the sum and the number
      of the entries of its own category. */
  lemma ByCategorySums(items: seq<Item>)
    ensures forall i :: 0 <= i < |ByCategory(items)| ==>
      ByCategory(items)[i].total == SumOf(InCategory(items, ByCategory(items)[i].id), ItemAmount)
      && ByCategory(items)[i].count == |InCategory(items, ByCategory(items)[i].id)|
  {
    var gs := GroupByCategory(items);
    var cs := ByCategory(items);
    var unsorted := CategoryTotals(gs);
    GroupByCategorySummarises(items);
    forall i | 0 <= i < |cs|
      ensures cs[i].total == SumOf(InCategory(items, cs[i].id), ItemAmount)
      ensures cs[i].count == |InCategory(items, cs[i].id)|
    {
      assert cs[i] in multiset(unsorted);
      var k :| 0 <= k < |unsorted| && unsorted[k] == cs[i];
      assert GroupSums(gs[k], items);
    }
  }

  /** `find(...).sort({ date: -1 }).limit(5)` under a recency key. */
  function Recent<T>(xs: seq<T>, recency: T -> real): (r: seq<T>)
    ensures |r| == if |xs| < 5 then |xs| else 5
    ensures forall i, j :: 0 <= i < j < |r| ==> recency(r[i]) <= recency(r[j])
    ensures multiset(r) <= multiset(xs)
    ensures forall e :: e in r ==> e in xs
    ensures forall e :: e in xs && e !in r ==> forall k :: 0 <= k < |r| ==> recency(r[k]) <= recency(e)
  {
    var s := Sorting.SortBy(xs, recency);
    var n := if |xs| < 5 then |xs| else 5;
    Sorting.SortedPrefix(xs, s, recency, n);
    s[..n]
  }

  /** Later dates first: the negated day number. */
  function IncomeRecency(e: Income): real { -(DayKey(e.date) as real) }
  function ExpenseRecency(e: Expense): real { -(DayKey(e.date) as real) }

  function IncomeCategoryItem(e: Income): Item { Item(e.category, e.amount, false) }

  /** The three figures of a summary block. */
  datatype Totals = Totals(total: real, monthly: real, yearly: real)

  datatype SummaryTax = SummaryTax(taxableIncome: real, deductibleAmount: real, estimatedTax: real)

  datatype DashboardSummary = DashboardSummary(
    income: Totals,
    incomeByCategory: seq<CategoryTotal>,
    expenses: Totals,
    deductible: real,
    expensesByCategory: seq<CategoryTotal>,
    profit: Totals,
    recentIncome: seq<Income>,
    recentExpenses: seq<Expense>,
    taxEstimate: SummaryTax)

  /** The summary's tax block: 25% of the yearly income less the deductible
      expenses, never negative. */
  function SummaryTaxOf(yearlyIncome: real, deductible: real): (t: SummaryTax)
    ensures t.deductibleAmount == deductible
    ensures t.taxableIncome >= 0.0 && t.taxableIncome >= yearlyIncome - deductible
    ensures t.taxableIncome == 0.0 || t.taxableIncome == yearlyIncome - deductible
    ensures t.estimatedTax == 0.25 * t.taxableIncome
  {
    SummaryTax(Max(0.0, yearlyIncome - deductible), deductible, Max(0.0, (yearlyIncome - deductible) * 0.25))
  }

  /** `getDashboardSummary` for the current year and month (1..12) over all
      of the user's records. The `[0]?.total || 0` of an aggregation over
      no documents is the empty sum, 0. */
  function GetDashboardSummary(year: int, month: int, incomes: seq<Income>, expenses: seq<Expense>): (s: DashboardSummary)
    ensures s.income.total == IncomeTotal(incomes) && s.expenses.total == ExpenseTotal(expenses)
    ensures s.income.monthly == IncomeTotal(IncomesSince(incomes, Date(year, month, 1)))
    ensures s.income.yearly == IncomeTotal(IncomesSince(incomes, Date(year, 1, 1)))
    ensures s.expenses.monthly == ExpenseTotal(ExpensesSince(expenses, Date(year, month, 1)))
    ensures s.expenses.yearly == ExpenseTotal(ExpensesSince(expenses, Date(year, 1, 1)))
    ensures s.deductible == DeductibleTotal(expenses)
    ensures s.profit.total == s.income.total - s.expenses.total
    ensures s.profit.monthly == s.income.monthly - s.expenses.monthly
    ensures s.profit.yearly == s.income.yearly - s.expenses.yearly
    ensures s.taxEstimate == SummaryTaxOf(s.income.yearly, s.deductible)
    ensures s.taxEstimate.estimatedTax >= 0.0
    ensures s.incomeByCategory == ByCategory(IncomeItemsOf(incomes))
    ensures s.expensesByCategory == ByCategory(ExpenseItemsOf(expenses))
    ensures s.recentIncome == Recent(incomes, IncomeRecency)
    ensures s.recentExpenses == Recent(expenses, ExpenseRecency)
    ensures |s.recentIncome| <= 5 && |s.recentExpenses| <= 5
    ensures 1 <= month && IncomesValid(incomes) ==> 0.0 <= s.income.monthly <= s.income.yearly <= s.income.total
    ensures 1 <= month && ExpensesValid(expenses) ==> 0.0 <= s.expenses.monthly <= s.expenses.yearly <= s.expenses.total
  {
    var monthStart := Date(year, month, 1);
    var yearStart := Date(year, 1, 1);
    var income := Totals(IncomeTotal(incomes), IncomeTotal(IncomesSince(incomes, monthStart)),
                         IncomeTotal(IncomesSince(incomes, yearStart)));
    var spent := Totals(ExpenseTotal(expenses), ExpenseTotal(ExpensesSince(expenses, monthStart)),
                        ExpenseTotal(ExpensesSince(expenses, yearStart)));
    var deductible := DeductibleTotal(expenses);
    assert 1 <= month && IncomesValid(incomes) ==> 0.0 <= income.monthly <= income.yearly <= income.total by {
      if 1 <= month && IncomesValid(incomes) {
        IncomesSinceShrinks(incomes, yearStart, monthStart);
      }
    }
    assert 1 <= month && ExpensesValid(expenses) ==> 0.0 <= spent.monthly <= spent.yearly <= spent.total by {
      if 1 <= month && ExpensesValid(expenses) {
        ExpensesSinceShrinks(expenses, yearStart, monthStart);
      }
    }
    DashboardSummary(
      income, ByCategory(IncomeItemsOf(incomes)),
      spent, deductible, ByCategory(ExpenseItemsOf(expenses)),
      Totals(income.total - spent.total, income.monthly - spent.monthly, income.yearly - spent.yearly),
      Recent(incomes, IncomeRecency), Recent(expenses, ExpenseRecency),
      SummaryTaxOf(income.yearly, deductible))
  }

  function IncomeItemsOf(xs: seq<Income>): seq<Item> { AnnualReport.IncomeItems(xs) }
  function ExpenseItemsOf(xs: seq<Expense>): seq<Item> { AnnualReport.ExpenseItems(xs) }

  lemma {:induction false} DeductiblesSnoc(xs: seq<Expense>, e: Expense)
    ensures Deductibles(xs + [e]) == Deductibles(xs) + (if e.isDeductible then [e] else [])
    decreases |xs|
  {
    var tail := if e.isDeductible then [e] else [];
    if |xs| == 0 {
      assert xs + [e] == [e];
      assert Deductibles([e]) == tail + Deductibles([e][1..]);
      assert [e][1..] == [];
    } else {
      var head := if xs[0].isDeductible then [xs[0]] else [];
      assert (xs + [e])[0] == xs[0];
      assert (xs + [e])[1..] == xs[1..] + [e];
      assert Deductibles(xs + [e]) == head + Deductibles(xs[1..] + [e]);
      DeductiblesSnoc(xs[1..], e);
      assert Deductibles(xs) == head + Deductibles(xs[1..]);
      assert head + (Deductibles(xs[1..]) + tail) == (head + Deductibles(xs[1..])) + tail;
    }
  }

  /** A record added after the others is kept, at the end, exactly when it
      is dated on or after the start. */
  lemma {:induction false} SinceSnoc<T(!new)>(xs: seq<T>, dateOf: T -> Date, e: T, start: Date)
    ensures Since(xs + [e], dateOf, start) == Since(xs, dateOf, start) + (if !Before(dateOf(e), start) then [e] else [])
    decreases |xs|
  {
    if |xs| == 0 {
      assert xs + [e] == [e];
      assert [e][1..] == [];
    } else {
      assert (xs + [e])[1..] == xs[1..] + [e];
      SinceSnoc(xs[1..], dateOf, e, start);
    }
  }

  /** The deductible amount of the tax block is not limited to the year: a
      deductible expense dated before the current year leaves the yearly
      expenses unchanged but still lowers the taxable income. */
  lemma SummaryTaxCountsEarlierDeductions(year: int, month: int, incomes: seq<Income>, expenses: seq<Expense>, e: Expense)
    requires e.isDeductible && Before(e.date, Date(year, 1, 1))
    ensures GetDashboardSummary(year, month, incomes, expenses + [e]).expenses.yearly
         == GetDashboardSummary(year, month, incomes, expenses).expenses.yearly
    ensures GetDashboardSummary(year, month, incomes, expenses + [e]).taxEstimate.deductibleAmount
         == GetDashboardSummary(year, month, incomes, expenses).taxEstimate.deductibleAmount + e.amount
  {
    var before := GetDashboardSummary(year, month, incomes, expenses);
    var after := GetDashboardSummary(year, month, incomes, expenses + [e]);
    var yearStart := Date(year, 1, 1);
    SinceSnoc(expenses, ExpenseDate, e, yearStart);
    assert ExpensesSince(expenses + [e], yearStart) == ExpensesSince(expenses, yearStart) + [];
    assert ExpensesSince(expenses, yearStart) + [] == ExpensesSince(expenses, yearStart);
    assert after.expenses.yearly == ExpenseTotal(ExpensesSince(expenses + [e], yearStart));
    DeductiblesSnoc(expenses, e);
    ExpenseTotalAppend(Deductibles(expenses), [e]);
    assert ExpenseTotal([e]) == e.amount;
    assert after.deductible == before.deductible + e.amount;
  }

  // ---------------------------------------------------------------------
  // Monthly trends

  /** One `$group` result of the by-month aggregations: `_id` is the month
      number, `total` and `count` what was summed. */
  datatype MonthAgg = MonthAgg(id: int, total: real, count: nat)

  /** `aggs.find(item => item._id === m)`. */
  function FindMonth(aggs: seq<MonthAgg>, m: int): (r: Option<MonthAgg>)
    ensures r.Some? ==> r.value in aggs && r.value.id == m
    ensures r.Some? ==> exists k :: 0 <= k < |aggs| && aggs[k] == r.value && forall j :: 0 <= j < k ==> aggs[j].id != m
    ensures r.None? <==> forall k :: 0 <= k < |aggs| ==> aggs[k].id != m
    decreases |aggs|
  {
    if |aggs| == 0 then None
    else if aggs[0].id == m then Some(aggs[0])
    else
      var r := FindMonth(aggs[1..], m);
      assert r.Some? ==> exists k :: 0 <= k < |aggs| && aggs[k] == r.value && forall j :: 0 <= j < k ==> aggs[j].id != m by {
        if r.Some? {
          var k :| 0 <= k < |aggs[1..]| && aggs[1..][k] == r.value && forall j :: 0 <= j < k ==> aggs[1..][j].id != m;
          assert aggs[k + 1] == r.value;
          assert forall j :: 0 <= j < k + 1 ==> aggs[j].id != m by {
            forall j | 0 <= j < k + 1 ensures aggs[j].id != m {
              if j > 0 {
                assert aggs[j] == aggs[1..][j - 1];
              }
            }
          }
        }
      }
      assert r.None? ==> forall k :: 0 <= k < |aggs| ==> aggs[k].id != m by {
        if r.None? {
          forall k | 0 <= k < |aggs| ensures aggs[k].id != m {
            if k > 0 {
              assert aggs[k] == aggs[1..][k - 1];
            }
          }
        }
      }
      r
  }

  function TotalOrZero(a: Option<MonthAgg>): real { if a.Some? then a.value.total else 0.0 }
  function CountOrZero(a: Option<MonthAgg>): nat { if a.Some? then a.value.count else 0 }

  datatype TrendMonth = TrendMonth(month: int, income: real, expenses: real, profit: real,
                                   incomeCount: nat, expenseCount: nat)

  /** The twelve months of the trends response: each month takes the
      aggregate with its number, and a month without one shows zeros. */
  function MonthlyTrends(incomeByMonth: seq<MonthAgg>, expensesByMonth: seq<MonthAgg>): (ms: seq<TrendMonth>)
    ensures |ms| == 12
    ensures forall i :: 0 <= i < 12 ==> (ms[i].month == i + 1
      && ms[i].income == TotalOrZero(FindMonth(incomeByMonth, i + 1))
      && ms[i].incomeCount == CountOrZero(FindMonth(incomeByMonth, i + 1))
      && ms[i].expenses == TotalOrZero(FindMonth(expensesByMonth, i + 1))
      && ms[i].expenseCount == CountOrZero(FindMonth(expensesByMonth, i + 1))
      && ms[i].profit == ms[i].income - ms[i].expenses)
    ensures forall i :: 0 <= i < 12 && (forall k :: 0 <= k < |incomeByMonth| ==> incomeByMonth[k].id != i + 1) ==>
      ms[i].income == 0.0 && ms[i].incomeCount == 0
    ensures forall i :: 0 <= i < 12 && (forall k :: 0 <= k < |expensesByMonth| ==> expensesByMonth[k].id != i + 1) ==>
      ms[i].expenses == 0.0 && ms[i].expenseCount == 0
  {
    seq(12, i requires 0 <= i < 12 =>
      var inc := FindMonth(incomeByMonth, i + 1);
      var exp := FindMonth(expensesByMonth, i + 1);
      TrendMonth(i + 1, TotalOrZero(inc), TotalOrZero(exp), TotalOrZero(inc) - TotalOrZero(exp),
                 CountOrZero(inc), CountOrZero(exp)))
  }

  /** What the by-month aggregations read from a record. */
  datatype Dated = Dated(date: Date, amount: real)

  function IncomeAmount(e: Income): real { e.amount }
  function ExpenseAmount(e: Expense): real { e.amount }

  /** One dated amount per record, in order. */
  function DatedOf<T>(xs: seq<T>, dateOf: T -> Date, amountOf: T -> real): (ds: seq<Dated>)
    ensures |ds| == |xs|
    ensures forall k :: 0 <= k < |xs| ==> ds[k] == Dated(dateOf(xs[k]), amountOf(xs[k]))
    decreases |xs|
  {
    if |xs| == 0 then [] else [Dated(dateOf(xs[0]), amountOf(xs[0]))] + DatedOf(xs[1..], dateOf, amountOf)
  }

  function IncomeDated(xs: seq<Income>): seq<Dated> {
    DatedOf(xs, IncomeDate, IncomeAmount)
  }

  function ExpenseDated(xs: seq<Expense>): seq<Dated> {
    DatedOf(xs, ExpenseDate, ExpenseAmount)
  }

  predicate InMonth(d: Dated, year: int, m: int) { d.date.year == year && d.date.month == m }

  /** `$sum: '$amount'` and `$sum: 1` over the records of month `m`. */
  function MonthSum(ds: seq<Dated>, year: int, m: int): real
    decreases |ds|
  {
    if |ds| == 0 then 0.0 else (if InMonth(ds[0], year, m) then ds[0].amount else 0.0) + MonthSum(ds[1..], year, m)
  }

  function MonthCount(ds: seq<Dated>, year: int, m: int): nat
    decreases |ds|
  {
    if |ds| == 0 then 0 else (if InMonth(ds[0], year, m) then 1 else 0) + MonthCount(ds[1..], year, m)
  }

  lemma {:induction false} EmptyMonthSumsToZero(ds: seq<Dated>, year: int, m: int)
    requires MonthCount(ds, year, m) == 0
    ensures MonthSum(ds, year, m) == 0.0
    decreases |ds|
  {
    if |ds| > 0 {
      EmptyMonthSumsToZero(ds[1..], year, m);
    }
  }

  lemma {:induction false} IncomeMonthSum(xs: seq<Income>, year: int, m: int)
    ensures MonthSum(IncomeDated(xs), year, m) == MonthIncome(xs, year, m)
    decreases |xs|
  {
    if |xs| > 0 {
      assert IncomeDated(xs)[1..] == IncomeDated(xs[1..]);
      IncomeMonthSum(xs[1..], year, m);
    }
  }

  lemma {:induction false} ExpenseMonthSum(xs: seq<Expense>, year: int, m: int)
    ensures MonthSum(ExpenseDated(xs), year, m) == MonthExpenses(xs, year, m)
    decreases |xs|
  {
    if |xs| > 0 {
      assert ExpenseDated(xs)[1..] == ExpenseDated(xs[1..]);
      ExpenseMonthSum(xs[1..], year, m);
    }
  }

  /** The by-month aggregation of the records dated in `year`, months `from`
      to 12: one result per month that has records, in month order. */
  function MonthAggregates(ds: seq<Dated>, year: int, from: int): (aggs: seq<MonthAgg>)
    ensures forall k :: 0 <= k < |aggs| ==> from <= aggs[k].id <= 12 && aggs[k].count > 0
    ensures forall i, j :: 0 <= i < j < |aggs| ==> aggs[i].id < aggs[j].id
    decreases 13 - from
  {
    if from > 12 then []
    else
      var rest := MonthAggregates(ds, year, from + 1);
      var head := if MonthCount(ds, year, from) > 0 then [MonthAgg(from, MonthSum(ds, year, from), MonthCount(ds, year, from))] else [];
      var aggs := head + rest;
      assert forall k :: 0 <= k < |aggs| ==> from <= aggs[k].id <= 12 && aggs[k].count > 0 by {
        forall k | 0 <= k < |aggs| ensures from <= aggs[k].id <= 12 && aggs[k].count > 0 {
          if k >= |head| {
            assert aggs[k] == rest[k - |head|];
          }
        }
      }
      assert forall i, j :: 0 <= i < j < |aggs| ==> aggs[i].id < aggs[j].id by {
        forall i, j | 0 <= i < j < |aggs| ensures aggs[i].id < aggs[j].id {
          assert aggs[j] == rest[j - |head|];
          if i >= |head| {
            assert aggs[i] == rest[i - |head|];
          }
        }
      }
      aggs
  }

  /** Looking month `m` up past a first result for another month. */
  lemma FindPastHead(head: seq<MonthAgg>, rest: seq<MonthAgg>, m: int)
    requires |head| <= 1 && (|head| == 1 ==> head[0].id != m)
    ensures FindMonth(head + rest, m) == FindMonth(rest, m)
  {
    if |head| == 1 {
      assert (head + rest)[0] == head[0];
      assert (head + rest)[1..] == rest;
    } else {
      assert head + rest == rest;
    }
  }

  /** Looking month `m` up in the aggregation gives that month's sum and
      count, zeros included. */
  lemma {:induction false} FindInAggregates(ds: seq<Dated>, year: int, from: int, m: int)
    requires from <= m <= 12
    ensures TotalOrZero(FindMonth(MonthAggregates(ds, year, from), m)) == MonthSum(ds, year, m)
    ensures CountOrZero(FindMonth(MonthAggregates(ds, year, from), m)) == MonthCount(ds, year, m)
    decreases 13 - from
  {
    var rest := MonthAggregates(ds, year, from + 1);
    var head := if MonthCount(ds, year, from) > 0 then [MonthAgg(from, MonthSum(ds, year, from), MonthCount(ds, year, from))] else [];
    assert MonthAggregates(ds, year, from) == head + rest;
    if from == m {
      if |head| == 0 {
        assert FindMonth(head + rest, m) == None by {
          assert head + rest == rest;
          assert forall k :: 0 <= k < |rest| ==> rest[k].id != m;
        }
        EmptyMonthSumsToZero(ds, year, m);
      } else {
        assert FindMonth(head + rest, m) == Some(head[0]) by {
          assert (head + rest)[0] == head[0];
        }
      }
    } else {
      FindPastHead(head, rest, m);
      FindInAggregates(ds, year, from + 1, m);
    }
  }

  /** `getMonthlyTrends` for `year` over the records of that year. */
  function GetMonthlyTrends(year: int, incomes: seq<Income>, expenses: seq<Expense>): seq<TrendMonth> {
    MonthlyTrends(MonthAggregates(IncomeDated(incomes), year, 1), MonthAggregates(ExpenseDated(expenses), year, 1))
  }

  /** The income side of month `i + 1` of the trends of two dated sequences. */
  lemma TrendIncomeOfDated(ids: seq<Dated>, eds: seq<Dated>, year: int, i: int)
    requires 0 <= i < 12
    ensures MonthlyTrends(MonthAggregates(ids, year, 1), MonthAggregates(eds, year, 1))[i].income == MonthSum(ids, year, i + 1)
    ensures MonthlyTrends(MonthAggregates(ids, year, 1), MonthAggregates(eds, year, 1))[i].incomeCount == MonthCount(ids, year, i + 1)
  {
    FindInAggregates(ids, year, 1, i + 1);
  }

  /** The expense side of month `i + 1` of the trends of two dated sequences. */
  lemma TrendExpensesOfDated(ids: seq<Dated>, eds: seq<Dated>, year: int, i: int)
    requires 0 <= i < 12
    ensures MonthlyTrends(MonthAggregates(ids, year, 1), MonthAggregates(eds, year, 1))[i].expenses == MonthSum(eds, year, i + 1)
    ensures MonthlyTrends(MonthAggregates(ids, year, 1), MonthAggregates(eds, year, 1))[i].expenseCount == MonthCount(eds, year, i + 1)
  {
    FindInAggregates(eds, year, 1, i + 1);
  }

  /** The trend of one month against the records. */
  lemma TrendOfMonth(year: int, incomes: seq<Income>, expenses: seq<Expense>, i: int)
    requires 0 <= i < 12
    ensures GetMonthlyTrends(year, incomes, expenses)[i].month == i + 1
    ensures GetMonthlyTrends(year, incomes, expenses)[i].income == MonthIncome(incomes, year, i + 1)
    ensures GetMonthlyTrends(year, incomes, expenses)[i].expenses == MonthExpenses(expenses, year, i + 1)
    ensures GetMonthlyTrends(year, incomes, expenses)[i].profit
            == MonthIncome(incomes, year, i + 1) - MonthExpenses(expenses, year, i + 1)
    ensures GetMonthlyTrends(year, incomes, expenses)[i].incomeCount == MonthCount(IncomeDated(incomes), year, i + 1)
    ensures GetMonthlyTrends(year, incomes, expenses)[i].expenseCount == MonthCount(ExpenseDated(expenses), year, i + 1)
  {
    var ids, eds := IncomeDated(incomes), ExpenseDated(expenses);
    var row := GetMonthlyTrends(year, incomes, expenses)[i];
    assert row.month == i + 1 && row.profit == row.income - row.expenses;
    assert row.income == MonthIncome(incomes, year, i + 1) && row.incomeCount == MonthCount(ids, year, i + 1) by {
      TrendIncomeOfDated(ids, eds, year, i);
      IncomeMonthSum(incomes, year, i + 1);
    }
    assert row.expenses == MonthExpenses(expenses, year, i + 1) && row.expenseCount == MonthCount(eds, year, i + 1) by {
      TrendExpensesOfDated(ids, eds, year, i);
      ExpenseMonthSum(expenses, year, i + 1);
    }
  }

  /** The trend of each month carries the income and expenses dated in that
      month, the same figures as the overview's monthly breakdown, and the
      number of records behind them. */
  lemma TrendsMatchRecords(year: int, incomes: seq<Income>, expenses: seq<Expense>)
    ensures |GetMonthlyTrends(year, incomes, expenses)| == 12
    ensures forall i :: 0 <= i < 12 ==> (GetMonthlyTrends(year, incomes, expenses)[i].month == i + 1
      && GetMonthlyTrends(year, incomes, expenses)[i].income == MonthlyTotals(incomes, expenses, year)[i].income
      && GetMonthlyTrends(year, incomes, expenses)[i].expenses == MonthlyTotals(incomes, expenses, year)[i].expenses
      && GetMonthlyTrends(year, incomes, expenses)[i].incomeCount == MonthCount(IncomeDated(incomes), year, i + 1)
      && GetMonthlyTrends(year, incomes, expenses)[i].expenseCount == MonthCount(ExpenseDated(expenses), year, i + 1))
  {
    var rows := GetMonthlyTrends(year, incomes, expenses);
    var ms := MonthlyTotals(incomes, expenses, year);
    forall i | 0 <= i < 12
      ensures rows[i].month == i + 1 && rows[i].income == ms[i].income && rows[i].expenses == ms[i].expenses
      ensures rows[i].incomeCount == MonthCount(IncomeDated(incomes), year, i + 1)
      ensures rows[i].expenseCount == MonthCount(ExpenseDated(expenses), year, i + 1)
    {
      TrendOfMonth(year, incomes, expenses, i);
    }
  }
}

=== FILE: dashboard_page.dfy ===
/** The dashboard page's derived figures over a loaded overview: net
    income, the two rates, the chart rows, the coverage bar and the choice
    of compact number format. */
module DashboardPage {
  import opened Common
  import opened Records
  import Dashboard

  datatype Figures = Figures(netIncome: real, effectiveTaxRate: real, savingsRate: real)

  /** Net income, and the tax and what is left after expenses and tax as
      percentages of income; both rates are 0 when there is no income. */
  function PageFigures(o: Dashboard.Overview): (f: Figures)
    ensures f.netIncome == o.totalIncome - o.totalExpenses
    ensures o.totalIncome <= 0.0 ==> f.effectiveTaxRate == 0.0 && f.savingsRate == 0.0
    ensures o.totalIncome > 0.0 ==> f.effectiveTaxRate * o.totalIncome == o.estimatedTax * 100.0
    ensures o.totalIncome > 0.0 ==>
      f.savingsRate * o.totalIncome == (o.totalIncome - o.totalExpenses - o.estimatedTax) * 100.0
  {
    var income := o.totalIncome;
    Figures(income - o.totalExpenses,
            if income > 0.0 then o.estimatedTax / income * 100.0 else 0.0,
            if income > 0.0 then (income - o.totalExpenses - o.estimatedTax) / income * 100.0 else 0.0)
  }

  /** With income, the tax rate and the savings rate together are the net
      income's share of income. */
  lemma RatesShareNetIncome(o: Dashboard.Overview)
    requires o.totalIncome > 0.0
    ensures var f := PageFigures(o);
      (f.effectiveTaxRate + f.savingsRate) * o.totalIncome == f.netIncome * 100.0
  {
    var f := PageFigures(o);
    assert (f.effectiveTaxRate + f.savingsRate) * o.totalIncome
        == f.effectiveTaxRate * o.totalIncome + f.savingsRate * o.totalIncome;
  }

  /** For an overview the endpoint computed, the effective tax rate is at
      least the 14.13% self-employment share whenever there is income. */
  lemma EffectiveRateAtLeastSelfEmployment(year: int, incomes: seq<Income>, expenses: seq<Expense>)
    requires IncomeTotal(incomes) > 0.0
    ensures PageFigures(Dashboard.GetDashboardOverview(year, incomes, expenses)).effectiveTaxRate >= 14.13
  {
    var o := Dashboard.GetDashboardOverview(year, incomes, expenses);
    RateAtLeastShare(PageFigures(o).effectiveTaxRate, o.estimatedTax, o.totalIncome);
  }

  /** A rate `r` with `r * income == tax * 100` and `tax >= 0.1413 * income`
      is at least 14.13. */
  lemma RateAtLeastShare(r: real, tax: real, income: real)
    requires income > 0.0 && r * income == tax * 100.0 && tax >= income * 0.1413
    ensures r >= 14.13
  {
  }

  /** A month of the chart: the breakdown's fields and its net income. */
  datatype ChartRow = ChartRow(monthNumber: int, income: real, expenses: real, netIncome: real)

  function ChartRowOf(m: MonthTotals): ChartRow {
    ChartRow(m.monthNumber, m.income, m.expenses, m.income - m.expenses)
  }

  /** `monthlyBreakdown.map(item => ({ ...item, netIncome: ... }))`. */
  function ChartData(ms: seq<MonthTotals>): (rows: seq<ChartRow>)
    ensures |rows| == |ms|
    ensures forall i :: 0 <= i < |ms| ==>
      rows[i].monthNumber == ms[i].monthNumber && rows[i].income == ms[i].income
      && rows[i].expenses == ms[i].expenses && rows[i].netIncome == ms[i].income - ms[i].expenses
  {
    seq(|ms|, i requires 0 <= i < |ms| => ChartRowOf(ms[i]))
  }

  function RowNet(r: ChartRow): real { r.netIncome }
  function MonthExpensesOf(m: MonthTotals): real { m.expenses }

  /** The chart's net incomes add up to the breakdown's income less its
      expenses. */
  lemma {:induction false} ChartNetAddsUp(ms: seq<MonthTotals>)
    ensures SumOf(ChartData(ms), RowNet) == SumOf(ms, MonthTotalsIncome) - SumOf(ms, MonthExpensesOf)
    decreases |ms|
  {
    if |ms| > 0 {
      assert ChartData(ms)[1..] == ChartData(ms[1..]);
      ChartNetAddsUp(ms[1..]);
    }
  }

  /** The coverage bar's width in percent. */
  function CoverageBarWidth(coverage: real): (w: real)
    ensures w <= 100.0
    ensures coverage <= 100.0 ==> w == coverage
    ensures coverage > 100.0 ==> w == 100.0
  {
    Min(coverage, 100.0)
  }

  /** The endpoint never reports more than 100% coverage for valid
      records, so the bar shows the coverage itself. */
  lemma CoverageBarShowsCoverage(year: int, incomes: seq<Income>, expenses: seq<Expense>)
    requires ExpensesValid(expenses)
    ensures var o := Dashboard.GetDashboardOverview(year, incomes, expenses);
      CoverageBarWidth(o.deductionCoverage) == o.deductionCoverage
  {
  }

  /** Which form `formatCompactNumber` prints: millions or thousands with
      one decimal (the scaled value is kept; `toFixed` is not modelled), or
      the number as it is. */
  datatype Compact = Millions(scaled: real) | Thousands(scaled: real) | Plain(value: real)

  function FormatCompactNumber(num: real): (c: Compact)
    ensures c.Millions? <==> num >= 1000000.0
    ensures c.Thousands? <==> 1000.0 <= num < 1000000.0
    ensures c.Plain? <==> num < 1000.0
  {
    if num >= 1000000.0 then Millions(num / 1000000.0)
    else if num >= 1000.0 then Thousands(num / 1000.0)
    else Plain(num)
  }

  /** The printed figure scales back to the number, and lies in the range
      its suffix promises. */
  lemma CompactScalesBack(num: real)
    ensures var c := FormatCompactNumber(num);
      && (c.Millions? ==> c.scaled * 1000000.0 == num && c.scaled >= 1.0)
      && (c.Thousands? ==> c.scaled * 1000.0 == num && 1.0 <= c.scaled < 1000.0)
      && (c.Plain? ==> c.value == num)
  {
  }
}

=== FILE: estimate_page.dfy ===
/** The tax-estimate page: its own marginal-rate lookup and four-rule
    recommendation list, the what-if request built from the two input
    fields, the scenario figures it displays, the deduction savings and the
    sign shown in front of each change. */
module EstimatePage {
  import opened Common
  import Rules
  import TaxBrackets
  import TaxRecommendations
  import TaxEstimate

  // ---------------------------------------------------------------------
  // Marginal rate

  /** `getMarginalRate`: the first four bracket tops applied to the taxable
      income as given, each test inclusive; 24 above the third top. */
  function GetMarginalRate(taxableIncome: real): (r: int)
    ensures r in {10, 12, 22, 24}
    ensures taxableIncome <= 11000.0 ==> r == 10
    ensures r <= 24
  {
    if taxableIncome <= 11000.0 then 10
    else if taxableIncome <= 44725.0 then 12
    else if taxableIncome <= 95375.0 then 22
    else 24
  }

  lemma MarginalRateMonotone(x: real, y: real)
    requires x <= y
    ensures GetMarginalRate(x) <= GetMarginalRate(y)
  {
  }

  /** Up to the top of the 24% bracket the page agrees with the tax
      endpoint's lookup, once the endpoint's standard deduction is added
      back; above it the page stays at 24 while the endpoint goes higher. */
  lemma AgreesWithEndpointRate(x: real)
    ensures x <= 182050.0 ==>
      GetMarginalRate(x) as real == TaxBrackets.GetMarginalTaxRate(x + TaxBrackets.STANDARD_DEDUCTION)
    ensures GetMarginalRate(x) as real <= TaxBrackets.GetMarginalTaxRate(x + TaxBrackets.STANDARD_DEDUCTION)
  {
    if x <= 182050.0 {
      AgreesUpToFourthTop(x);
    } else {
      StaysBelowAboveFourthTop(x);
    }
  }

  lemma AgreesUpToFourthTop(x: real)
    requires x <= 182050.0
    ensures GetMarginalRate(x) as real == TaxBrackets.GetMarginalTaxRate(x + TaxBrackets.STANDARD_DEDUCTION)
  {
    var t := TaxBrackets.TAX_BRACKETS;
    var a := TaxBrackets.AdjustedIncome(x + TaxBrackets.STANDARD_DEDUCTION);
    assert a == Max(0.0, x);
    if x <= 11000.0 {
      TaxBrackets.FirstFitIsFirst(t, a, 0);
    } else if x <= 44725.0 {
      TaxBrackets.FirstFitIsFirst(t, a, 1);
    } else if x <= 95375.0 {
      TaxBrackets.FirstFitIsFirst(t, a, 2);
    } else {
      TaxBrackets.FirstFitIsFirst(t, a, 3);
    }
  }

  lemma StaysBelowAboveFourthTop(x: real)
    requires x > 182050.0
    ensures GetMarginalRate(x) as real <= TaxBrackets.GetMarginalTaxRate(x + TaxBrackets.STANDARD_DEDUCTION)
  {
    AgreesUpToFourthTop(182050.0);
    TaxBrackets.MarginalRateMonotone(182050.0 + TaxBrackets.STANDARD_DEDUCTION, x + TaxBrackets.STANDARD_DEDUCTION);
  }

  // ---------------------------------------------------------------------
  // Recommendations

  datatype PageRule = MissingDeductions | HighRate | NonDeductible | IncomeLevel

  const PAGE_RULES: seq<PageRule> := [MissingDeductions, HighRate, NonDeductible, IncomeLevel]

  function PageRank(r: PageRule): int {
    match r
    case MissingDeductions => 0
    case HighRate => 1
    case NonDeductible => 2
    case IncomeLevel => 3
  }

  /** The four figures, in the order of the parameters. */
  datatype PageFigures = PageFigures(income: real, deductible: real, total: real, effectiveRate: real)

  predicate PageFires(r: PageRule, f: PageFigures) {
    match r
    case MissingDeductions => f.deductible < f.income * 0.15
    case HighRate => f.effectiveRate > 25.0
    case NonDeductible => f.total - f.deductible > f.income * 0.10
    case IncomeLevel => f.income > 50000.0 && f.deductible < 5000.0
  }

  datatype PageRecommendation = Advice(rule: PageRule) | LooksGood

  /** The text each entry stands for. */
  function PageText(rec: PageRecommendation): string {
    match rec
    case Advice(MissingDeductions) => "Consider tracking more business expenses - you may be missing deductions"
    case Advice(HighRate) => "Your tax rate is high - consider maximizing retirement contributions"
    case Advice(NonDeductible) => "You have significant non-deductible expenses - review your business spending"
    case Advice(IncomeLevel) => "With your income level, you should have more business deductions"
    case LooksGood => "Your tax situation looks good! Keep tracking expenses consistently."
  }

  /** The endpoint rule each page rule repeats. */
  function EndpointRule(r: PageRule): TaxRecommendations.Rule {
    match r
    case MissingDeductions => TaxRecommendations.MissingDeductions
    case HighRate => TaxRecommendations.HighEffectiveRate
    case NonDeductible => TaxRecommendations.NonDeductibleSpending
    case IncomeLevel => TaxRecommendations.IncomeLevelDeductions
  }

  /** Each page rule tests the same condition as the first four rules of
      the tax endpoint, in the same order. */
  lemma SameConditionsAsEndpoint(r: PageRule, f: PageFigures)
    ensures PageFires(r, f) <==> TaxRecommendations.Fires(EndpointRule(r),
      TaxRecommendations.Figures(f.income, f.deductible, f.total, f.effectiveRate))
    ensures TaxRecommendations.Rank(EndpointRule(r)) == PageRank(r)
  {
  }

  lemma PageRulesRanked()
    ensures Rules.StrictlyRanked(PAGE_RULES, PageRank)
    ensures forall r :: r in PAGE_RULES
  {
    forall r ensures r in PAGE_RULES {
      assert PAGE_RULES[PageRank(r)] == r;
    }
  }

  function FiredPageRules(f: PageFigures): (fired: seq<PageRule>)
    ensures forall r :: r in fired <==> PageFires(r, f)
    ensures Rules.StrictlyRanked(fired, PageRank)
  {
    PageRulesRanked();
    Rules.FiredKeepsOrder(PAGE_RULES, r => PageFires(r, f), PageRank);
    Rules.Fired(PAGE_RULES, r => PageFires(r, f))
  }

  function AdviceOrLooksGood(fired: seq<PageRule>): (recs: seq<PageRecommendation>)
    ensures |fired| == 0 ==> recs == [LooksGood]
    ensures |fired| > 0 ==> |recs| == |fired| && forall i :: 0 <= i < |fired| ==> recs[i] == Advice(fired[i])
  {
    if |fired| == 0 then [LooksGood] else seq(|fired|, i requires 0 <= i < |fired| => Advice(fired[i]))
  }

  /** Advice entries keep the order of their rules. */
  lemma AdviceRanked(fired: seq<PageRule>)
    requires Rules.StrictlyRanked(fired, PageRank)
    ensures forall i, j :: 0 <= i < j < |AdviceOrLooksGood(fired)| ==>
      AdviceOrLooksGood(fired)[i].Advice? && AdviceOrLooksGood(fired)[j].Advice?
      && PageRank(AdviceOrLooksGood(fired)[i].rule) < PageRank(AdviceOrLooksGood(fired)[j].rule)
  {
    var recs := AdviceOrLooksGood(fired);
    if |fired| > 0 {
      forall i, j | 0 <= i < j < |recs| ensures recs[i].Advice? && recs[j].Advice? && PageRank(recs[i].rule) < PageRank(recs[j].rule) {
        assert recs[i] == Advice(fired[i]) && recs[j] == Advice(fired[j]);
      }
    }
  }

  lemma AdviceListsFired(fired: seq<PageRule>, r: PageRule)
    ensures Advice(r) in AdviceOrLooksGood(fired) <==> r in fired
    ensures LooksGood in AdviceOrLooksGood(fired) <==> |fired| == 0
  {
    var recs := AdviceOrLooksGood(fired);
    if r in fired {
      var i :| 0 <= i < |fired| && fired[i] == r;
      assert recs[i] == Advice(r);
    }
  }

  /** What the list of the fired rules says about the figures. */
  lemma FiredAdvice(f: PageFigures)
    ensures |AdviceOrLooksGood(FiredPageRules(f))| >= 1
    ensures forall r :: Advice(r) in AdviceOrLooksGood(FiredPageRules(f)) <==> PageFires(r, f)
    ensures LooksGood in AdviceOrLooksGood(FiredPageRules(f)) <==> forall r :: !PageFires(r, f)
    ensures LooksGood in AdviceOrLooksGood(FiredPageRules(f)) ==> AdviceOrLooksGood(FiredPageRules(f)) == [LooksGood]
  {
    var fired := FiredPageRules(f);
    forall r ensures Advice(r) in AdviceOrLooksGood(fired) <==> PageFires(r, f) {
      AdviceListsFired(fired, r);
    }
    AdviceListsFired(fired, MissingDeductions);
    if |fired| > 0 {
      assert PageFires(fired[0], f);
    }
  }

  /** `generateRecommendations`: never empty; a rule's advice is present
      exactly when the rule fires; the closing message is present exactly
      when none fires, and is then the whole list. */
  function GenerateRecommendations(f: PageFigures): (recs: seq<PageRecommendation>)
    ensures |recs| >= 1
    ensures forall i, j :: 0 <= i < j < |recs| ==>
      recs[i].Advice? && recs[j].Advice? && PageRank(recs[i].rule) < PageRank(recs[j].rule)
    ensures forall r :: Advice(r) in recs <==> PageFires(r, f)
    ensures LooksGood in recs <==> forall r :: !PageFires(r, f)
    ensures LooksGood in recs ==> recs == [LooksGood]
  {
    FiredAdvice(f);
    AdviceRanked(FiredPageRules(f));
    AdviceOrLooksGood(FiredPageRules(f))
  }

  /** The list is the advice of the fired rules in table order, or the
      closing message alone when none fires. */
  lemma RecommendationsInRuleOrder(f: PageFigures, fired: seq<PageRule>)
    requires forall r :: r in fired <==> PageFires(r, f)
    requires Rules.StrictlyRanked(fired, PageRank)
    ensures GenerateRecommendations(f) == AdviceOrLooksGood(fired)
  {
    Rules.RankedUnique(fired, FiredPageRules(f), PageRank);
  }

  /** The income-level rule also triggers the missing-deductions rule. */
  lemma IncomeLevelImpliesMissing(f: PageFigures)
    requires PageFires(IncomeLevel, f)
    ensures PageFires(MissingDeductions, f)
  {
  }

  // ---------------------------------------------------------------------
  // What-if scenario

  /** The request the page sends: each field is its parsed text or 0 when
      the text does not parse (`parseFloat(text) || 0`), and no retirement
      contribution. */
  datatype ScenarioRequest = ScenarioRequest(additionalIncome: real, additionalExpenses: real, retirementContribution: real)

  function ScenarioRequestOf(incomeText: Option<real>, expensesText: Option<real>): (q: ScenarioRequest)
    ensures incomeText.None? ==> q.additionalIncome == 0.0
    ensures expensesText.None? ==> q.additionalExpenses == 0.0
    ensures incomeText.Some? ==> q.additionalIncome == incomeText.value
    ensures expensesText.Some? ==> q.additionalExpenses == expensesText.value
    ensures q.retirementContribution == 0.0
  {
    ScenarioRequest(TaxEstimate.OrZero(incomeText), TaxEstimate.OrZero(expensesText), 0.0)
  }

  /** The figures the page shows for the scenario. */
  datatype ScenarioView = ScenarioView(
    currentYear: int,
    totalIncome: real,
    totalExpenses: real,
    deductibleExpenses: real,
    taxableIncome: real,
    totalTax: real,
    quarterlyPayment: real,
    effectiveRate: real)

  function ScenarioViewOf(year: int, current: TaxEstimate.Estimate, s: TaxEstimate.Snapshot): (v: ScenarioView)
    ensures v.currentYear == year
    ensures 4.0 * v.quarterlyPayment == v.totalTax
    ensures v.totalExpenses == current.totalExpenses
    ensures v.totalIncome == s.totalIncome && v.totalTax == s.totalTax
    ensures v.deductibleExpenses == s.deductibleExpenses && v.taxableIncome == s.taxableIncome
    ensures v.effectiveRate == s.effectiveRate
  {
    ScenarioView(year, s.totalIncome, current.totalExpenses, s.deductibleExpenses, s.taxableIncome,
                 s.totalTax, s.totalTax / 4.0, s.effectiveRate)
  }

  /** The scenario route's schema: every amount is at least 0. A request
      it rejects gets a 400 and the page keeps no scenario result. */
  predicate ScenarioSchemaAccepts(q: ScenarioRequest) {
    q.additionalIncome >= 0.0 && q.additionalExpenses >= 0.0 && q.retirementContribution >= 0.0
  }

  /** `calculateScenario`: the request is validated by the route, computed
      by the endpoint and shown, or rejected, in which case `None`. */
  function CalculateScenario(year: int, current: TaxEstimate.Estimate,
                             incomeText: Option<real>, expensesText: Option<real>): (r: Option<ScenarioView>)
    ensures r.Some? <==> TaxEstimate.OrZero(incomeText) >= 0.0 && TaxEstimate.OrZero(expensesText) >= 0.0
  {
    var q := ScenarioRequestOf(incomeText, expensesText);
    if !ScenarioSchemaAccepts(q) then None
    else
      var s := TaxEstimate.CalculateTaxScenario(current.totalIncome, current.deductibleExpenses,
        Some(q.additionalIncome), Some(q.additionalExpenses), Some(q.retirementContribution));
      Some(ScenarioViewOf(year, current, s.scenario))
  }

  /** What the page displays after a round trip through the scenario
      endpoint: a negative parsed amount is refused by the route; otherwise
      the current income plus the parsed extra income, the current
      deductions plus the parsed extra expenses, the tax of those figures
      with a quarter of it as the quarterly payment. Empty inputs reproduce
      the current tax. */
  lemma ScenarioRoundTrip(year: int, current: TaxEstimate.Estimate, incomeText: Option<real>, expensesText: Option<real>)
    ensures var r := CalculateScenario(year, current, incomeText, expensesText);
      && (r.None? <==> TaxEstimate.OrZero(incomeText) < 0.0 || TaxEstimate.OrZero(expensesText) < 0.0)
      && (r.Some? ==>
            && r.value.totalIncome == current.totalIncome + TaxEstimate.OrZero(incomeText)
            && r.value.deductibleExpenses == current.deductibleExpenses + TaxEstimate.OrZero(expensesText)
            && r.value.totalTax == TaxEstimate.TotalTax(r.value.totalIncome, r.value.deductibleExpenses)
            && 4.0 * r.value.quarterlyPayment == r.value.totalTax)
      && (incomeText.None? && expensesText.None? ==>
            r.Some? && r.value.totalTax == TaxEstimate.TotalTax(current.totalIncome, current.deductibleExpenses))
  {
  }

  // ---------------------------------------------------------------------
  // Displayed values

  /** The tax saved by the deductions at the marginal rate (in percent). */
  function DeductionSavings(deductible: real, marginalRate: real): (s: real)
    ensures 100.0 * s == deductible * marginalRate
  {
    deductible * (marginalRate / 100.0)
  }

  /** With the endpoint's marginal rate, the savings lie between 10% and
      37% of non-negative deductions. */
  lemma SavingsWithinRates(deductible: real, taxableIncome: real)
    requires deductible >= 0.0
    ensures 0.10 * deductible <= DeductionSavings(deductible, TaxBrackets.GetMarginalTaxRate(taxableIncome)) <= 0.37 * deductible
  {
    var r := TaxBrackets.GetMarginalTaxRate(taxableIncome);
    assert 10.0 <= r <= 37.0;
    assert DeductionSavings(deductible, r) == deductible * (r / 100.0);
  }

  /** The sign written before a change: '+' for an increase, nothing
      otherwise (a decrease carries its own minus sign). */
  function ChangePrefix(scenarioValue: real, currentValue: real): (p: string)
    ensures |p| <= 1
    ensures p == "+" <==> scenarioValue - currentValue > 0.0
    ensures p == "" <==> scenarioValue - currentValue <= 0.0
  {
    if scenarioValue > currentValue then "+" else ""
  }
}

=== FILE: expenses_page.dfy ===
/** The expenses page's form logic and the figures it shows: `validateForm`,
    the submitted payload, the form `handleEdit` and `resetForm` fill, the
    label lookups and the summary cards computed from a loaded page of
    entries. The amount check and the date part of a stored date are the
    same as on the income page. */
module ExpensesPage {
  import opened Common
  import opened Records
  import IncomePage

  datatype ExpenseForm = ExpenseForm(
    description: string,
    amount: string,
    category: string,
    paymentMethod: string,
    date: string,
    isRecurring: bool,
    isDeductible: bool)

  datatype FormErrors = FormErrors(
    description: bool,
    amount: Option<IncomePage.AmountError>,
    category: bool,
    paymentMethod: bool,
    date: bool)

  /** `validateForm`: the errors it records. */
  function ValidateForm(f: ExpenseForm, parsedAmount: Option<real>): (errs: FormErrors)
    ensures errs.description <==> forall i :: 0 <= i < |f.description| ==> IsSpace(f.description[i])
    ensures errs.amount.None? <==> f.amount != "" && parsedAmount.Some? && parsedAmount.value > 0.0
    ensures errs.amount == Some(IncomePage.AmountNotNumber) <==> f.amount != "" && parsedAmount.None?
    ensures errs.category <==> f.category == ""
    ensures errs.paymentMethod <==> f.paymentMethod == ""
    ensures errs.date <==> f.date == ""
  {
    TrimEmptyIffBlank(f.description);
    FormErrors(Trim(f.description) == "", IncomePage.AmountCheck(f.amount, parsedAmount),
               f.category == "", f.paymentMethod == "", f.date == "")
  }

  predicate NoErrors(errs: FormErrors) {
    !errs.description && errs.amount.None? && !errs.category && !errs.paymentMethod && !errs.date
  }

  /** The form passes exactly when the description holds a visible
      character, the amount parses to a positive number, and category,
      payment method and date are filled in; the two flags play no part. */
  lemma ValidateFormMeaning(f: ExpenseForm, parsedAmount: Option<real>)
    ensures NoErrors(ValidateForm(f, parsedAmount)) <==>
      (exists i :: 0 <= i < |f.description| && !IsSpace(f.description[i]))
      && f.amount != "" && parsedAmount.Some? && parsedAmount.value > 0.0
      && f.category != "" && f.paymentMethod != "" && f.date != ""
    ensures forall r, d :: ValidateForm(f.(isRecurring := r, isDeductible := d), parsedAmount) == ValidateForm(f, parsedAmount)
  {
  }

  datatype ExpensePayload = ExpensePayload(
    description: string,
    amount: real,
    category: string,
    paymentMethod: string,
    date: string,
    isRecurring: bool,
    isDeductible: bool)

  datatype Submit = Blocked(errors: FormErrors) | Send(payload: ExpensePayload)

  /** `handleSubmit`: validation first, then the payload with a trimmed
      description and the form's flags. */
  function HandleSubmit(f: ExpenseForm, parsedAmount: Option<real>): (s: Submit)
    ensures s.Send? <==> NoErrors(ValidateForm(f, parsedAmount))
    ensures s.Blocked? ==> s.errors == ValidateForm(f, parsedAmount)
    ensures s.Send? ==>
      && s.payload.description == Trim(f.description) && s.payload.description != ""
      && parsedAmount == Some(s.payload.amount) && s.payload.amount > 0.0
      && s.payload.category == f.category && s.payload.paymentMethod == f.paymentMethod
      && s.payload.date == f.date
      && s.payload.isRecurring == f.isRecurring && s.payload.isDeductible == f.isDeductible
  {
    var errs := ValidateForm(f, parsedAmount);
    if !NoErrors(errs) then Blocked(errs)
    else Send(ExpensePayload(Trim(f.description), parsedAmount.value, f.category, f.paymentMethod,
                             f.date, f.isRecurring, f.isDeductible))
  }

  /** The form as first shown and after `resetForm`: empty fields, today's
      date, not recurring, deductible. */
  function BlankForm(today: string): (f: ExpenseForm)
    ensures f.isDeductible && !f.isRecurring
    ensures f.description == "" && f.amount == "" && f.category == "" && f.paymentMethod == ""
    ensures f.date == today
  {
    ExpenseForm("", "", "", "", today, false, true)
  }

  /** A blank form is never sent: its description is empty. */
  lemma BlankFormBlocked(today: string, parsedAmount: Option<real>)
    ensures HandleSubmit(BlankForm(today), parsedAmount).Blocked?
    ensures HandleSubmit(BlankForm(today), parsedAmount).errors.description
  {
  }

  /** `handleEdit`: the form filled from a stored entry; the amount's text
      (`toString`) is given. */
  function EditForm(description: string, amountText: string, category: string, paymentMethod: Option<string>,
                    serialisedDate: string, isRecurring: bool, isDeductible: bool): (f: ExpenseForm)
    ensures f.description == description && f.amount == amountText && f.category == category
    ensures f.paymentMethod == "" <==> paymentMethod.None? || paymentMethod == Some("")
    ensures paymentMethod.Some? ==> f.paymentMethod == paymentMethod.value
    ensures f.date == IncomePage.EditDate(serialisedDate)
    ensures f.isRecurring == isRecurring && f.isDeductible == isDeductible
  {
    ExpenseForm(description, amountText, category, if paymentMethod.Some? then paymentMethod.value else "",
                IncomePage.EditDate(serialisedDate), isRecurring, isDeductible)
  }

  /** Saving an edited entry without touching the form sends its
      description (trimmed), amount, category, payment method, calendar date
      and flags back unchanged, exactly when the entry passes the form's
      checks; an entry stored without a payment method cannot be saved
      until one is picked. */
  lemma EditThenSubmit(description: string, amountText: string, amount: real, category: string,
                       paymentMethod: Option<string>, day: string, time: string,
                       isRecurring: bool, isDeductible: bool)
    requires 'T' !in day
    ensures var s := HandleSubmit(EditForm(description, amountText, category, paymentMethod, day + "T" + time,
                                           isRecurring, isDeductible), Some(amount));
      && (paymentMethod.None? ==> s.Blocked? && s.errors.paymentMethod)
      && (s.Send? <==>
            && (exists i :: 0 <= i < |description| && !IsSpace(description[i]))
            && amountText != "" && amount > 0.0 && category != "" && day != ""
            && paymentMethod.Some? && paymentMethod.value != "")
      && (s.Send? ==> paymentMethod.Some? && s.payload.paymentMethod == paymentMethod.value
                      && s.payload.description == Trim(description) && s.payload.category == category
                      && s.payload.date == day && s.payload.amount == amount
                      && s.payload.isRecurring == isRecurring && s.payload.isDeductible == isDeductible)
  {
    IncomePage.EditDateOfTimestamp(day, time);
    var f := EditForm(description, amountText, category, paymentMethod, day + "T" + time, isRecurring, isDeductible);
    ValidateFormMeaning(f, Some(amount));
  }

  // ---------------------------------------------------------------------
  // Labels

  datatype Choice = Choice(value: string, caption: string)

  const CATEGORIES: seq<Choice> := [
    Choice("office-supplies", "Office Supplies"),
    Choice("equipment", "Equipment"),
    Choice("software", "Software & Subscriptions"),
    Choice("travel", "Travel & Transportation"),
    Choice("meals", "Meals & Entertainment"),
    Choice("marketing", "Marketing & Advertising"),
    Choice("utilities", "Utilities"),
    Choice("rent", "Rent & Office Space"),
    Choice("insurance", "Insurance"),
    Choice("professional-services", "Professional Services"),
    Choice("education", "Education & Training"),
    Choice("taxes", "Taxes & Fees"),
    Choice("other", "Other Business Expenses")
  ]

  const PAYMENT_METHODS: seq<Choice> := [
    Choice("credit-card", "Credit Card"),
    Choice("debit-card", "Debit Card"),
    Choice("cash", "Cash"),
    Choice("bank-transfer", "Bank Transfer"),
    Choice("check", "Check"),
    Choice("business-account", "Business Account"),
    Choice("other", "Other")
  ]

  /** `table.find(c => c.value === value)`: the index of the first choice
      with that value. */
  function FindChoice(table: seq<Choice>, value: string): (r: Option<nat>)
    ensures r.None? <==> forall k :: 0 <= k < |table| ==> table[k].value != value
    ensures r.Some? ==> r.value < |table| && table[r.value].value == value
    ensures r.Some? ==> forall k :: 0 <= k < r.value ==> table[k].value != value
  {
    if |table| == 0 then None
    else if table[0].value == value then Some(0)
    else match FindChoice(table[1..], value)
      case None => None
      case Some(k) => Some(k + 1)
  }

  /** The label of the first choice with that value, or the value itself. */
  function LabelOf(table: seq<Choice>, value: string): (l: string)
    ensures (forall k :: 0 <= k < |table| ==> table[k].value != value) ==> l == value
  {
    match FindChoice(table, value)
    case None => value
    case Some(k) => table[k].caption
  }

  function GetCategoryLabel(value: string): string { LabelOf(CATEGORIES, value) }
  function GetPaymentMethodLabel(value: string): string { LabelOf(PAYMENT_METHODS, value) }

  predicate DistinctValues(table: seq<Choice>) {
    forall j, k :: 0 <= j < k < |table| ==> table[j].value != table[k].value
  }

  /** In a table without repeated values every listed value gets its own
      label. */
  lemma LabelOfListed(table: seq<Choice>, k: nat)
    requires DistinctValues(table) && k < |table|
    ensures LabelOf(table, table[k].value) == table[k].caption
  {
    var r := FindChoice(table, table[k].value);
    assert r.Some?;
    assert r.value == k;
  }

  lemma CategoriesDistinct()
    ensures DistinctValues(CATEGORIES)
  {
  }

  lemma PaymentMethodsDistinct()
    ensures DistinctValues(PAYMENT_METHODS)
  {
  }

  /** Both label lookups give the table's label for a listed value and the
      value unchanged for any other. */
  lemma LabelLookups(value: string)
    ensures forall k :: 0 <= k < |CATEGORIES| && CATEGORIES[k].value == value ==> GetCategoryLabel(value) == CATEGORIES[k].caption
    ensures (forall k :: 0 <= k < |CATEGORIES| ==> CATEGORIES[k].value != value) ==> GetCategoryLabel(value) == value
    ensures forall k :: 0 <= k < |PAYMENT_METHODS| && PAYMENT_METHODS[k].value == value ==> GetPaymentMethodLabel(value) == PAYMENT_METHODS[k].caption
    ensures (forall k :: 0 <= k < |PAYMENT_METHODS| ==> PAYMENT_METHODS[k].value != value) ==> GetPaymentMethodLabel(value) == value
  {
    CategoriesDistinct();
    PaymentMethodsDistinct();
    forall k | 0 <= k < |CATEGORIES| && CATEGORIES[k].value == value
      ensures GetCategoryLabel(value) == CATEGORIES[k].caption
    {
      LabelOfListed(CATEGORIES, k);
    }
    forall k | 0 <= k < |PAYMENT_METHODS| && PAYMENT_METHODS[k].value == value
      ensures GetPaymentMethodLabel(value) == PAYMENT_METHODS[k].caption
    {
      LabelOfListed(PAYMENT_METHODS, k);
    }
  }

  // ---------------------------------------------------------------------
  // Summary cards

  datatype Cards = Cards(totalExpenses: real, deductibleExpenses: real, totalEntries: nat, totalPages: nat, average: real)

  /** `n || fallback` on a count that may be missing. */
  function OrFallback(n: Option<nat>, fallback: nat): (r: nat)
    ensures n.Some? && n.value != 0 ==> r == n.value
    ensures n.None? || n.value == 0 ==> r == fallback
  {
    if n.Some? && n.value != 0 then n.value else fallback
  }

  /** The cards for one loaded page: the sums over its entries, the total
      count from the pagination (or the number of entries), the page count
      (or 1), and the average over that count. */
  function PageCards(entries: seq<Expense>, paginationTotal: Option<nat>, paginationPages: Option<nat>): (c: Cards)
    ensures c.totalExpenses == ExpenseTotal(entries)
    ensures c.deductibleExpenses == ExpenseTotal(Deductibles(entries))
    ensures ExpensesValid(entries) ==> 0.0 <= c.deductibleExpenses <= c.totalExpenses
    ensures c.totalPages >= 1
    ensures paginationPages.Some? && paginationPages.value != 0 ==> c.totalPages == paginationPages.value
    ensures paginationPages.None? || paginationPages.value == 0 ==> c.totalPages == 1
    ensures paginationTotal.Some? && paginationTotal.value != 0 ==> c.totalEntries == paginationTotal.value
    ensures paginationTotal.None? || paginationTotal.value == 0 ==> c.totalEntries == |entries|
    ensures c.average == Average(c.totalExpenses, c.totalEntries)
    ensures c.totalEntries == 0 <==> |entries| == 0 && (paginationTotal.None? || paginationTotal.value == 0)
  {
    var total := ExpenseTotal(entries);
    var n := OrFallback(paginationTotal, |entries|);
    assert ExpensesValid(entries) ==> 0.0 <= DeductibleTotal(entries) <= total by {
      if ExpensesValid(entries) { DeductibleWithinTotal(entries); }
    }
    Cards(total, DeductibleTotal(entries), n, OrFallback(paginationPages, 1), Average(total, n))
  }

  /** `count > 0 ? total / count : 0`. */
  function Average(total: real, count: nat): (a: real)
    ensures count == 0 ==> a == 0.0
    ensures count > 0 ==> a * (count as real) == total
  {
    if count > 0 then total / (count as real) else 0.0
  }
}

=== FILE: frontend_utils.dfy ===
/** The client-side helpers: a one-line tax estimate, the quarterly share,
    the next filing deadlines after a given moment, a keyword categoriser
    for expense descriptions and a bounded tracking score. */
module FrontendUtils {
  import opened Common

  // ---------------------------------------------------------------------
  // Tax helpers

  const STANDARD_DEDUCTION: real := 13850.0

  /** The client's estimate: 15.3% of what income exceeds expenses plus the
      standard deduction by. */
  function CalculateTax(income: real, expenses: real): (t: real)
    ensures t >= 0.0
    ensures income - expenses <= STANDARD_DEDUCTION ==> t == 0.0
    ensures income - expenses > STANDARD_DEDUCTION ==> t == 0.153 * (income - expenses - STANDARD_DEDUCTION)
  {
    Max(0.0, income - expenses - STANDARD_DEDUCTION) * 0.153
  }

  /** More income never lowers the estimate; more expenses never raise it. */
  lemma CalculateTaxMonotone(i1: real, i2: real, e1: real, e2: real)
    requires i1 <= i2 && e2 <= e1
    ensures CalculateTax(i1, e1) <= CalculateTax(i2, e2)
  {
  }

  function CalculateQuarterlyTax(annualTax: real): (q: real)
    ensures 4.0 * q == annualTax
  {
    annualTax / 4.0
  }

  // ---------------------------------------------------------------------
  // Deadlines

  datatype DeadlineType = Q4Estimated | AnnualReturn | Q1Estimated | Q2Estimated | Q3Estimated

  datatype ClientDeadline = ClientDeadline(date: Date, kind: DeadlineType)

  /** The fixed list of the current year, in its own (chronological) order. */
  function ClientDeadlines(year: int): seq<ClientDeadline> {
    [ ClientDeadline(Date(year, 1, 15), Q4Estimated),
      ClientDeadline(Date(year, 4, 15), AnnualReturn),
      ClientDeadline(Date(year, 6, 15), Q1Estimated),
      ClientDeadline(Date(year, 9, 15), Q2Estimated),
      ClientDeadline(Date(year + 1, 1, 15), Q3Estimated) ]
  }

  /** The deadlines strictly after `now`. A deadline is at midnight, so one
      on the current day is already past at any time of that day. */
  function After(ds: seq<ClientDeadline>, now: Date): (r: seq<ClientDeadline>)
    ensures forall d :: d in r <==> d in ds && Before(now, d.date)
    ensures |r| <= |ds|
    decreases |ds|
  {
    if |ds| == 0 then []
    else (if Before(now, ds[0].date) then [ds[0]] else []) + After(ds[1..], now)
  }

  /** The list's dates strictly increase. */
  lemma ClientDeadlinesChronological(year: int)
    ensures Chronological(ClientDeadlines(year))
  {
  }

  predicate Chronological(ds: seq<ClientDeadline>) {
    forall i, j :: 0 <= i < j < |ds| ==> Before(ds[i].date, ds[j].date)
  }

  /** The tail of a chronological list is chronological and comes after its
      head. */
  lemma ChronologicalTail(ds: seq<ClientDeadline>)
    requires |ds| > 0 && Chronological(ds)
    ensures Chronological(ds[1..])
    ensures forall x :: x in ds[1..] ==> Before(ds[0].date, x.date)
  {
    var rest := ds[1..];
    forall i, j | 0 <= i < j < |rest| ensures Before(rest[i].date, rest[j].date) {
      assert rest[i] == ds[i + 1] && rest[j] == ds[j + 1];
    }
    forall x | x in rest ensures Before(ds[0].date, x.date) {
      var m :| 0 <= m < |rest| && rest[m] == x;
      assert x == ds[m + 1];
    }
  }

  /** Filtering keeps the order of a chronological list. */
  lemma {:induction false} AfterChronological(ds: seq<ClientDeadline>, now: Date)
    requires Chronological(ds)
    ensures Chronological(After(ds, now))
    decreases |ds|
  {
    if |ds| > 0 {
      var rest := ds[1..];
      ChronologicalTail(ds);
      AfterChronological(rest, now);
      var r := After(ds, now);
      var tail := After(rest, now);
      if Before(now, ds[0].date) {
        assert r == [ds[0]] + tail;
        forall i, j | 0 <= i < j < |r| ensures Before(r[i].date, r[j].date) {
          if i == 0 {
            assert r[j] == tail[j - 1];
            assert tail[j - 1] in rest;
          } else {
            assert r[i] == tail[i - 1] && r[j] == tail[j - 1];
          }
        }
      } else {
        assert r == tail;
      }
    }
  }

  /** `getNextTaxDeadlines`: the first three deadlines of the year's list
      that lie after `now`. */
  function GetNextTaxDeadlines(year: int, now: Date): (r: seq<ClientDeadline>)
    ensures |r| <= 3
    ensures forall k :: 0 <= k < |r| ==> Before(now, r[k].date) && r[k] in ClientDeadlines(year)
    ensures forall i, j :: 0 <= i < j < |r| ==> Before(r[i].date, r[j].date)
    ensures |r| <= |After(ClientDeadlines(year), now)| && r == After(ClientDeadlines(year), now)[..|r|]
    ensures |r| < 3 ==> r == After(ClientDeadlines(year), now)
  {
    var upcoming := After(ClientDeadlines(year), now);
    assert Chronological(upcoming) by {
      ClientDeadlinesChronological(year);
      AfterChronological(ClientDeadlines(year), now);
    }
    var r := if |upcoming| <= 3 then upcoming else upcoming[..3];
    assert forall k :: 0 <= k < |r| ==> r[k] in upcoming by {
      forall k | 0 <= k < |r| ensures r[k] in upcoming {
        assert r[k] == upcoming[k];
      }
    }
    r
  }

  /** A deadline after `now` that the result leaves out comes after every
      deadline it returns. */
  lemma NextDeadlinesAreEarliest(year: int, now: Date, d: ClientDeadline)
    requires d in ClientDeadlines(year) && Before(now, d.date)
    requires d !in GetNextTaxDeadlines(year, now)
    ensures forall k :: 0 <= k < |GetNextTaxDeadlines(year, now)| ==>
      Before(GetNextTaxDeadlines(year, now)[k].date, d.date)
  {
    var upcoming := After(ClientDeadlines(year), now);
    var r := GetNextTaxDeadlines(year, now);
    ClientDeadlinesChronological(year);
    AfterChronological(ClientDeadlines(year), now);
    var m :| 0 <= m < |upcoming| && upcoming[m] == d;
    forall k | 0 <= k < |r| ensures Before(r[k].date, d.date) {
      assert r[k] == upcoming[k];
    }
  }

  // ---------------------------------------------------------------------
  // Expense categoriser

  datatype ExpenseLabel =
    | InternetPhone
    | SoftwareTools
    | Travel
    | OfficeSupplies
    | Meals
    | Transportation
    | HomeOffice
    | Other

  /** The label's text. */
  function LabelText(l: ExpenseLabel): string {
    match l
    case InternetPhone => "Internet & Phone"
    case SoftwareTools => "Software & Tools"
    case Travel => "Travel"
    case OfficeSupplies => "Office Supplies"
    case Meals => "Meals & Entertainment"
    case Transportation => "Transportation"
    case HomeOffice => "Home Office"
    case Other => "Other"
  }

  /** The keyword rules in the order they are checked. */
  const KEYWORD_RULES: seq<ExpenseLabel> :=
    [InternetPhone, SoftwareTools, Travel, OfficeSupplies, Meals, Transportation, HomeOffice]

  function Keywords(l: ExpenseLabel): seq<string> {
    match l
    case InternetPhone => ["internet", "wifi", "phone"]
    case SoftwareTools => ["software", "app", "subscription"]
    case Travel => ["travel", "flight", "hotel"]
    case OfficeSupplies => ["office", "desk", "chair"]
    case Meals => ["meal", "lunch", "dinner"]
    case Transportation => ["car", "gas", "uber"]
    case HomeOffice => ["home", "rent", "utilities"]
    case Other => []
  }

  /** Some keyword of the rule occurs in the lower-cased description. */
  predicate RuleMatches(l: ExpenseLabel, desc: string) {
    exists k :: 0 <= k < |Keywords(l)| && Contains(desc, Keywords(l)[k])
  }

  /** The first rule of `rules` that matches, or `Other`. */
  function FirstMatch(rules: seq<ExpenseLabel>, desc: string): (l: ExpenseLabel)
    ensures l == Other || (l in rules && RuleMatches(l, desc))
    ensures l == Other ==> forall k :: 0 <= k < |rules| && rules[k] != Other ==> !RuleMatches(rules[k], desc)
    decreases |rules|
  {
    if |rules| == 0 then Other
    else if rules[0] != Other && RuleMatches(rules[0], desc) then rules[0]
    else
      var l := FirstMatch(rules[1..], desc);
      assert l == Other ==> forall k :: 0 <= k < |rules| && rules[k] != Other ==> !RuleMatches(rules[k], desc) by {
        if l == Other {
          forall k | 0 <= k < |rules| && rules[k] != Other ensures !RuleMatches(rules[k], desc) {
            if k > 0 {
              assert rules[k] == rules[1..][k - 1];
            }
          }
        }
      }
      l
  }

  /** `categorizeExpense`. */
  function CategorizeExpense(description: string): (l: ExpenseLabel)
    ensures l == Other || RuleMatches(l, ToLower(description))
    ensures l == Other <==> forall r :: r in KEYWORD_RULES ==> !RuleMatches(r, ToLower(description))
  {
    var l := FirstMatch(KEYWORD_RULES, ToLower(description));
    assert l == Other ==> forall r :: r in KEYWORD_RULES ==> !RuleMatches(r, ToLower(description)) by {
      if l == Other {
        forall r | r in KEYWORD_RULES ensures !RuleMatches(r, ToLower(description)) {
          var k :| 0 <= k < |KEYWORD_RULES| && KEYWORD_RULES[k] == r;
        }
      }
    }
    l
  }

  /** The rule that wins is the first rule that matches. */
  lemma {:induction false} FirstMatchIsFirst(rules: seq<ExpenseLabel>, desc: string, k: nat)
    requires k < |rules| && rules[k] != Other && RuleMatches(rules[k], desc)
    requires forall j :: 0 <= j < k ==> rules[j] == Other || !RuleMatches(rules[j], desc)
    ensures FirstMatch(rules, desc) == rules[k]
    decreases k
  {
    if k > 0 {
      FirstMatchIsFirst(rules[1..], desc, k - 1);
    }
  }

  /** Upper and lower case do not matter. */
  lemma CategorizeIgnoresCase(description: string)
    ensures CategorizeExpense(ToLower(description)) == CategorizeExpense(description)
  {
    ToLowerIdempotent(description);
  }

  /** A description matching several rules gets the label of the earliest:
      "phone software" is filed under Internet & Phone. */
  lemma EarlierRuleWins()
    ensures CategorizeExpense("phone software") == InternetPhone
  {
    var d := "phone software";
    assert ToLower(d) == d;
    assert OccursAt(d, "phone", 0);
    assert Keywords(InternetPhone)[2] == "phone";
    FirstMatchIsFirst(KEYWORD_RULES, d, 0);
  }

  // ---------------------------------------------------------------------
  // Tracking score

  /** `calculateTaxScore`: 30 points for any income entry, 20 for any
      expense entry and 20 more beyond ten, 15 each for expenses above 10%
      and above 20% of a positive income, capped at 100. */
  function CalculateTaxScore(incomeEntries: int, expenseEntries: int, totalIncome: real, totalExpenses: real): (score: int)
    ensures 0 <= score <= 100 && score % 5 == 0
    ensures score == 100 <==>
      incomeEntries > 0 && expenseEntries > 10 && totalIncome > 0.0 && totalExpenses > 0.2 * totalIncome
  {
    var s0 := if incomeEntries > 0 then 30 else 0;
    var s1 := s0 + (if expenseEntries > 0 then 20 else 0);
    var s2 := s1 + (if expenseEntries > 10 then 20 else 0);
    var ratio := if totalIncome > 0.0 then totalExpenses / totalIncome else 0.0;
    var s3 := s2 + (if totalIncome > 0.0 && ratio > 0.1 then 15 else 0);
    var s4 := s3 + (if totalIncome > 0.0 && ratio > 0.2 then 15 else 0);
    assert totalIncome > 0.0 ==> (ratio > 0.2 <==> totalExpenses > 0.2 * totalIncome) by {
      if totalIncome > 0.0 {
        RatioAbove(totalExpenses, totalIncome, 0.2);
      }
    }
    if s4 < 100 then s4 else 100
  }

  lemma RatioAbove(a: real, b: real, c: real)
    requires b > 0.0
    ensures a / b > c <==> a > c * b
  {
    if a / b > c {
      assert a == (a / b) * b;
      MultiplyStrict(c, a / b, b);
    } else {
      assert a == (a / b) * b;
      MultiplyWeak(a / b, c, b);
    }
  }

  lemma MultiplyStrict(x: real, y: real, b: real)
    requires x < y && b > 0.0
    ensures x * b < y * b
  {
  }

  lemma MultiplyWeak(x: real, y: real, b: real)
    requires x <= y && b > 0.0
    ensures x * b <= y * b
  {
  }

  /** More expense entries never lower the score. */
  lemma ScoreMonotoneInExpenseEntries(incomeEntries: int, e1: int, e2: int, totalIncome: real, totalExpenses: real)
    requires e1 <= e2
    ensures CalculateTaxScore(incomeEntries, e1, totalIncome, totalExpenses)
         <= CalculateTaxScore(incomeEntries, e2, totalIncome, totalExpenses)
  {
  }
}

=== FILE: grouping.dfy ===
/** Grouping entries by category, as the annual report does with
    `reduce`: walk the entries in order, add each to the group of its
    category if one exists (`acc.find`), or append a new group otherwise. */
module Grouping {
  import opened Common

  /** What the grouping reads from an entry. */
  datatype Item = Item(category: string, amount: real, deductible: bool)

  /** One accumulated group: `deductible` is fixed by the group's first
      entry, `deductibleAmount` sums the deductible entries only. */
  datatype Group = Group(category: string, amount: real, count: nat, deductibleAmount: real, deductible: bool)

  function ItemAmount(it: Item): real { it.amount }
  function DeductibleAmountOf(it: Item): real { if it.deductible then it.amount else 0.0 }
  function GroupAmount(g: Group): real { g.amount }
  function GroupCount(g: Group): real { g.count as real }
  function GroupDeductible(g: Group): real { g.deductibleAmount }

  /** `acc.find(item => item.category === c)`, as an index. */
  function FindGroup(acc: seq<Group>, c: string): (r: Option<nat>)
    ensures r.Some? ==> r.value < |acc| && acc[r.value].category == c
    ensures r.None? ==> forall k :: 0 <= k < |acc| ==> acc[k].category != c
    decreases |acc|
  {
    if |acc| == 0 then None
    else if acc[0].category == c then Some(0)
    else match FindGroup(acc[1..], c)
      case None => None
      case Some(k) => Some(k + 1)
  }

  /** The group with one more entry added. */
  function Updated(g: Group, it: Item): Group {
    g.(amount := g.amount + it.amount, count := g.count + 1,
       deductibleAmount := g.deductibleAmount + DeductibleAmountOf(it))
  }

  /** The group a single entry starts. */
  function NewGroup(it: Item): Group {
    Group(it.category, it.amount, 1, DeductibleAmountOf(it), it.deductible)
  }

  /** One step of the reduce: a new group only for a category not seen yet,
      and the groups of the other categories untouched. */
  function AddEntry(acc: seq<Group>, it: Item): (r: seq<Group>)
    ensures |r| == |acc| + (if FindGroup(acc, it.category).None? then 1 else 0)
    ensures exists k :: 0 <= k < |r| && r[k].category == it.category
    ensures forall k :: 0 <= k < |acc| && acc[k].category != it.category ==> r[k] == acc[k]
  {
    match FindGroup(acc, it.category)
    case Some(k) =>
      var r := acc[k := Updated(acc[k], it)];
      assert r[k].category == it.category;
      r
    case None =>
      var r := acc + [NewGroup(it)];
      assert r[|acc|].category == it.category;
      r
  }

  /** The whole reduce, a left fold over the entries. */
  function GroupByCategory(items: seq<Item>): seq<Group>
    decreases |items|
  {
    if |items| == 0 then [] else AddEntry(GroupByCategory(items[..|items| - 1]), items[|items| - 1])
  }

  // ---------------------------------------------------------------------
  // Invariants of the fold

  /** No category has two groups. */
  predicate DistinctCategories(gs: seq<Group>) {
    forall i, j :: 0 <= i < j < |gs| ==> gs[i].category != gs[j].category
  }

  /** Every group holds at least one entry and its deductible part lies
      between 0 and its amount. */
  predicate WellFormed(gs: seq<Group>) {
    forall k :: 0 <= k < |gs| ==> gs[k].count >= 1 && 0.0 <= gs[k].deductibleAmount <= gs[k].amount
  }

  predicate NonNegative(items: seq<Item>) {
    forall k :: 0 <= k < |items| ==> items[k].amount >= 0.0
  }

  /** Some entry has category `c`. */
  predicate HasCategory(items: seq<Item>, c: string) {
    exists j :: 0 <= j < |items| && items[j].category == c
  }

  /** Some group has category `c`. */
  predicate HasGroup(gs: seq<Group>, c: string) {
    exists k :: 0 <= k < |gs| && gs[k].category == c
  }

  /** The flag of the first entry of category `c`. */
  function FirstFlag(items: seq<Item>, c: string): Option<bool>
    decreases |items|
  {
    if |items| == 0 then None
    else if items[0].category == c then Some(items[0].deductible)
    else FirstFlag(items[1..], c)
  }

  lemma {:induction false} FirstFlagSnoc(items: seq<Item>, it: Item, c: string)
    ensures FirstFlag(items + [it], c)
      == if FirstFlag(items, c).Some? then FirstFlag(items, c)
         else if it.category == c then Some(it.deductible) else None
    decreases |items|
  {
    if |items| == 0 {
      assert items + [it] == [it];
      assert [it][1..] == [];
    } else {
      assert (items + [it])[1..] == items[1..] + [it];
      FirstFlagSnoc(items[1..], it, c);
    }
  }

  lemma FirstFlagNoneIffAbsent(items: seq<Item>, c: string)
    ensures FirstFlag(items, c).None? <==> !HasCategory(items, c)
    decreases |items|
  {
    if |items| > 0 {
      FirstFlagNoneIffAbsent(items[1..], c);
      if HasCategory(items, c) && items[0].category != c {
        var j :| 0 <= j < |items| && items[j].category == c;
        assert items[1..][j - 1].category == c;
      }
      if HasCategory(items[1..], c) {
        var j :| 0 <= j < |items[1..]| && items[1..][j].category == c;
        assert items[j + 1].category == c;
      }
    }
  }

  /** The flags of the groups are those of each category's first entry. */
  predicate FlagsOfFirst(gs: seq<Group>, items: seq<Item>) {
    forall k :: 0 <= k < |gs| ==> FirstFlag(items, gs[k].category) == Some(gs[k].deductible)
  }

  /** The entries of category `c`, in their order. */
  function InCategory(items: seq<Item>, c: string): (r: seq<Item>)
    ensures forall x :: x in r <==> x in items && x.category == c
    decreases |items|
  {
    if |items| == 0 then []
    else (if items[0].category == c then [items[0]] else []) + InCategory(items[1..], c)
  }

  /** Filtering by category extends entry by entry. */
  lemma {:induction false} InCategorySnoc(items: seq<Item>, it: Item, c: string)
    ensures InCategory(items + [it], c) == InCategory(items, c) + (if it.category == c then [it] else [])
    decreases |items|
  {
    if |items| == 0 {
      assert items + [it] == [it];
      assert [it][1..] == [];
    } else {
      assert (items + [it])[0] == items[0];
      assert (items + [it])[1..] == items[1..] + [it];
      InCategorySnoc(items[1..], it, c);
    }
  }

  /** The group's amount, count and deductible amount are those of the
      entries of its category. */
  predicate GroupSums(g: Group, items: seq<Item>) {
    && g.amount == SumOf(InCategory(items, g.category), ItemAmount)
    && g.count == |InCategory(items, g.category)|
    && g.deductibleAmount == SumOf(InCategory(items, g.category), DeductibleAmountOf)
  }

  /** Each group's amount, count and deductible amount are those of the
      entries of its own category. */
  predicate CategorySums(gs: seq<Group>, items: seq<Item>) {
    forall k :: 0 <= k < |gs| ==> GroupSums(gs[k], items)
  }

  /** All the invariants the fold keeps, with the entries seen so far. */
  ghost predicate Summarises(gs: seq<Group>, items: seq<Item>) {
    && DistinctCategories(gs)
    && SumOf(gs, GroupAmount) == SumOf(items, ItemAmount)
    && SumOf(gs, GroupCount) == |items| as real
    && SumOf(gs, GroupDeductible) == SumOf(items, DeductibleAmountOf)
    && (forall c :: HasGroup(gs, c) <==> HasCategory(items, c))
    && FlagsOfFirst(gs, items)
    && CategorySums(gs, items)
    && (NonNegative(items) ==> WellFormed(gs))
  }

  lemma HasCategorySnoc(items: seq<Item>, it: Item, c: string)
    ensures HasCategory(items + [it], c) <==> HasCategory(items, c) || it.category == c
  {
    var all := items + [it];
    if HasCategory(items, c) {
      var j :| 0 <= j < |items| && items[j].category == c;
      assert all[j].category == c;
    }
    if it.category == c {
      assert all[|items|].category == c;
    }
    if HasCategory(all, c) {
      var j :| 0 <= j < |all| && all[j].category == c;
      if j < |items| {
        assert items[j].category == c;
      }
    }
  }

  /** Filtering by another category ignores the new entry. */
  lemma InCategoryOther(items: seq<Item>, it: Item, c: string)
    requires it.category != c
    ensures InCategory(items + [it], c) == InCategory(items, c)
  {
    InCategorySnoc(items, it, c);
    assert InCategory(items, c) + [] == InCategory(items, c);
  }

  /** Adding an entry to its group keeps the group's sums. */
  lemma UpdatedSums(g: Group, items: seq<Item>, it: Item)
    requires g.category == it.category && GroupSums(g, items)
    ensures GroupSums(Updated(g, it), items + [it])
  {
    var before := InCategory(items, g.category);
    InCategorySnoc(items, it, g.category);
    assert InCategory(items + [it], g.category) == before + [it];
    SumOfSnoc(before, it, ItemAmount);
    SumOfSnoc(before, it, DeductibleAmountOf);
  }

  /** A category no entry has selects nothing. */
  lemma {:induction false} InCategoryAbsent(items: seq<Item>, c: string)
    requires !HasCategory(items, c)
    ensures InCategory(items, c) == []
    decreases |items|
  {
    if |items| > 0 {
      assert items[0].category != c;
      InCategoryAbsent(items[1..], c);
    }
  }

  /** A category without entries gets a group of the new entry alone. */
  lemma NewGroupSums(items: seq<Item>, it: Item)
    requires !HasCategory(items, it.category)
    ensures GroupSums(NewGroup(it), items + [it])
  {
    var c := it.category;
    InCategoryAbsent(items, c);
    InCategorySnoc(items, it, c);
    assert InCategory(items + [it], c) == [it];
    SumOfSnoc([], it, ItemAmount);
    SumOfSnoc([], it, DeductibleAmountOf);
    assert [] + [it] == [it];
  }

  /** The update case keeps each group's category sums. */
  lemma CategorySumsExisting(gs: seq<Group>, items: seq<Item>, it: Item, k: nat)
    requires DistinctCategories(gs) && CategorySums(gs, items)
    requires k < |gs| && gs[k].category == it.category
    ensures CategorySums(gs[k := Updated(gs[k], it)], items + [it])
  {
    var r := gs[k := Updated(gs[k], it)];
    forall i | 0 <= i < |r| ensures GroupSums(r[i], items + [it]) {
      if i == k {
        UpdatedSums(gs[k], items, it);
      } else {
        assert gs[i].category != it.category;
        InCategoryOther(items, it, gs[i].category);
        assert r[i] == gs[i] && GroupSums(gs[i], items);
      }
    }
  }

  /** The append case keeps each group's category sums. */
  lemma CategorySumsNew(gs: seq<Group>, items: seq<Item>, it: Item)
    requires CategorySums(gs, items) && !HasCategory(items, it.category)
    requires forall k :: 0 <= k < |gs| ==> gs[k].category != it.category
    ensures CategorySums(gs + [NewGroup(it)], items + [it])
  {
    var r := gs + [NewGroup(it)];
    forall i | 0 <= i < |r| ensures GroupSums(r[i], items + [it]) {
      if i == |gs| {
        NewGroupSums(items, it);
      } else {
        InCategoryOther(items, it, gs[i].category);
        assert r[i] == gs[i] && GroupSums(gs[i], items);
      }
    }
  }

  /** The update case keeps the three totals. */
  lemma TotalsExisting(gs: seq<Group>, items: seq<Item>, it: Item, k: nat)
    requires k < |gs|
    requires SumOf(gs, GroupAmount) == SumOf(items, ItemAmount)
    requires SumOf(gs, GroupCount) == |items| as real
    requires SumOf(gs, GroupDeductible) == SumOf(items, DeductibleAmountOf)
    ensures SumOf(gs[k := Updated(gs[k], it)], GroupAmount) == SumOf(items + [it], ItemAmount)
    ensures SumOf(gs[k := Updated(gs[k], it)], GroupCount) == |items + [it]| as real
    ensures SumOf(gs[k := Updated(gs[k], it)], GroupDeductible) == SumOf(items + [it], DeductibleAmountOf)
  {
    var ng := Updated(gs[k], it);
    SumOfUpdate(gs, k, ng, GroupAmount);
    SumOfUpdate(gs, k, ng, GroupCount);
    SumOfUpdate(gs, k, ng, GroupDeductible);
    SumOfSnoc(items, it, ItemAmount);
    SumOfSnoc(items, it, DeductibleAmountOf);
  }

  /** The append case keeps the three totals. */
  lemma TotalsNew(gs: seq<Group>, items: seq<Item>, it: Item)
    requires SumOf(gs, GroupAmount) == SumOf(items, ItemAmount)
    requires SumOf(gs, GroupCount) == |items| as real
    requires SumOf(gs, GroupDeductible) == SumOf(items, DeductibleAmountOf)
    ensures SumOf(gs + [NewGroup(it)], GroupAmount) == SumOf(items + [it], ItemAmount)
    ensures SumOf(gs + [NewGroup(it)], GroupCount) == |items + [it]| as real
    ensures SumOf(gs + [NewGroup(it)], GroupDeductible) == SumOf(items + [it], DeductibleAmountOf)
  {
    SumOfSnoc(gs, NewGroup(it), GroupAmount);
    SumOfSnoc(gs, NewGroup(it), GroupCount);
    SumOfSnoc(gs, NewGroup(it), GroupDeductible);
    SumOfSnoc(items, it, ItemAmount);
    SumOfSnoc(items, it, DeductibleAmountOf);
  }

  /** Non-negative entries stay non-negative without the last one. */
  lemma NonNegativeInit(items: seq<Item>, it: Item)
    requires NonNegative(items + [it])
    ensures NonNegative(items) && it.amount >= 0.0
  {
    var all := items + [it];
    assert it == all[|items|];
    forall j | 0 <= j < |items| ensures items[j].amount >= 0.0 {
      assert items[j] == all[j];
    }
  }

  /** The update case keeps the set of categories with a group. */
  lemma CategoriesExisting(gs: seq<Group>, items: seq<Item>, it: Item, k: nat)
    requires k < |gs| && gs[k].category == it.category
    requires forall c :: HasGroup(gs, c) <==> HasCategory(items, c)
    ensures forall c :: HasGroup(gs[k := Updated(gs[k], it)], c) <==> HasCategory(items + [it], c)
  {
    var r := gs[k := Updated(gs[k], it)];
    forall c ensures HasGroup(r, c) <==> HasCategory(items + [it], c) {
      HasCategorySnoc(items, it, c);
      if HasGroup(r, c) {
        var i :| 0 <= i < |r| && r[i].category == c;
        assert gs[i].category == c;
      }
      if HasGroup(gs, c) {
        var i :| 0 <= i < |gs| && gs[i].category == c;
        assert r[i].category == c;
      }
    }
  }

  /** The update case keeps each group's first-entry flag. */
  lemma FlagsExisting(gs: seq<Group>, items: seq<Item>, it: Item, k: nat)
    requires k < |gs| && FlagsOfFirst(gs, items)
    ensures FlagsOfFirst(gs[k := Updated(gs[k], it)], items + [it])
  {
    var r := gs[k := Updated(gs[k], it)];
    forall i | 0 <= i < |r| ensures FirstFlag(items + [it], r[i].category) == Some(r[i].deductible) {
      FirstFlagSnoc(items, it, r[i].category);
    }
  }

  /** The append case adds exactly the new category. */
  lemma CategoriesNew(gs: seq<Group>, items: seq<Item>, it: Item)
    requires forall c :: HasGroup(gs, c) <==> HasCategory(items, c)
    ensures forall c :: HasGroup(gs + [NewGroup(it)], c) <==> HasCategory(items + [it], c)
  {
    var r := gs + [NewGroup(it)];
    forall c ensures HasGroup(r, c) <==> HasCategory(items + [it], c) {
      HasCategorySnoc(items, it, c);
      if HasGroup(r, c) {
        var i :| 0 <= i < |r| && r[i].category == c;
        if i < |gs| {
          assert gs[i].category == c;
        }
      }
      if HasGroup(gs, c) {
        var i :| 0 <= i < |gs| && gs[i].category == c;
        assert r[i].category == c;
      }
      if it.category == c {
        assert r[|gs|].category == c;
      }
    }
  }

  /** The append case flags the new group like its entry, the first of its
      category. */
  lemma FlagsNew(gs: seq<Group>, items: seq<Item>, it: Item)
    requires FlagsOfFirst(gs, items) && !HasCategory(items, it.category)
    ensures FlagsOfFirst(gs + [NewGroup(it)], items + [it])
  {
    var r := gs + [NewGroup(it)];
    FirstFlagNoneIffAbsent(items, it.category);
    forall i | 0 <= i < |r| ensures FirstFlag(items + [it], r[i].category) == Some(r[i].deductible) {
      FirstFlagSnoc(items, it, r[i].category);
    }
  }

  /** The update case keeps the categories distinct and the groups well
      formed. */
  lemma ShapeExisting(gs: seq<Group>, items: seq<Item>, it: Item, k: nat)
    requires k < |gs| && DistinctCategories(gs)
    requires NonNegative(items) ==> WellFormed(gs)
    ensures DistinctCategories(gs[k := Updated(gs[k], it)])
    ensures NonNegative(items + [it]) ==> WellFormed(gs[k := Updated(gs[k], it)])
  {
    var r := gs[k := Updated(gs[k], it)];
    assert forall i :: 0 <= i < |r| ==> r[i].category == gs[i].category;
    if NonNegative(items + [it]) {
      NonNegativeInit(items, it);
    }
  }

  /** The append case keeps the categories distinct and the groups well
      formed. */
  lemma ShapeNew(gs: seq<Group>, items: seq<Item>, it: Item)
    requires DistinctCategories(gs) && forall k :: 0 <= k < |gs| ==> gs[k].category != it.category
    requires NonNegative(items) ==> WellFormed(gs)
    ensures DistinctCategories(gs + [NewGroup(it)])
    ensures NonNegative(items + [it]) ==> WellFormed(gs + [NewGroup(it)])
  {
    if NonNegative(items + [it]) {
      NonNegativeInit(items, it);
    }
  }

  /** Adding an entry to a group that already exists. */
  lemma AddToExisting(gs: seq<Group>, items: seq<Item>, it: Item, k: nat)
    requires Summarises(gs, items)
    requires k < |gs| && gs[k].category == it.category
    ensures Summarises(AddEntry(gs, it), items + [it])
  {
    var k' := FindGroup(gs, it.category).value;
    assert k' == k;
    var r := gs[k := Updated(gs[k], it)];
    assert AddEntry(gs, it) == r;
    var all := items + [it];
    TotalsExisting(gs, items, it, k);
    CategorySumsExisting(gs, items, it, k);
    CategoriesExisting(gs, items, it, k);
    FlagsExisting(gs, items, it, k);
    ShapeExisting(gs, items, it, k);
  }

  /** Adding an entry whose category has no group yet. */
  lemma AddNew(gs: seq<Group>, items: seq<Item>, it: Item)
    requires Summarises(gs, items)
    requires forall k :: 0 <= k < |gs| ==> gs[k].category != it.category
    ensures Summarises(AddEntry(gs, it), items + [it])
  {
    var r := gs + [NewGroup(it)];
    assert AddEntry(gs, it) == r;
    var all := items + [it];
    assert !HasGroup(gs, it.category);
    TotalsNew(gs, items, it);
    CategorySumsNew(gs, items, it);
    CategoriesNew(gs, items, it);
    FlagsNew(gs, items, it);
    ShapeNew(gs, items, it);
  }

  /** The grouping keeps every invariant: one group per category that
      occurs, each holding the amount, count and deductible part of the
      entries of its own category, those adding up to the entries' totals,
      each group flagged like its first entry, and deductible parts within
      the group amounts. */
  lemma {:induction false} GroupByCategorySummarises(items: seq<Item>)
    ensures Summarises(GroupByCategory(items), items)
    decreases |items|
  {
    if |items| > 0 {
      var init := items[..|items| - 1];
      var it := items[|items| - 1];
      assert items == init + [it];
      GroupByCategorySummarises(init);
      var gs := GroupByCategory(init);
      match FindGroup(gs, it.category)
      case Some(k) => AddToExisting(gs, init, it, k);
      case None => AddNew(gs, init, it);
    } else {
      forall c ensures !HasCategory(items, c) {
      }
    }
  }

  /** The group amounts add up to the amounts of the entries. */
  lemma GroupAmountsAddUp(items: seq<Item>)
    ensures SumOf(GroupByCategory(items), GroupAmount) == SumOf(items, ItemAmount)
  {
    GroupByCategorySummarises(items);
  }
}

=== FILE: income_page.dfy ===
/** The income page's form logic: which fields `validateForm` flags, the
    payload `handleSubmit` sends, the form `handleEdit` fills from a stored
    entry, and the category label formatter. A parsed amount is given as
    an `Option<real>`, `None` standing for `NaN`. */
module IncomePage {
  import opened Common

  datatype IncomeForm = IncomeForm(
    source: string,
    description: string,
    amount: string,
    category: string,
    platform: string,
    date: string)

  datatype AmountError = AmountRequired | AmountNotNumber

  /** The error object, one optional entry per field; `platform` never gets
      one. */
  datatype FormErrors = FormErrors(
    source: bool,
    description: bool,
    amount: Option<AmountError>,
    category: bool,
    date: bool)

  function AmountErrorText(e: AmountError): string {
    match e
    case AmountRequired => "Valid amount is required"
    case AmountNotNumber => "Amount must be a valid number"
  }

  /** The amount's entry: first the required/positive check, then the
      `NaN` check that overwrites it when the text is present. */
  function AmountCheck(amount: string, parsed: Option<real>): (e: Option<AmountError>)
    ensures e.None? <==> amount != "" && parsed.Some? && parsed.value > 0.0
    ensures e == Some(AmountNotNumber) <==> amount != "" && parsed.None?
  {
    var required := if amount == "" || (parsed.Some? && parsed.value <= 0.0) then Some(AmountRequired) else None;
    if amount != "" && parsed.None? then Some(AmountNotNumber) else required
  }

  /** `validateForm`: the errors it records. */
  function ValidateForm(f: IncomeForm, parsedAmount: Option<real>): (errs: FormErrors)
    ensures errs.source <==> forall i :: 0 <= i < |f.source| ==> IsSpace(f.source[i])
    ensures errs.description <==> forall i :: 0 <= i < |f.description| ==> IsSpace(f.description[i])
    ensures errs.amount.None? <==> f.amount != "" && parsedAmount.Some? && parsedAmount.value > 0.0
    ensures errs.category <==> f.category == ""
    ensures errs.date <==> f.date == ""
  {
    TrimEmptyIffBlank(f.source);
    TrimEmptyIffBlank(f.description);
    FormErrors(Trim(f.source) == "", Trim(f.description) == "",
               AmountCheck(f.amount, parsedAmount), f.category == "", f.date == "")
  }

  /** The error object has no keys. */
  predicate NoErrors(errs: FormErrors) {
    !errs.source && !errs.description && errs.amount.None? && !errs.category && !errs.date
  }

  /** The form passes exactly when source and description hold a visible
      character, the amount parses to a positive number, and category and
      date are filled in; the platform plays no part. */
  lemma ValidateFormMeaning(f: IncomeForm, parsedAmount: Option<real>)
    ensures NoErrors(ValidateForm(f, parsedAmount)) <==>
      (exists i :: 0 <= i < |f.source| && !IsSpace(f.source[i]))
      && (exists i :: 0 <= i < |f.description| && !IsSpace(f.description[i]))
      && parsedAmount.Some? && parsedAmount.value > 0.0 && f.amount != ""
      && f.category != "" && f.date != ""
    ensures forall p :: ValidateForm(f.(platform := p), parsedAmount) == ValidateForm(f, parsedAmount)
  {
  }

  /** What the page sends to create or update an entry; an empty platform
      is left out. */
  datatype IncomePayload = IncomePayload(
    source: string,
    description: string,
    amount: real,
    category: string,
    platform: Option<string>,
    date: string)

  /** Whether a submit calls the API, and with what. */
  datatype Submit = Blocked(errors: FormErrors) | Send(payload: IncomePayload)

  /** `handleSubmit`: validation first, then the trimmed payload. */
  function HandleSubmit(f: IncomeForm, parsedAmount: Option<real>): (s: Submit)
    ensures s.Send? <==> NoErrors(ValidateForm(f, parsedAmount))
    ensures s.Blocked? ==> s.errors == ValidateForm(f, parsedAmount)
    ensures s.Send? ==>
      && s.payload.source == Trim(f.source) && s.payload.source != ""
      && s.payload.description == Trim(f.description) && s.payload.description != ""
      && parsedAmount == Some(s.payload.amount) && s.payload.amount > 0.0
      && s.payload.category == f.category && s.payload.date == f.date
      && (s.payload.platform.None? <==> f.platform == "")
      && (f.platform != "" ==> s.payload.platform == Some(f.platform))
  {
    var errs := ValidateForm(f, parsedAmount);
    if !NoErrors(errs) then Blocked(errs)
    else Send(IncomePayload(Trim(f.source), Trim(f.description), parsedAmount.value, f.category,
                            if f.platform == "" then None else Some(f.platform), f.date))
  }

  /** The calendar-date part of a serialised date, `date.split('T')[0]`. */
  function EditDate(serialised: string): (d: string)
    ensures 'T' !in d
    ensures |d| <= |serialised| && serialised[..|d|] == d
    ensures |d| < |serialised| ==> serialised[|d|] == 'T'
  {
    SplitHead(serialised, 'T');
    Split(serialised, 'T')[0]
  }

  /** An ISO timestamp `day + "T" + time` gives back its day. */
  lemma EditDateOfTimestamp(day: string, time: string)
    requires 'T' !in day
    ensures EditDate(day + "T" + time) == day
  {
    var s := day + "T" + time;
    assert s[|day|] == 'T';
    assert s[..|day|] == day;
  }

  /** Taking the date part twice changes nothing. */
  lemma EditDateIdempotent(serialised: string)
    ensures EditDate(EditDate(serialised)) == EditDate(serialised)
  {
    var d := EditDate(serialised);
    SplitHead(d, 'T');
  }

  /** `handleEdit`: the form filled from a stored entry; the amount's text
      (`toString`) is given. */
  function EditForm(source: string, description: string, amountText: string, category: string,
                    platform: Option<string>, serialisedDate: string): (f: IncomeForm)
    ensures f.platform == "" <==> platform.None? || platform == Some("")
    ensures platform.Some? ==> f.platform == platform.value
    ensures f.date == EditDate(serialisedDate)
    ensures f.source == source && f.description == description && f.amount == amountText && f.category == category
  {
    IncomeForm(source, description, amountText, category,
               if platform.Some? then platform.value else "", EditDate(serialisedDate))
  }

  /** Editing and saving an entry without touching the form sends back its
      non-empty platform, or none, and its date. */
  lemma EditThenSubmitKeepsEntry(source: string, description: string, amountText: string, amount: real,
                                 category: string, platform: Option<string>, day: string, time: string)
    requires platform != Some("")
    requires 'T' !in day
    requires NoErrors(ValidateForm(EditForm(source, description, amountText, category, platform, day + "T" + time), Some(amount)))
    ensures var s := HandleSubmit(EditForm(source, description, amountText, category, platform, day + "T" + time), Some(amount));
      s.Send? && s.payload.platform == platform && s.payload.date == day && s.payload.amount == amount
      && s.payload.category == category
  {
    EditDateOfTimestamp(day, time);
  }

  // ---------------------------------------------------------------------
  // Category labels

  /** `word.charAt(0).toUpperCase() + word.slice(1)`. */
  function Capitalize(w: string): (c: string)
    ensures |c| == |w|
    ensures |w| > 0 ==> c[0] == ToUpperChar(w[0]) && c[1..] == w[1..]
  {
    if |w| == 0 then "" else [ToUpperChar(w[0])] + w[1..]
  }

  function CapitalizeAll(words: seq<string>): (cs: seq<string>)
    ensures |cs| == |words|
    ensures forall k :: 0 <= k < |words| ==> cs[k] == Capitalize(words[k])
  {
    if |words| == 0 then [] else [Capitalize(words[0])] + CapitalizeAll(words[1..])
  }

  /** `formatCategoryName`: split on '-', capitalise each word, join with
      ' '. */
  function FormatCategoryName(category: string): string {
    Join(CapitalizeAll(Split(category, '-')), ' ')
  }

  /** The label character by character: each '-' becomes a space, the
      first character and every character after a '-' are upper-cased, the
      rest are kept. */
  function LabelChar(category: string, i: nat): char
    requires i < |category|
  {
    if category[i] == '-' then ' '
    else if i == 0 || category[i - 1] == '-' then ToUpperChar(category[i])
    else category[i]
  }

  function Labelled(category: string): (l: string)
    ensures |l| == |category|
    ensures forall i :: 0 <= i < |category| ==> l[i] == LabelChar(category, i)
  {
    seq(|category|, i requires 0 <= i < |category| => LabelChar(category, i))
  }

  /** A word without '-' is labelled by capitalising it. */
  lemma LabelledWord(w: string)
    requires '-' !in w
    ensures Labelled(w) == Capitalize(w)
  {
  }

  /** The label of `word + "-" + rest` is the word's label, a space, and the
      label of the rest. */
  lemma LabelledSplitsAtHyphen(s: string, i: nat)
    requires i < |s| && s[i] == '-' && '-' !in s[..i]
    ensures Labelled(s) == Capitalize(s[..i]) + " " + Labelled(s[i + 1..])
  {
    var rest := s[i + 1..];
    var rhs := Capitalize(s[..i]) + " " + Labelled(rest);
    assert |rhs| == |s|;
    forall j | 0 <= j < |s|
      ensures Labelled(s)[j] == rhs[j]
    {
      if j < i {
        assert s[j] == s[..i][j];
        if j > 0 {
          assert s[j - 1] == s[..i][j - 1];
        }
      } else if j > i {
        assert s[j] == rest[j - i - 1];
        if j > i + 1 {
          assert s[j - 1] == rest[j - i - 2];
        }
      }
    }
  }

  /** The formatter agrees with the character-by-character description. */
  lemma {:induction false} FormatCategoryNameIsLabelled(category: string)
    ensures FormatCategoryName(category) == Labelled(category)
    decreases |category|
  {
    match IndexOf(category, '-')
    case None =>
      LabelledWord(category);
    case Some(i) =>
      var rest := category[i + 1..];
      var words := Split(rest, '-');
      assert Split(category, '-') == [category[..i]] + words;
      var caps := CapitalizeAll([category[..i]] + words);
      assert caps == [Capitalize(category[..i])] + CapitalizeAll(words);
      assert caps[1..] == CapitalizeAll(words);
      assert Join(caps, ' ') == Capitalize(category[..i]) + [' '] + Join(CapitalizeAll(words), ' ');
      FormatCategoryNameIsLabelled(rest);
      LabelledSplitsAtHyphen(category, i);
  }

  /** The label has the category's length and no '-', and formatting a
      label again leaves it as it is. */
  lemma FormatCategoryNameProperties(category: string)
    ensures |FormatCategoryName(category)| == |category|
    ensures '-' !in FormatCategoryName(category)
    ensures FormatCategoryName(FormatCategoryName(category)) == FormatCategoryName(category)
  {
    var l := FormatCategoryName(category);
    FormatCategoryNameIsLabelled(category);
    assert forall i :: 0 <= i < |l| ==> l[i] != '-';
    FormatCategoryNameIsLabelled(l);
    var ll := Labelled(l);
    forall i | 0 <= i < |l|
      ensures ll[i] == l[i]
    {
      if i == 0 {
        assert ToUpperChar(l[0]) == l[0];
      }
    }
  }

  /** A concrete label: "bank-transfer" reads "Bank Transfer". */
  lemma BankTransferLabel()
    ensures FormatCategoryName("bank-transfer") == "Bank Transfer"
  {
    FormatCategoryNameIsLabelled("bank-transfer");
    LabelledBankTransfer();
  }

  lemma LabelledBankTransfer()
    ensures Labelled("bank-transfer") == "Bank Transfer"
  {
    var c := "bank-transfer";
    assert ToUpperChar('b') == 'B' && ToUpperChar('t') == 'T';
    assert LabelChar(c, 0) == 'B';
    assert LabelChar(c, 4) == ' ';
    assert LabelChar(c, 5) == 'T';
    forall i | 0 <= i < |c| && i != 0 && i != 4 && i != 5
      ensures LabelChar(c, i) == c[i]
    {
    }
  }
}

=== FILE: list_query.dfy ===
/** The two list handlers (income and expense entries): the filter built
    from the query parameters, the sort specification, the pagination
    arithmetic and the summary sums. A stored record is paired with the id
    of its owner; the order in which the database returns the matching
    records for a sort specification is given as a function. */
module ListQuery {
  import opened Common
  import opened Records

  /** A stored record and the user it belongs to. */
  datatype Stored<T> = Stored(userId: string, record: T)

  /** A query-string value is truthy when present and not empty. */
  function Given(o: Option<string>): Option<string> {
    if o.Some? && o.value != "" then o else None
  }

  /** Case-insensitive substring match, the `$regex` with option `i` for a
      search text without pattern characters. */
  predicate MatchesText(field: string, search: string) {
    Contains(ToLower(field), ToLower(search))
  }

  predicate InRange(d: Date, from: Option<Date>, to: Option<Date>) {
    (from.Some? ==> !Before(d, from.value)) && (to.Some? ==> !Before(to.value, d))
  }

  // ---------------------------------------------------------------------
  // Sort and pagination

  /** `sort[sortBy] = sortOrder === 'asc' ? 1 : -1`. */
  datatype SortSpec = SortSpec(field: string, ascending: bool)

  function SortOf(sortBy: Option<string>, sortOrder: Option<string>): (s: SortSpec)
    ensures s.ascending <==> sortOrder == Some("asc")
    ensures sortBy.None? ==> s.field == "date"
    ensures sortBy.Some? ==> s.field == sortBy.value
  {
    SortSpec(if sortBy.Some? then sortBy.value else "date",
             (if sortOrder.Some? then sortOrder.value else "desc") == "asc")
  }

  function PageNumber(page: Option<int>): int { if page.Some? then page.value else 1 }
  function PageSize(limit: Option<int>): int { if limit.Some? then limit.value else 20 }

  /** The route schema accepts a page of at least 1 and a limit from 1 to
      100. */
  predicate PagingValid(page: Option<int>, limit: Option<int>) {
    (page.Some? ==> page.value >= 1) && (limit.Some? ==> 1 <= limit.value <= 100)
  }

  /** `(page - 1) * limit`. */
  function Skip(page: int, limit: int): (s: int)
    requires page >= 1 && limit >= 1
    ensures s >= 0 && s + limit == page * limit
  {
    (page - 1) * limit
  }

  /** `Math.ceil(total / limit)`. */
  function Pages(total: nat, limit: int): (p: nat)
    requires limit >= 1
    ensures p * limit >= total
    ensures p == 0 || (p - 1) * limit < total
  {
    (total + limit - 1) / limit
  }

  /** Every page from the first to the last starts at a record that exists. */
  lemma SkipWithinTotal(total: nat, page: int, limit: int)
    requires limit >= 1 && 1 <= page <= Pages(total, limit)
    ensures Skip(page, limit) < total
  {
    var p := Pages(total, limit);
    assert (page - 1) * limit <= (p - 1) * limit by {
      MultiplyMonotone(page - 1, p - 1, limit);
    }
  }

  lemma MultiplyMonotone(a: int, b: int, c: int)
    requires 0 <= a <= b && c >= 0
    ensures a * c <= b * c
  {
  }

  /** `.skip(skip).limit(limit)` over the ordered matches. */
  function PageOf<T>(xs: seq<T>, skip: int, limit: int): (r: seq<T>)
    requires skip >= 0 && limit >= 1
    ensures |r| <= limit
    ensures forall x :: x in r ==> x in xs
    ensures skip + limit <= |xs| ==> r == xs[skip..skip + limit]
    ensures skip >= |xs| ==> r == []
  {
    if skip >= |xs| then [] else if skip + limit <= |xs| then xs[skip..skip + limit] else xs[skip..]
  }

  /** The first `n` pages, one after the other. */
  function FirstPages<T>(xs: seq<T>, n: nat, limit: int): seq<T>
    requires limit >= 1
  {
    if n == 0 then [] else FirstPages(xs, n - 1, limit) + PageOf(xs, Skip(n, limit), limit)
  }

  lemma {:induction false} FirstPagesArePrefix<T>(xs: seq<T>, n: nat, limit: int)
    requires limit >= 1
    ensures FirstPages(xs, n, limit) == xs[..if n * limit < |xs| then n * limit else |xs|]
  {
    if n > 0 {
      FirstPagesArePrefix(xs, n - 1, limit);
      var s := Skip(n, limit);
      var lo := if s < |xs| then s else |xs|;
      var hi := if n * limit < |xs| then n * limit else |xs|;
      assert (n - 1) * limit == s;
      assert xs[..hi] == xs[..lo] + xs[lo..hi];
    }
  }

  /** Reading every page from 1 to `pages` returns each match exactly once,
      in order. */
  lemma PagesCoverMatches<T>(xs: seq<T>, limit: int)
    requires limit >= 1
    ensures FirstPages(xs, Pages(|xs|, limit), limit) == xs
  {
    FirstPagesArePrefix(xs, Pages(|xs|, limit), limit);
  }

  datatype Pagination = Pagination(page: int, limit: int, total: nat, pages: nat)

  function PaginationOf(page: int, limit: int, total: nat): (p: Pagination)
    requires limit >= 1
    ensures p.total == total && p.page == page && p.limit == limit
    ensures p.pages * limit >= total && (p.pages == 0 || (p.pages - 1) * limit < total)
  {
    Pagination(page, limit, total, Pages(total, limit))
  }

  /** The database returns the matches in some order and never adds or
      drops one. */
  ghost predicate Permutes<T(!new)>(order: (SortSpec, seq<T>) -> seq<T>) {
    forall sort, xs :: multiset(order(sort, xs)) == multiset(xs)
  }

  /** Storage order is one such arrangement, so the requirement can be met. */
  lemma StorageOrderPermutes<T(!new)>()
    ensures Permutes((sort: SortSpec, xs: seq<T>) => xs)
  {
  }

  // ---------------------------------------------------------------------
  // Expense list

  datatype ExpenseParams = ExpenseParams(
    page: Option<int>,
    limit: Option<int>,
    category: Option<string>,
    search: Option<string>,
    startDate: Option<Date>,
    endDate: Option<Date>,
    isDeductible: Option<string>,
    sortBy: Option<string>,
    sortOrder: Option<string>)

  /** The database filter of the expense list. */
  datatype ExpenseQuery = ExpenseQuery(
    userId: string,
    category: Option<string>,
    search: Option<string>,
    from: Option<Date>,
    to: Option<Date>,
    isDeductible: Option<bool>)

  function ExpenseQueryOf(userId: string, p: ExpenseParams): (q: ExpenseQuery)
    ensures q.userId == userId
    ensures q.isDeductible.Some? <==> p.isDeductible.Some?
    ensures q.isDeductible.Some? ==> (q.isDeductible.value <==> p.isDeductible.value == "true")
  {
    ExpenseQuery(userId, Given(p.category), Given(p.search), p.startDate, p.endDate,
                 if p.isDeductible.Some? then Some(p.isDeductible.value == "true") else None)
  }

  /** A stored expense satisfies the filter. */
  predicate ExpenseMatches(q: ExpenseQuery, s: Stored<Expense>) {
    var e := s.record;
    && s.userId == q.userId
    && (q.category.Some? ==> e.category == q.category.value)
    && (q.search.Some? ==>
          MatchesText(e.description, q.search.value)
          || (e.vendor.Some? && MatchesText(e.vendor.value, q.search.value)))
    && InRange(e.date, q.from, q.to)
    && (q.isDeductible.Some? ==> e.isDeductible == q.isDeductible.value)
  }

  /** The filter always restricts to the caller's records and adds each
      other condition only when its parameter was given (a text parameter
      only when it is not empty). */
  lemma ExpenseQueryMeaning(userId: string, p: ExpenseParams, s: Stored<Expense>)
    ensures ExpenseMatches(ExpenseQueryOf(userId, p), s) <==>
      && s.userId == userId
      && (p.category.Some? && p.category.value != "" ==> s.record.category == p.category.value)
      && (p.search.Some? && p.search.value != "" ==>
            MatchesText(s.record.description, p.search.value)
            || (s.record.vendor.Some? && MatchesText(s.record.vendor.value, p.search.value)))
      && (p.startDate.Some? ==> !Before(s.record.date, p.startDate.value))
      && (p.endDate.Some? ==> !Before(p.endDate.value, s.record.date))
      && (p.isDeductible.Some? ==> (s.record.isDeductible <==> p.isDeductible.value == "true"))
  {
  }

  /** The matches, in storage order. */
  function ExpenseMatching(q: ExpenseQuery, stored: seq<Stored<Expense>>): (r: seq<Expense>)
    ensures |r| <= |stored|
    ensures forall e :: e in r <==> exists k :: 0 <= k < |stored| && ExpenseMatches(q, stored[k]) && stored[k].record == e
    decreases |stored|
  {
    if |stored| == 0 then []
    else
      var rest := ExpenseMatching(q, stored[1..]);
      assert forall e :: e in rest <==> exists k :: 1 <= k < |stored| && ExpenseMatches(q, stored[k]) && stored[k].record == e by {
        forall e ensures e in rest <==> exists k :: 1 <= k < |stored| && ExpenseMatches(q, stored[k]) && stored[k].record == e {
          if e in rest {
            var k :| 0 <= k < |stored[1..]| && ExpenseMatches(q, stored[1..][k]) && stored[1..][k].record == e;
            assert stored[k + 1] == stored[1..][k];
          }
          if exists k :: 1 <= k < |stored| && ExpenseMatches(q, stored[k]) && stored[k].record == e {
            var k :| 1 <= k < |stored| && ExpenseMatches(q, stored[k]) && stored[k].record == e;
            assert stored[1..][k - 1] == stored[k];
          }
        }
      }
      (if ExpenseMatches(q, stored[0]) then [stored[0].record] else []) + rest
  }

  /** A record stored after the others is matched after them, once, when
      the filter accepts it, so the matches are the accepted records with
      their multiplicity and in storage order. */
  lemma {:induction false} ExpenseMatchingSnoc(q: ExpenseQuery, stored: seq<Stored<Expense>>, x: Stored<Expense>)
    ensures ExpenseMatching(q, stored + [x])
      == ExpenseMatching(q, stored) + (if ExpenseMatches(q, x) then [x.record] else [])
    ensures ExpenseTotal(ExpenseMatching(q, stored + [x]))
      == ExpenseTotal(ExpenseMatching(q, stored)) + (if ExpenseMatches(q, x) then x.record.amount else 0.0)
    decreases |stored|
  {
    if |stored| == 0 {
      assert stored + [x] == [x];
    } else {
      assert (stored + [x])[1..] == stored[1..] + [x];
      ExpenseMatchingSnoc(q, stored[1..], x);
    }
    ExpenseTotalAppend(ExpenseMatching(q, stored), if ExpenseMatches(q, x) then [x.record] else []);
  }

  /** The summary's second aggregation: the same filter with
      `isDeductible: true` written over whatever the list asked for. */
  function DeductibleQuery(q: ExpenseQuery): ExpenseQuery {
    q.(isDeductible := Some(true))
  }

  /** The deductible summary counts the deductible records among those the
      other filters admit, even when the list itself asks for non-deductible
      records only. */
  lemma DeductibleQueryMeaning(q: ExpenseQuery, s: Stored<Expense>)
    ensures ExpenseMatches(DeductibleQuery(q), s) <==>
      ExpenseMatches(q.(isDeductible := None), s) && s.record.isDeductible
    ensures q.isDeductible != Some(false) && ExpenseMatches(DeductibleQuery(q), s) ==> ExpenseMatches(q, s)
  {
  }

  datatype ExpenseSummary = ExpenseSummary(totalAmount: real, deductibleAmount: real, totalEntries: nat)

  datatype ExpenseList = ExpenseList(entries: seq<Expense>, sort: SortSpec, pagination: Pagination, summary: ExpenseSummary)

  /** `getExpenses`: `order` is the database's arrangement of the matches
      under the sort specification; every entry of the page is one of the
      caller's matching records. The `[0]?.total || 0` of an
      aggregation over no documents is the empty sum, 0. */
  function GetExpenses(userId: string, p: ExpenseParams, stored: seq<Stored<Expense>>,
                       order: (SortSpec, seq<Expense>) -> seq<Expense>): (l: ExpenseList)
    requires PagingValid(p.page, p.limit)
    requires Permutes(order)
    ensures var q := ExpenseQueryOf(userId, p);
      && l.sort == SortOf(p.sortBy, p.sortOrder)
      && l.pagination == PaginationOf(PageNumber(p.page), PageSize(p.limit), |ExpenseMatching(q, stored)|)
      && l.entries == PageOf(order(l.sort, ExpenseMatching(q, stored)),
                             Skip(PageNumber(p.page), PageSize(p.limit)), PageSize(p.limit))
      && l.summary.totalAmount == ExpenseTotal(ExpenseMatching(q, stored))
      && l.summary.deductibleAmount == ExpenseTotal(ExpenseMatching(DeductibleQuery(q), stored))
      && l.summary.totalEntries == l.pagination.total
    ensures |l.entries| <= PageSize(p.limit) <= 100
    ensures forall e :: e in l.entries ==>
      exists k :: 0 <= k < |stored| && stored[k].userId == userId && ExpenseMatches(ExpenseQueryOf(userId, p), stored[k]) && stored[k].record == e
  {
    var q := ExpenseQueryOf(userId, p);
    var sort := SortOf(p.sortBy, p.sortOrder);
    var page := PageNumber(p.page);
    var limit := PageSize(p.limit);
    var matches := ExpenseMatching(q, stored);
    assert forall e :: e in order(sort, matches) ==> e in matches by {
      forall e | e in order(sort, matches) ensures e in matches {
        assert e in multiset(order(sort, matches));
      }
    }
    ExpenseList(
      PageOf(order(sort, matches), Skip(page, limit), limit),
      sort,
      PaginationOf(page, limit, |matches|),
      ExpenseSummary(ExpenseTotal(matches), ExpenseTotal(ExpenseMatching(DeductibleQuery(q), stored)), |matches|))
  }

  // ---------------------------------------------------------------------
  // Income list

  datatype IncomeParams = IncomeParams(
    page: Option<int>,
    limit: Option<int>,
    category: Option<string>,
    search: Option<string>,
    startDate: Option<Date>,
    endDate: Option<Date>,
    sortBy: Option<string>,
    sortOrder: Option<string>)

  datatype IncomeQuery = IncomeQuery(
    userId: string,
    category: Option<string>,
    search: Option<string>,
    from: Option<Date>,
    to: Option<Date>)

  function IncomeQueryOf(userId: string, p: IncomeParams): (q: IncomeQuery)
    ensures q.userId == userId
  {
    IncomeQuery(userId, Given(p.category), Given(p.search), p.startDate, p.endDate)
  }

  /** The search looks at the source and the description. */
  predicate IncomeMatches(q: IncomeQuery, s: Stored<Income>) {
    var e := s.record;
    && s.userId == q.userId
    && (q.category.Some? ==> e.category == q.category.value)
    && (q.search.Some? ==> MatchesText(e.source, q.search.value) || MatchesText(e.description, q.search.value))
    && InRange(e.date, q.from, q.to)
  }

  lemma IncomeQueryMeaning(userId: string, p: IncomeParams, s: Stored<Income>)
    ensures IncomeMatches(IncomeQueryOf(userId, p), s) <==>
      && s.userId == userId
      && (p.category.Some? && p.category.value != "" ==> s.record.category == p.category.value)
      && (p.search.Some? && p.search.value != "" ==>
            MatchesText(s.record.source, p.search.value) || MatchesText(s.record.description, p.search.value))
      && (p.startDate.Some? ==> !Before(s.record.date, p.startDate.value))
      && (p.endDate.Some? ==> !Before(p.endDate.value, s.record.date))
  {
  }

  function IncomeMatching(q: IncomeQuery, stored: seq<Stored<Income>>): (r: seq<Income>)
    ensures |r| <= |stored|
    ensures forall e :: e in r <==> exists k :: 0 <= k < |stored| && IncomeMatches(q, stored[k]) && stored[k].record == e
    decreases |stored|
  {
    if |stored| == 0 then []
    else
      var rest := IncomeMatching(q, stored[1..]);
      assert forall e :: e in rest <==> exists k :: 1 <= k < |stored| && IncomeMatches(q, stored[k]) && stored[k].record == e by {
        forall e ensures e in rest <==> exists k :: 1 <= k < |stored| && IncomeMatches(q, stored[k]) && stored[k].record == e {
          if e in rest {
            var k :| 0 <= k < |stored[1..]| && IncomeMatches(q, stored[1..][k]) && stored[1..][k].record == e;
            assert stored[k + 1] == stored[1..][k];
          }
          if exists k :: 1 <= k < |stored| && IncomeMatches(q, stored[k]) && stored[k].record == e {
            var k :| 1 <= k < |stored| && IncomeMatches(q, stored[k]) && stored[k].record == e;
            assert stored[1..][k - 1] == stored[k];
          }
        }
      }
      (if IncomeMatches(q, stored[0]) then [stored[0].record] else []) + rest
  }

  /** As for expenses: the matches are the accepted records, each once, in
      storage order. */
  lemma {:induction false} IncomeMatchingSnoc(q: IncomeQuery, stored: seq<Stored<Income>>, x: Stored<Income>)
    ensures IncomeMatching(q, stored + [x])
      == IncomeMatching(q, stored) + (if IncomeMatches(q, x) then [x.record] else [])
    ensures IncomeTotal(IncomeMatching(q, stored + [x]))
      == IncomeTotal(IncomeMatching(q, stored)) + (if IncomeMatches(q, x) then x.record.amount else 0.0)
    decreases |stored|
  {
    if |stored| == 0 {
      assert stored + [x] == [x];
    } else {
      assert (stored + [x])[1..] == stored[1..] + [x];
      IncomeMatchingSnoc(q, stored[1..], x);
    }
    IncomeTotalAppend(IncomeMatching(q, stored), if IncomeMatches(q, x) then [x.record] else []);
  }

  datatype IncomeSummary = IncomeSummary(totalAmount: real, totalEntries: nat)

  datatype IncomeList = IncomeList(entries: seq<Income>, sort: SortSpec, pagination: Pagination, summary: IncomeSummary)

  /** `getIncomes`, with `order` as for the expense list. */
  function GetIncomes(userId: string, p: IncomeParams, stored: seq<Stored<Income>>,
                      order: (SortSpec, seq<Income>) -> seq<Income>): (l: IncomeList)
    requires PagingValid(p.page, p.limit)
    requires Permutes(order)
    ensures var q := IncomeQueryOf(userId, p);
      && l.sort == SortOf(p.sortBy, p.sortOrder)
      && l.pagination == PaginationOf(PageNumber(p.page), PageSize(p.limit), |IncomeMatching(q, stored)|)
      && l.entries == PageOf(order(l.sort, IncomeMatching(q, stored)),
                             Skip(PageNumber(p.page), PageSize(p.limit)), PageSize(p.limit))
      && l.summary.totalAmount == IncomeTotal(IncomeMatching(q, stored))
      && l.summary.totalEntries == l.pagination.total
    ensures |l.entries| <= PageSize(p.limit) <= 100
    ensures forall e :: e in l.entries ==>
      exists k :: 0 <= k < |stored| && stored[k].userId == userId && IncomeMatches(IncomeQueryOf(userId, p), stored[k]) && stored[k].record == e
  {
    var q := IncomeQueryOf(userId, p);
    var sort := SortOf(p.sortBy, p.sortOrder);
    var page := PageNumber(p.page);
    var limit := PageSize(p.limit);
    var matches := IncomeMatching(q, stored);
    assert forall e :: e in order(sort, matches) ==> e in matches by {
      forall e | e in order(sort, matches) ensures e in matches {
        assert e in multiset(order(sort, matches));
      }
    }
    IncomeList(
      PageOf(order(sort, matches), Skip(page, limit), limit),
      sort,
      PaginationOf(page, limit, |matches|),
      IncomeSummary(IncomeTotal(matches), |matches|))
  }
}

=== FILE: pricing_page.dfy ===
/** The pricing page's plan table and the price and savings it shows for
    the monthly/annual toggle. */
module PricingPage {
  import opened Common

  datatype PlanName = Free | Pro | Premium

  datatype Price = Price(monthly: real, annual: real)

  datatype Plan = Plan(name: PlanName, price: Price)

  const PLANS: seq<Plan> := [
    Plan(Free, Price(0.0, 0.0)),
    Plan(Pro, Price(12.0, 99.0)),
    Plan(Premium, Price(29.0, 249.0))
  ]

  /** `getPrice`: the annual price when the toggle is on annual billing,
      the monthly price otherwise. */
  function GetPrice(p: Plan, isAnnual: bool): (r: real)
    ensures isAnnual ==> r == p.price.annual
    ensures !isAnnual ==> r == p.price.monthly
  {
    if isAnnual then p.price.annual else p.price.monthly
  }

  datatype Savings = Savings(amount: real, percentage: int)

  /** A plan the savings arithmetic can be done on: it is free, or its
      monthly price is not 0 (so twelve months cost something). */
  predicate SavingsDefined(p: Plan) {
    p.price.annual == 0.0 || p.price.monthly != 0.0
  }

  /** `getSavings`: nothing for a plan whose annual price is 0; otherwise
      what a year of monthly billing costs beyond the annual price, and that
      difference as a rounded percentage of the year of monthly billing. */
  function GetSavings(p: Plan): (s: Option<Savings>)
    requires SavingsDefined(p)
    ensures s.None? <==> p.price.annual == 0.0
    ensures s.Some? ==> s.value.amount + p.price.annual == 12.0 * p.price.monthly
    ensures s.Some? ==> var exact := s.value.amount / (12.0 * p.price.monthly) * 100.0;
      s.value.percentage as real - 0.5 <= exact < s.value.percentage as real + 0.5
  {
    if p.price.annual == 0.0 then None
    else
      var monthlyCost := p.price.monthly * 12.0;
      var savings := monthlyCost - p.price.annual;
      Some(Savings(savings, Round(savings / monthlyCost * 100.0)))
  }

  /** Every plan in the table can be priced both ways. */
  lemma PlansHaveSavings()
    ensures forall k :: 0 <= k < |PLANS| ==> SavingsDefined(PLANS[k])
  {
  }

  /** The shown figures: no savings for Free, $45 and 31% for Pro, $99 and
      28% for Premium. */
  lemma PlanSavings()
    ensures GetSavings(PLANS[0]) == None
    ensures GetSavings(PLANS[1]) == Some(Savings(45.0, 31))
    ensures GetSavings(PLANS[2]) == Some(Savings(99.0, 28))
  {
    assert 45.0 / 144.0 * 100.0 == 3125.0 / 100.0;
    assert 99.0 / 348.0 * 100.0 == 2475.0 / 87.0;
  }

  /** An annual price at most a year of monthly billing saves between 0 and
      100 percent. */
  lemma SavingsPercentageBounded(p: Plan)
    requires p.price.monthly > 0.0 && 0.0 < p.price.annual <= 12.0 * p.price.monthly
    ensures GetSavings(p).Some?
    ensures 0 <= GetSavings(p).value.percentage <= 100
  {
    var m := 12.0 * p.price.monthly;
    var savings := m - p.price.annual;
    assert 0.0 <= savings < m;
    assert 0.0 <= savings / m < 1.0 by {
      FractionBelowOne(savings, m);
    }
  }

  lemma FractionBelowOne(a: real, b: real)
    requires 0.0 <= a < b
    ensures 0.0 <= a / b < 1.0
  {
  }

  /** The "Save" badge shows on annual billing for every plan with a
      non-zero annual price. */
  predicate ShowsSavingsBadge(p: Plan, isAnnual: bool)
    requires SavingsDefined(p)
  {
    GetSavings(p).Some? && isAnnual
  }

  lemma SavingsBadgeOnPaidPlans(isAnnual: bool)
    ensures !ShowsSavingsBadge(PLANS[0], isAnnual)
    ensures ShowsSavingsBadge(PLANS[1], isAnnual) <==> isAnnual
    ensures ShowsSavingsBadge(PLANS[2], isAnnual) <==> isAnnual
  {
  }
}

=== FILE: records.dfy ===
/** The two stored entities the engine reads (income and expense entries)
    and the sums every handler computes over them with `reduce`. A database
    query is replaced by the sequence of records it would return. */
module Records {
  import opened Common

  datatype Income = Income(
    source: string,
    description: string,
    amount: real,
    category: string,
    platform: Option<string>,
    date: Date,
    isRecurring: bool,
    taxable: bool)

  datatype Expense = Expense(
    description: string,
    amount: real,
    category: string,
    paymentMethod: string,
    vendor: Option<string>,
    date: Date,
    isRecurring: bool,
    isDeductible: bool)

  /** The stored schemas declare `amount` with a minimum of 0. */
  predicate IncomesValid(xs: seq<Income>) {
    forall k :: 0 <= k < |xs| ==> xs[k].amount >= 0.0
  }

  predicate ExpensesValid(xs: seq<Expense>) {
    forall k :: 0 <= k < |xs| ==> xs[k].amount >= 0.0
  }

  /** `incomes.reduce((sum, entry) => sum + entry.amount, 0)`. */
  function IncomeTotal(xs: seq<Income>): real
    decreases |xs|
  {
    if |xs| == 0 then 0.0 else xs[0].amount + IncomeTotal(xs[1..])
  }

  function ExpenseTotal(xs: seq<Expense>): real
    decreases |xs|
  {
    if |xs| == 0 then 0.0 else xs[0].amount + ExpenseTotal(xs[1..])
  }

  /** `expenses.filter(entry => entry.isDeductible)`. */
  function Deductibles(xs: seq<Expense>): (ds: seq<Expense>)
    ensures |ds| <= |xs|
    ensures forall e :: e in ds <==> e in xs && e.isDeductible
    decreases |xs|
  {
    if |xs| == 0 then []
    else (if xs[0].isDeductible then [xs[0]] else []) + Deductibles(xs[1..])
  }

  /** The deductible sum, filtered then reduced as every handler does it. */
  function DeductibleTotal(xs: seq<Expense>): real {
    ExpenseTotal(Deductibles(xs))
  }

  lemma {:induction false} IncomeTotalNonNegative(xs: seq<Income>)
    requires IncomesValid(xs)
    ensures IncomeTotal(xs) >= 0.0
    decreases |xs|
  {
    if |xs| > 0 {
      IncomeTotalNonNegative(xs[1..]);
    }
  }

  lemma {:induction false} ExpenseTotalNonNegative(xs: seq<Expense>)
    requires ExpensesValid(xs)
    ensures ExpenseTotal(xs) >= 0.0
    decreases |xs|
  {
    if |xs| > 0 {
      ExpenseTotalNonNegative(xs[1..]);
    }
  }

  /** Deductible expenses are a filtered part of all expenses, so with
      non-negative amounts they never exceed the total. */
  lemma {:induction false} DeductibleWithinTotal(xs: seq<Expense>)
    requires ExpensesValid(xs)
    ensures 0.0 <= DeductibleTotal(xs) <= ExpenseTotal(xs)
    decreases |xs|
  {
    if |xs| > 0 {
      DeductibleWithinTotal(xs[1..]);
      assert Deductibles(xs) == (if xs[0].isDeductible then [xs[0]] else []) + Deductibles(xs[1..]);
      if xs[0].isDeductible {
        assert Deductibles(xs)[0] == xs[0];
        assert Deductibles(xs)[1..] == Deductibles(xs[1..]);
      } else {
        assert Deductibles(xs) == Deductibles(xs[1..]);
      }
    }
  }

  lemma {:induction false} IncomeTotalAppend(xs: seq<Income>, ys: seq<Income>)
    ensures IncomeTotal(xs + ys) == IncomeTotal(xs) + IncomeTotal(ys)
    decreases |xs|
  {
    if |xs| > 0 {
      assert (xs + ys)[1..] == xs[1..] + ys;
      IncomeTotalAppend(xs[1..], ys);
    } else {
      assert xs + ys == ys;
    }
  }

  lemma {:induction false} ExpenseTotalAppend(xs: seq<Expense>, ys: seq<Expense>)
    ensures ExpenseTotal(xs + ys) == ExpenseTotal(xs) + ExpenseTotal(ys)
    decreases |xs|
  {
    if |xs| > 0 {
      assert (xs + ys)[1..] == xs[1..] + ys;
      ExpenseTotalAppend(xs[1..], ys);
    } else {
      assert xs + ys == ys;
    }
  }

  // ---------------------------------------------------------------------
  // Monthly buckets

  /** Every record of the sequence is dated in calendar year `year`. */
  predicate IncomesInYear(xs: seq<Income>, year: int) {
    forall k :: 0 <= k < |xs| ==> xs[k].date.year == year && 1 <= xs[k].date.month <= 12
  }

  predicate ExpensesInYear(xs: seq<Expense>, year: int) {
    forall k :: 0 <= k < |xs| ==> xs[k].date.year == year && 1 <= xs[k].date.month <= 12
  }

  /** Income dated in month `month` (1..12) of `year`: the filter between the
      first day and the last day of that month. */
  function MonthIncome(xs: seq<Income>, year: int, month: int): real
    decreases |xs|
  {
    if |xs| == 0 then 0.0
    else
      (if xs[0].date.year == year && xs[0].date.month == month then xs[0].amount else 0.0)
      + MonthIncome(xs[1..], year, month)
  }

  function MonthExpenses(xs: seq<Expense>, year: int, month: int): real
    decreases |xs|
  {
    if |xs| == 0 then 0.0
    else
      (if xs[0].date.year == year && xs[0].date.month == month then xs[0].amount else 0.0)
      + MonthExpenses(xs[1..], year, month)
  }

  /** Sum of the monthly incomes of months 1..n. */
  function IncomeUpToMonth(xs: seq<Income>, year: int, n: nat): real {
    if n == 0 then 0.0 else IncomeUpToMonth(xs, year, n - 1) + MonthIncome(xs, year, n)
  }

  /** A single amount counted in its own month only. */
  function OneMonth(m: int, month: int, a: real): real {
    if m == month then a else 0.0
  }

  function OneUpTo(m: int, n: nat, a: real): real {
    if n == 0 then 0.0 else OneUpTo(m, n - 1, a) + OneMonth(m, n, a)
  }

  lemma {:induction false} OneUpToCountsOnce(m: int, n: nat, a: real)
    ensures OneUpTo(m, n, a) == if 1 <= m <= n then a else 0.0
  {
    if n > 0 {
      OneUpToCountsOnce(m, n - 1, a);
    }
  }

  lemma {:induction false} IncomeUpToMonthSplit(xs: seq<Income>, year: int, n: nat)
    requires |xs| > 0
    ensures IncomeUpToMonth(xs, year, n)
      == (if xs[0].date.year == year then OneUpTo(xs[0].date.month, n, xs[0].amount) else 0.0)
         + IncomeUpToMonth(xs[1..], year, n)
  {
    if n > 0 {
      IncomeUpToMonthSplit(xs, year, n - 1);
    }
  }

  /** When every entry is dated in the year, the twelve monthly incomes add
      up to the year's total. */
  lemma {:induction false} MonthlyIncomesSumToTotal(xs: seq<Income>, year: int)
    requires IncomesInYear(xs, year)
    ensures IncomeUpToMonth(xs, year, 12) == IncomeTotal(xs)
    decreases |xs|
  {
    if |xs| > 0 {
      IncomeUpToMonthSplit(xs, year, 12);
      OneUpToCountsOnce(xs[0].date.month, 12, xs[0].amount);
      MonthlyIncomesSumToTotal(xs[1..], year);
    } else {
      IncomeUpToMonthEmpty(xs, year, 12);
    }
  }

  lemma {:induction false} IncomeUpToMonthEmpty(xs: seq<Income>, year: int, n: nat)
    requires |xs| == 0
    ensures IncomeUpToMonth(xs, year, n) == 0.0
  {
    if n > 0 {
      IncomeUpToMonthEmpty(xs, year, n - 1);
    }
  }

  /** One month of the twelve-month breakdown. */
  datatype MonthTotals = MonthTotals(monthNumber: int, income: real, expenses: real)

  function MonthTotalsIncome(m: MonthTotals): real { m.income }

  /** The loop over the twelve months of `year`, summing the income and the
      expenses dated in each. */
  function MonthlyTotals(incomes: seq<Income>, expenses: seq<Expense>, year: int): (ms: seq<MonthTotals>)
    ensures |ms| == 12
    ensures forall i :: 0 <= i < 12 ==> ms[i].monthNumber == i + 1
    ensures forall i :: 0 <= i < 12 ==>
      ms[i].income == MonthIncome(incomes, year, i + 1) && ms[i].expenses == MonthExpenses(expenses, year, i + 1)
  {
    seq(12, i requires 0 <= i < 12 =>
      MonthTotals(i + 1, MonthIncome(incomes, year, i + 1), MonthExpenses(expenses, year, i + 1)))
  }

  lemma {:induction false} MonthlyTotalsPrefix(incomes: seq<Income>, expenses: seq<Expense>, year: int, n: nat)
    requires n <= 12
    ensures SumOf(MonthlyTotals(incomes, expenses, year)[..n], MonthTotalsIncome) == IncomeUpToMonth(incomes, year, n)
  {
    var ms := MonthlyTotals(incomes, expenses, year);
    if n > 0 {
      MonthlyTotalsPrefix(incomes, expenses, year, n - 1);
      assert ms[..n] == ms[..n - 1] + [ms[n - 1]];
      SumOfSnoc(ms[..n - 1], ms[n - 1], MonthTotalsIncome);
    } else {
      assert ms[..0] == [];
    }
  }

  /** When every income is dated in the year, the twelve monthly incomes of
      the breakdown add up to the year's income. */
  lemma MonthlyTotalsCoverIncome(incomes: seq<Income>, expenses: seq<Expense>, year: int)
    requires IncomesInYear(incomes, year)
    ensures SumOf(MonthlyTotals(incomes, expenses, year), MonthTotalsIncome) == IncomeTotal(incomes)
  {
    var ms := MonthlyTotals(incomes, expenses, year);
    MonthlyTotalsPrefix(incomes, expenses, year, 12);
    assert ms[..12] == ms;
    MonthlyIncomesSumToTotal(incomes, year);
  }
}

=== FILE: register_page.dfy ===
/** The sign-up form: the four password requirements and the order in which
    the submit handler checks names, password, confirmation and terms
    before it calls `register`. */
module RegisterPage {
  import opened Common

  datatype PasswordRequirements = PasswordRequirements(length: bool, uppercase: bool, lowercase: bool, number: bool)

  predicate HasUpper(s: string) { exists i :: 0 <= i < |s| && IsUpper(s[i]) }
  predicate HasLower(s: string) { exists i :: 0 <= i < |s| && IsLower(s[i]) }
  predicate HasDigit(s: string) { exists i :: 0 <= i < |s| && IsDigit(s[i]) }

  /** `validatePassword`: at least 8 characters and the three character
      classes (`[A-Z]`, `[a-z]`, `\d`). */
  function ValidatePassword(p: string): (r: PasswordRequirements)
    ensures r.length <==> |p| >= 8
    ensures r.uppercase <==> exists i :: 0 <= i < |p| && 'A' <= p[i] <= 'Z'
    ensures r.lowercase <==> exists i :: 0 <= i < |p| && 'a' <= p[i] <= 'z'
    ensures r.number <==> exists i :: 0 <= i < |p| && '0' <= p[i] <= '9'
  {
    PasswordRequirements(|p| >= 8, HasUpper(p), HasLower(p), HasDigit(p))
  }

  /** Every requirement holds. */
  predicate IsPasswordValid(p: string) {
    var r := ValidatePassword(p);
    r.length && r.uppercase && r.lowercase && r.number
  }

  /** The server's sign-up schema asks for at least 6 characters. */
  const SERVER_MIN_PASSWORD: nat := 6

  /** A password the page accepts is long enough for the server. */
  lemma AcceptedPasswordPassesServer(p: string)
    requires IsPasswordValid(p)
    ensures |p| >= SERVER_MIN_PASSWORD
  {
  }

  datatype RegisterError = NamesRequired | PasswordWeak | PasswordsDiffer | TermsNotAccepted

  function ErrorText(e: RegisterError): string {
    match e
    case NamesRequired => "First name and last name are required"
    case PasswordWeak => "Password does not meet requirements"
    case PasswordsDiffer => "Passwords do not match"
    case TermsNotAccepted => "You must accept the terms and conditions"
  }

  /** What a submit does: show an error, or call `register` with the form's
      values as typed. */
  datatype Outcome = Rejected(error: RegisterError) | Register(firstName: string, lastName: string, email: string, password: string)

  /** `handleSubmit`'s checks, each returning on failure. */
  function HandleSubmit(firstName: string, lastName: string, email: string, password: string,
                        confirmPassword: string, acceptTerms: bool): (o: Outcome)
    ensures o.Register? <==>
      Trim(firstName) != "" && Trim(lastName) != "" && IsPasswordValid(password)
      && password == confirmPassword && acceptTerms
    ensures o.Register? ==> o == Register(firstName, lastName, email, password)
    ensures o == Rejected(NamesRequired) <==> Trim(firstName) == "" || Trim(lastName) == ""
    ensures o == Rejected(PasswordWeak) <==>
      Trim(firstName) != "" && Trim(lastName) != "" && !IsPasswordValid(password)
    ensures o == Rejected(PasswordsDiffer) <==>
      Trim(firstName) != "" && Trim(lastName) != "" && IsPasswordValid(password) && password != confirmPassword
  {
    if Trim(firstName) == "" || Trim(lastName) == "" then Rejected(NamesRequired)
    else if !IsPasswordValid(password) then Rejected(PasswordWeak)
    else if password != confirmPassword then Rejected(PasswordsDiffer)
    else if !acceptTerms then Rejected(TermsNotAccepted)
    else Register(firstName, lastName, email, password)
  }

  /** A first or last name made only of white space is rejected before the
      password is looked at. */
  lemma BlankNameRejected(firstName: string, lastName: string, email: string, password: string,
                          confirmPassword: string, acceptTerms: bool)
    requires (forall i :: 0 <= i < |firstName| ==> IsSpace(firstName[i]))
          || (forall i :: 0 <= i < |lastName| ==> IsSpace(lastName[i]))
    ensures HandleSubmit(firstName, lastName, email, password, confirmPassword, acceptTerms) == Rejected(NamesRequired)
  {
    TrimEmptyIffBlank(firstName);
    TrimEmptyIffBlank(lastName);
  }

  /** Names of Unicode spaces only, such as an ideographic space or an em
      space followed by a no-break space, are as blank as ASCII ones. */
  lemma UnicodeSpaceNameRejected(email: string, password: string, confirmPassword: string, acceptTerms: bool)
    ensures HandleSubmit("\U{3000}", "\U{2003}\U{00A0}", email, password, confirmPassword, acceptTerms)
            == Rejected(NamesRequired)
  {
    BlankNameRejected("\U{3000}", "\U{2003}\U{00A0}", email, password, confirmPassword, acceptTerms);
  }

  /** Whatever the form holds, every submit that reaches `register` sends a
      password the server accepts. */
  lemma RegisteredPasswordLongEnough(firstName: string, lastName: string, email: string, password: string,
                                     confirmPassword: string, acceptTerms: bool)
    requires HandleSubmit(firstName, lastName, email, password, confirmPassword, acceptTerms).Register?
    ensures |HandleSubmit(firstName, lastName, email, password, confirmPassword, acceptTerms).password| >= SERVER_MIN_PASSWORD
  {
  }
}

=== FILE: report.dfy ===
/** The annual report and the year-over-year summary of the report
    controller: totals, a flat-rate tax estimate, category breakdowns with
    percentages sorted by amount, the twelve-month breakdown, the quarterly
    payments, and the summary's percentage changes and advice. */
module AnnualReport {
  import opened Common
  import opened Records
  import opened Grouping
  import Sorting
  import Rules
  import TaxEstimate

  // ---------------------------------------------------------------------
  // Tax figures

  /** The report's simplified tax: self-employment tax on all income plus a
      flat 22% on the taxable income above the standard deduction. */
  function ReportEstimatedTax(totalIncome: real, deductibleExpenses: real): (t: real)
    ensures t >= totalIncome * 0.1413
    ensures TaxEstimate.TaxableIncome(totalIncome, deductibleExpenses) <= 13850.0 ==> t == totalIncome * 0.1413
    ensures TaxEstimate.TaxableIncome(totalIncome, deductibleExpenses) >= 13850.0 ==>
      t == totalIncome * 0.1413 + 0.22 * (TaxEstimate.TaxableIncome(totalIncome, deductibleExpenses) - 13850.0)
  {
    var taxable := TaxEstimate.TaxableIncome(totalIncome, deductibleExpenses);
    totalIncome * 0.1413 + Max(0.0, taxable - 13850.0) * 0.22
  }

  /** More income never lowers the estimate; more deductions never raise it. */
  lemma ReportTaxMonotone(i1: real, i2: real, d1: real, d2: real)
    requires i1 <= i2 && d2 <= d1
    ensures ReportEstimatedTax(i1, d1) <= ReportEstimatedTax(i2, d2)
  {
  }

  /** A payment of the schedule with its `paid` flag. */
  datatype Payment = Payment(installment: TaxEstimate.Installment, paid: bool)

  /** The four payments of the report: the schedule of the tax endpoint for
      the same amount, none of them marked as paid. */
  function QuarterlyPayments(year: int, estimatedTax: real): (ps: seq<Payment>)
    ensures |ps| == 4
    ensures forall i :: 0 <= i < 4 ==> !ps[i].paid && 4.0 * ps[i].installment.amount == estimatedTax
    ensures forall i :: 0 <= i < 4 ==> ps[i].installment == TaxEstimate.QuarterlySchedule(year, estimatedTax)[i]
  {
    var s := TaxEstimate.QuarterlySchedule(year, estimatedTax);
    seq(4, i requires 0 <= i < 4 => Payment(s[i], false))
  }

  /** The report's deadline list: the tax endpoint's deadlines without the
      1099 date, in the handler's own order Q1, Q2, Q3, annual return, Q4,
      which puts the Q4 payment after the later annual return. */
  function ReportDeadlines(year: int): (ds: seq<TaxEstimate.Deadline>)
    ensures |ds| == 5
    ensures ds[0].id == TaxEstimate.Q1Payment && ds[1].id == TaxEstimate.Q2Payment
    ensures ds[2].id == TaxEstimate.Q3Payment && ds[3].id == TaxEstimate.AnnualReturn
    ensures ds[4].id == TaxEstimate.Q4Payment
    ensures ds[0].date == Date(year, 4, 15) && ds[1].date == Date(year, 6, 17)
    ensures ds[2].date == Date(year, 9, 16) && ds[3].date == Date(year + 1, 4, 15)
    ensures ds[4].date == Date(year + 1, 1, 15)
    ensures Before(ds[4].date, ds[3].date)
    ensures forall d :: d in ds ==> d in TaxEstimate.DeadlineList(year) && d.id != TaxEstimate.FormsAvailable
    ensures forall d :: d in TaxEstimate.DeadlineList(year) && d.id != TaxEstimate.FormsAvailable ==> d in ds
  {
    var l := TaxEstimate.DeadlineList(year);
    [l[0], l[1], l[2], l[3], l[4]]
  }

  // ---------------------------------------------------------------------
  // Category breakdowns

  function IncomeItem(e: Income): Item { Item(e.category, e.amount, false) }
  function ExpenseItem(e: Expense): Item { Item(e.category, e.amount, e.isDeductible) }

  function IncomeItems(xs: seq<Income>): (items: seq<Item>)
    ensures |items| == |xs|
    ensures forall k :: 0 <= k < |xs| ==> items[k] == IncomeItem(xs[k])
    decreases |xs|
  {
    if |xs| == 0 then [] else [IncomeItem(xs[0])] + IncomeItems(xs[1..])
  }

  function ExpenseItems(xs: seq<Expense>): (items: seq<Item>)
    ensures |items| == |xs|
    ensures forall k :: 0 <= k < |xs| ==> items[k] == ExpenseItem(xs[k])
    decreases |xs|
  {
    if |xs| == 0 then [] else [ExpenseItem(xs[0])] + ExpenseItems(xs[1..])
  }

  lemma {:induction false} IncomeItemsTotal(xs: seq<Income>)
    ensures SumOf(IncomeItems(xs), ItemAmount) == IncomeTotal(xs)
    decreases |xs|
  {
    if |xs| > 0 {
      assert IncomeItems(xs)[1..] == IncomeItems(xs[1..]);
      IncomeItemsTotal(xs[1..]);
    }
  }

  lemma {:induction false} ExpenseItemsTotals(xs: seq<Expense>)
    ensures SumOf(ExpenseItems(xs), ItemAmount) == ExpenseTotal(xs)
    ensures SumOf(ExpenseItems(xs), DeductibleAmountOf) == DeductibleTotal(xs)
    decreases |xs|
  {
    if |xs| > 0 {
      assert ExpenseItems(xs)[1..] == ExpenseItems(xs[1..]);
      ExpenseItemsTotals(xs[1..]);
      assert Deductibles(xs) == (if xs[0].isDeductible then [xs[0]] else []) + Deductibles(xs[1..]);
      if xs[0].isDeductible {
        assert Deductibles(xs)[0] == xs[0];
        assert Deductibles(xs)[1..] == Deductibles(xs[1..]);
      } else {
        assert Deductibles(xs) == Deductibles(xs[1..]);
      }
    }
  }

  /** `amount / total * 100`, or 0 when there is no total. */
  function Percentage(amount: real, total: real): (p: real)
    ensures total > 0.0 ==> p * total == amount * 100.0
    ensures total <= 0.0 ==> p == 0.0
  {
    if total > 0.0 then (amount / total) * 100.0 else 0.0
  }

  datatype IncomeCategory = IncomeCategory(category: string, amount: real, count: nat, percentage: real)

  datatype ExpenseCategory = ExpenseCategory(
    category: string, amount: real, count: nat, deductibleAmount: real, percentage: real, deductible: bool)

  function IncomeCategoryAmount(c: IncomeCategory): real { c.amount }
  function IncomeCategoryPercentage(c: IncomeCategory): real { c.percentage }
  function ExpenseCategoryPercentage(c: ExpenseCategory): real { c.percentage }
  function IncomeCategoryDescending(c: IncomeCategory): real { -c.amount }
  function ExpenseCategoryDescending(c: ExpenseCategory): real { -c.amount }

  /** The income groups with their share of the total. */
  function IncomeCategories(gs: seq<Group>, total: real): (cs: seq<IncomeCategory>)
    ensures |cs| == |gs|
    ensures forall k :: 0 <= k < |gs| ==>
      cs[k] == IncomeCategory(gs[k].category, gs[k].amount, gs[k].count, Percentage(gs[k].amount, total))
    decreases |gs|
  {
    if |gs| == 0 then []
    else
      [IncomeCategory(gs[0].category, gs[0].amount, gs[0].count, Percentage(gs[0].amount, total))]
      + IncomeCategories(gs[1..], total)
  }

  function ExpenseCategories(gs: seq<Group>, total: real): (cs: seq<ExpenseCategory>)
    ensures |cs| == |gs|
    ensures forall k :: 0 <= k < |gs| ==>
      cs[k] == ExpenseCategory(gs[k].category, gs[k].amount, gs[k].count, gs[k].deductibleAmount,
                               Percentage(gs[k].amount, total), gs[k].deductible)
  {
    seq(|gs|, k requires 0 <= k < |gs| =>
      ExpenseCategory(gs[k].category, gs[k].amount, gs[k].count, gs[k].deductibleAmount,
                      Percentage(gs[k].amount, total), gs[k].deductible))
  }

  lemma ShareAdd(a: real, b: real, t: real)
    requires t > 0.0
    ensures (a / t) * 100.0 + (b / t) * 100.0 == ((a + b) / t) * 100.0
  {
  }

  /** The groups' percentages of `total`, added up. */
  function PercentageTotal(gs: seq<Group>, total: real): real
    decreases |gs|
  {
    if |gs| == 0 then 0.0 else Percentage(gs[0].amount, total) + PercentageTotal(gs[1..], total)
  }

  lemma WholeShare(t: real)
    requires t > 0.0
    ensures (t / t) * 100.0 == 100.0
  {
  }

  /** The percentages add up to the groups' share of the total. */
  lemma {:induction false} PercentagesSum(gs: seq<Group>, total: real)
    requires total > 0.0
    ensures PercentageTotal(gs, total) == (SumOf(gs, GroupAmount) / total) * 100.0
    decreases |gs|
  {
    if |gs| > 0 {
      PercentagesSum(gs[1..], total);
      ShareAdd(gs[0].amount, SumOf(gs[1..], GroupAmount), total);
    }
  }

  /** The income categories carry the groups' percentages. */
  lemma {:induction false} IncomeCategoriesPercentages(gs: seq<Group>, total: real)
    ensures SumOf(IncomeCategories(gs, total), IncomeCategoryPercentage) == PercentageTotal(gs, total)
    decreases |gs|
  {
    if |gs| > 0 {
      assert IncomeCategories(gs, total)[1..] == IncomeCategories(gs[1..], total);
      IncomeCategoriesPercentages(gs[1..], total);
    }
  }

  /** The expense categories carry the groups' percentages. */
  lemma {:induction false} ExpenseCategoriesPercentages(gs: seq<Group>, total: real)
    ensures SumOf(ExpenseCategories(gs, total), ExpenseCategoryPercentage) == PercentageTotal(gs, total)
    decreases |gs|
  {
    if |gs| > 0 {
      assert ExpenseCategories(gs, total)[1..] == ExpenseCategories(gs[1..], total);
      ExpenseCategoriesPercentages(gs[1..], total);
    }
  }

  /** With some income, the income-category percentages add up to 100. */
  lemma IncomePercentagesSumTo100(incomes: seq<Income>)
    requires IncomeTotal(incomes) > 0.0
    ensures SumOf(IncomeCategories(GroupByCategory(IncomeItems(incomes)), IncomeTotal(incomes)),
                  IncomeCategoryPercentage) == 100.0
  {
    var total := IncomeTotal(incomes);
    var gs := GroupByCategory(IncomeItems(incomes));
    GroupAmountsAddUp(IncomeItems(incomes));
    IncomeItemsTotal(incomes);
    PercentagesSum(gs, total);
    IncomeCategoriesPercentages(gs, total);
    assert SumOf(gs, GroupAmount) == total;
    WholeShare(total);
  }

  /** With some expenses, the expense-category percentages add up to 100. */
  lemma ExpensePercentagesSumTo100(expenses: seq<Expense>)
    requires ExpenseTotal(expenses) > 0.0
    ensures SumOf(ExpenseCategories(GroupByCategory(ExpenseItems(expenses)), ExpenseTotal(expenses)),
                  ExpenseCategoryPercentage) == 100.0
  {
    var total := ExpenseTotal(expenses);
    var gs := GroupByCategory(ExpenseItems(expenses));
    GroupAmountsAddUp(ExpenseItems(expenses));
    ExpenseItemsTotals(expenses);
    PercentagesSum(gs, total);
    ExpenseCategoriesPercentages(gs, total);
    assert SumOf(gs, GroupAmount) == total;
    WholeShare(total);
  }

  /** `incomeByCategory` as returned: the groups sorted by amount, largest
      first. */
  function IncomeByCategory(incomes: seq<Income>): (cs: seq<IncomeCategory>)
    ensures multiset(cs)
      == multiset(IncomeCategories(GroupByCategory(IncomeItems(incomes)), IncomeTotal(incomes)))
    ensures forall i, j :: 0 <= i < j < |cs| ==> cs[i].amount >= cs[j].amount
  {
    var cs := Sorting.SortBy(IncomeCategories(GroupByCategory(IncomeItems(incomes)), IncomeTotal(incomes)),
                             IncomeCategoryDescending);
    assert forall i, j :: 0 <= i < j < |cs| ==> IncomeCategoryDescending(cs[i]) <= IncomeCategoryDescending(cs[j]);
    cs
  }

  function ExpensesByCategory(expenses: seq<Expense>): (cs: seq<ExpenseCategory>)
    ensures multiset(cs)
      == multiset(ExpenseCategories(GroupByCategory(ExpenseItems(expenses)), ExpenseTotal(expenses)))
    ensures forall i, j :: 0 <= i < j < |cs| ==> cs[i].amount >= cs[j].amount
  {
    var cs := Sorting.SortBy(ExpenseCategories(GroupByCategory(ExpenseItems(expenses)), ExpenseTotal(expenses)),
                             ExpenseCategoryDescending);
    assert forall i, j :: 0 <= i < j < |cs| ==> ExpenseCategoryDescending(cs[i]) <= ExpenseCategoryDescending(cs[j]);
    cs
  }

  /** The items carry exactly the incomes' categories. */
  lemma IncomeItemsCategories(incomes: seq<Income>, c: string)
    ensures HasCategory(IncomeItems(incomes), c) <==> exists k :: 0 <= k < |incomes| && incomes[k].category == c
  {
    var items := IncomeItems(incomes);
    if HasCategory(items, c) {
      var k :| 0 <= k < |items| && items[k].category == c;
      assert incomes[k].category == c;
    }
    if exists k :: 0 <= k < |incomes| && incomes[k].category == c {
      var k :| 0 <= k < |incomes| && incomes[k].category == c;
      assert items[k].category == c;
    }
  }

  /** Each income category appears once, and the groups account for all
      income and every entry. */
  lemma IncomeGroupsSummarise(incomes: seq<Income>)
    ensures DistinctCategories(GroupByCategory(IncomeItems(incomes)))
    ensures SumOf(GroupByCategory(IncomeItems(incomes)), GroupAmount) == IncomeTotal(incomes)
    ensures SumOf(GroupByCategory(IncomeItems(incomes)), GroupCount) == |incomes| as real
    ensures forall c :: (HasGroup(GroupByCategory(IncomeItems(incomes)), c)
      <==> exists k :: 0 <= k < |incomes| && incomes[k].category == c)
    ensures CategorySums(GroupByCategory(IncomeItems(incomes)), IncomeItems(incomes))
  {
    var items := IncomeItems(incomes);
    GroupByCategorySummarises(items);
    IncomeItemsTotal(incomes);
    forall c ensures HasGroup(GroupByCategory(items), c) <==> exists k :: 0 <= k < |incomes| && incomes[k].category == c {
      IncomeItemsCategories(incomes, c);
    }
  }

  /** The expense groups account for all expenses and all deductible
      expenses; with non-negative amounts each group's deductible part lies
      within its amount; each group is flagged like its first entry. */
  lemma ExpenseGroupsSummarise(expenses: seq<Expense>)
    ensures DistinctCategories(GroupByCategory(ExpenseItems(expenses)))
    ensures SumOf(GroupByCategory(ExpenseItems(expenses)), GroupAmount) == ExpenseTotal(expenses)
    ensures SumOf(GroupByCategory(ExpenseItems(expenses)), GroupDeductible) == DeductibleTotal(expenses)
    ensures SumOf(GroupByCategory(ExpenseItems(expenses)), GroupCount) == |expenses| as real
    ensures ExpensesValid(expenses) ==> WellFormed(GroupByCategory(ExpenseItems(expenses)))
    ensures FlagsOfFirst(GroupByCategory(ExpenseItems(expenses)), ExpenseItems(expenses))
    ensures CategorySums(GroupByCategory(ExpenseItems(expenses)), ExpenseItems(expenses))
  {
    var items := ExpenseItems(expenses);
    GroupByCategorySummarises(items);
    ExpenseItemsTotals(expenses);
    if ExpensesValid(expenses) {
      assert NonNegative(items) by {
        forall k | 0 <= k < |items| ensures items[k].amount >= 0.0 {
          assert items[k] == ExpenseItem(expenses[k]);
        }
      }
    }
  }

  /** Each row of the income breakdown carries the sum and the number of
      the incomes of its own category. */
  lemma IncomeByCategorySums(incomes: seq<Income>)
    ensures forall i :: 0 <= i < |IncomeByCategory(incomes)| ==>
      IncomeByCategory(incomes)[i].amount
        == SumOf(InCategory(IncomeItems(incomes), IncomeByCategory(incomes)[i].category), ItemAmount)
      && IncomeByCategory(incomes)[i].count
        == |InCategory(IncomeItems(incomes), IncomeByCategory(incomes)[i].category)|
  {
    var items := IncomeItems(incomes);
    var gs := GroupByCategory(items);
    var cs := IncomeByCategory(incomes);
    var unsorted := IncomeCategories(gs, IncomeTotal(incomes));
    GroupByCategorySummarises(items);
    forall i | 0 <= i < |cs|
      ensures cs[i].amount == SumOf(InCategory(items, cs[i].category), ItemAmount)
      ensures cs[i].count == |InCategory(items, cs[i].category)|
    {
      assert cs[i] in multiset(unsorted);
      var k :| 0 <= k < |unsorted| && unsorted[k] == cs[i];
      assert GroupSums(gs[k], items);
    }
  }

  /** Each row of the expense breakdown carries the sum, the number and the
      deductible part of the expenses of its own category. */
  lemma ExpensesByCategorySums(expenses: seq<Expense>)
    ensures forall i :: 0 <= i < |ExpensesByCategory(expenses)| ==>
      ExpensesByCategory(expenses)[i].amount
        == SumOf(InCategory(ExpenseItems(expenses), ExpensesByCategory(expenses)[i].category), ItemAmount)
      && ExpensesByCategory(expenses)[i].count
        == |InCategory(ExpenseItems(expenses), ExpensesByCategory(expenses)[i].category)|
      && ExpensesByCategory(expenses)[i].deductibleAmount
        == SumOf(InCategory(ExpenseItems(expenses), ExpensesByCategory(expenses)[i].category), DeductibleAmountOf)
  {
    var items := ExpenseItems(expenses);
    var gs := GroupByCategory(items);
    var cs := ExpensesByCategory(expenses);
    var unsorted := ExpenseCategories(gs, ExpenseTotal(expenses));
    GroupByCategorySummarises(items);
    forall i | 0 <= i < |cs|
      ensures cs[i].amount == SumOf(InCategory(items, cs[i].category), ItemAmount)
      ensures cs[i].count == |InCategory(items, cs[i].category)|
      ensures cs[i].deductibleAmount == SumOf(InCategory(items, cs[i].category), DeductibleAmountOf)
    {
      assert cs[i] in multiset(unsorted);
      var k :| 0 <= k < |unsorted| && unsorted[k] == cs[i];
      assert GroupSums(gs[k], items);
    }
  }

  // ---------------------------------------------------------------------
  // The report

  /** One row of the report's monthly breakdown. */
  datatype MonthRow = MonthRow(monthNumber: int, income: real, expenses: real, netIncome: real)

  function MonthlyBreakdown(incomes: seq<Income>, expenses: seq<Expense>, year: int): (rows: seq<MonthRow>)
    ensures |rows| == 12
    ensures forall i :: 0 <= i < 12 ==> (rows[i].monthNumber == i + 1
      && rows[i].income == MonthIncome(incomes, year, i + 1)
      && rows[i].expenses == MonthExpenses(expenses, year, i + 1)
      && rows[i].netIncome == rows[i].income - rows[i].expenses)
  {
    var ms := MonthlyTotals(incomes, expenses, year);
    seq(12, i requires 0 <= i < 12 => MonthRow(ms[i].monthNumber, ms[i].income, ms[i].expenses,
                                               ms[i].income - ms[i].expenses))
  }

  datatype Summary = Summary(
    totalIncome: real,
    totalExpenses: real,
    deductibleExpenses: real,
    taxableIncome: real,
    estimatedTax: real,
    netIncome: real,
    effectiveRate: real)

  datatype Details = Details(incomeEntries: nat, expenseEntries: nat, avgMonthlyIncome: real, avgMonthlyExpenses: real)

  datatype Report = Report(
    year: int,
    summary: Summary,
    incomeByCategory: seq<IncomeCategory>,
    expensesByCategory: seq<ExpenseCategory>,
    monthlyBreakdown: seq<MonthRow>,
    quarterlyPayments: seq<Payment>,
    deadlines: seq<TaxEstimate.Deadline>,
    details: Details)

  /** `generateAnnualReport` over the year's records. */
  function GenerateAnnualReport(year: int, incomes: seq<Income>, expenses: seq<Expense>): (r: Report)
    ensures r.year == year
    ensures r.summary.totalIncome == IncomeTotal(incomes)
    ensures r.summary.totalExpenses == ExpenseTotal(expenses)
    ensures r.summary.deductibleExpenses == DeductibleTotal(expenses)
    ensures r.summary.taxableIncome == TaxEstimate.TaxableIncome(r.summary.totalIncome, r.summary.deductibleExpenses)
    ensures r.summary.estimatedTax == ReportEstimatedTax(r.summary.totalIncome, r.summary.deductibleExpenses)
    ensures r.summary.netIncome == r.summary.totalIncome - r.summary.totalExpenses
    ensures r.summary.effectiveRate == TaxEstimate.EffectiveRate(r.summary.totalIncome, r.summary.estimatedTax)
    ensures r.summary.totalIncome == 0.0 ==> r.summary.effectiveRate == 0.0
    ensures r.incomeByCategory == IncomeByCategory(incomes)
    ensures r.expensesByCategory == ExpensesByCategory(expenses)
    ensures r.quarterlyPayments == QuarterlyPayments(year, r.summary.estimatedTax)
    ensures r.deadlines == ReportDeadlines(year)
    ensures r.monthlyBreakdown == MonthlyBreakdown(incomes, expenses, year)
    ensures r.details.incomeEntries == |incomes| && r.details.expenseEntries == |expenses|
    ensures 12.0 * r.details.avgMonthlyIncome == r.summary.totalIncome
    ensures 12.0 * r.details.avgMonthlyExpenses == r.summary.totalExpenses
  {
    var totalIncome := IncomeTotal(incomes);
    var totalExpenses := ExpenseTotal(expenses);
    var deductible := DeductibleTotal(expenses);
    var estimated := ReportEstimatedTax(totalIncome, deductible);
    Report(
      year,
      Summary(totalIncome, totalExpenses, deductible, TaxEstimate.TaxableIncome(totalIncome, deductible),
              estimated, totalIncome - totalExpenses, TaxEstimate.EffectiveRate(totalIncome, estimated)),
      IncomeByCategory(incomes),
      ExpensesByCategory(expenses),
      MonthlyBreakdown(incomes, expenses, year),
      QuarterlyPayments(year, estimated),
      ReportDeadlines(year),
      Details(|incomes|, |expenses|, totalIncome / 12.0, totalExpenses / 12.0))
  }

  // ---------------------------------------------------------------------
  // Year-over-year summary

  /** Percentage change from `prev` to `cur`, 0 unless `prev` is positive. */
  function Change(cur: real, prev: real): (c: real)
    ensures prev <= 0.0 ==> c == 0.0
    ensures prev > 0.0 ==> c * prev == (cur - prev) * 100.0
  {
    if prev > 0.0 then ((cur - prev) / prev) * 100.0 else 0.0
  }

  /** The sign of a change follows the direction of the figures, and a
      non-negative figure never falls by more than 100%. */
  lemma ChangeDirection(cur: real, prev: real)
    requires prev > 0.0
    ensures Change(cur, prev) > 0.0 <==> cur > prev
    ensures Change(cur, prev) == 0.0 <==> cur == prev
    ensures cur >= 0.0 ==> Change(cur, prev) >= -100.0
  {
    var c := Change(cur, prev);
    assert c * prev == (cur - prev) * 100.0;
    if c > 0.0 {
      assert c * prev > 0.0;
    }
    if c < 0.0 {
      assert c * prev < 0.0;
    }
  }

  datatype YearFigures = YearFigures(
    totalIncome: real, totalExpenses: real, deductibleExpenses: real, netIncome: real, entryCount: nat)

  datatype Changes = Changes(income: real, expenses: real, deductible: real, netIncome: real)

  datatype SummaryRule = IncomeDropped | ExpensesRose | DeductionsMissing

  const SUMMARY_RULES: seq<SummaryRule> := [IncomeDropped, ExpensesRose, DeductionsMissing]

  function SummaryRank(r: SummaryRule): int {
    match r
    case IncomeDropped => 0
    case ExpensesRose => 1
    case DeductionsMissing => 2
  }

  predicate SummaryFires(r: SummaryRule, ch: Changes, current: YearFigures) {
    match r
    case IncomeDropped => ch.income < -10.0
    case ExpensesRose => ch.expenses > 20.0
    case DeductionsMissing => current.deductibleExpenses < current.totalIncome * 0.15
  }

  function SummaryText(r: SummaryRule): string {
    match r
    case IncomeDropped => "Income has decreased significantly - consider diversifying income sources"
    case ExpensesRose => "Expenses have increased substantially - review spending categories"
    case DeductionsMissing => "You may be missing tax deductions - track more business expenses"
  }

  datatype ReportSummary = ReportSummary(
    current: YearFigures, previous: YearFigures, changes: Changes, recommendations: seq<SummaryRule>)

  function Figures(incomes: seq<Income>, expenses: seq<Expense>): (f: YearFigures)
    ensures f.netIncome == f.totalIncome - f.totalExpenses
    ensures f.entryCount == |incomes| + |expenses|
  {
    var i := IncomeTotal(incomes);
    var e := ExpenseTotal(expenses);
    YearFigures(i, e, DeductibleTotal(expenses), i - e, |incomes| + |expenses|)
  }

  /** The summary rules that fire on the changes and this year's figures,
      in table order. */
  function FiredSummaryRules(ch: Changes, current: YearFigures): (fired: seq<SummaryRule>)
    ensures forall r :: r in fired <==> SummaryFires(r, ch, current)
    ensures Rules.StrictlyRanked(fired, SummaryRank)
    ensures |fired| <= 3
  {
    assert forall r :: r in SUMMARY_RULES by {
      forall r ensures r in SUMMARY_RULES {
        assert SUMMARY_RULES[SummaryRank(r)] == r;
      }
    }
    Rules.FiredKeepsOrder(SUMMARY_RULES, r => SummaryFires(r, ch, current), SummaryRank);
    Rules.Fired(SUMMARY_RULES, r => SummaryFires(r, ch, current))
  }

  /** `getReportSummary` over this year's and last year's records. The
      advice lists, in table order, exactly the rules that fire; the net
      change is 0 unless last year's net income was positive. */
  function GetReportSummary(curIncomes: seq<Income>, curExpenses: seq<Expense>,
                            prevIncomes: seq<Income>, prevExpenses: seq<Expense>): (s: ReportSummary)
    ensures s.current == Figures(curIncomes, curExpenses) && s.previous == Figures(prevIncomes, prevExpenses)
    ensures s.changes.income == Change(s.current.totalIncome, s.previous.totalIncome)
    ensures s.changes.expenses == Change(s.current.totalExpenses, s.previous.totalExpenses)
    ensures s.changes.deductible == Change(s.current.deductibleExpenses, s.previous.deductibleExpenses)
    ensures s.previous.netIncome <= 0.0 ==> s.changes.netIncome == 0.0
    ensures s.changes.netIncome == Change(s.current.netIncome, s.previous.netIncome)
    ensures forall r :: r in s.recommendations <==> SummaryFires(r, s.changes, s.current)
    ensures Rules.StrictlyRanked(s.recommendations, SummaryRank)
    ensures |s.recommendations| <= 3
  {
    var cur := Figures(curIncomes, curExpenses);
    var prev := Figures(prevIncomes, prevExpenses);
    var ch := Changes(
      Change(cur.totalIncome, prev.totalIncome),
      Change(cur.totalExpenses, prev.totalExpenses),
      Change(cur.deductibleExpenses, prev.deductibleExpenses),
      Change(cur.netIncome, prev.netIncome));
    ReportSummary(cur, prev, ch, FiredSummaryRules(ch, cur))
  }
}

=== FILE: report_csv.dfy ===
/** The CSV branch of the export handler: an income section and an expense
    section, each a header line followed by one line per record, where the
    expense header is written only when the text built so far has no header
    yet. The date text and the number text of a record come from library
    formatting and are given as functions. */
module ReportExport {
  import opened Common
  import opened Records

  /** The text the handler looks for before writing the expense header. */
  const HEADER_MARK: string := "Type,Date"
  const SHARED_COLUMNS: string := ",Description,Amount,Category"
  const INCOME_HEADER: string := HEADER_MARK + SHARED_COLUMNS + ",Source,Platform,Taxable"
  const EXPENSE_HEADER: string := HEADER_MARK + SHARED_COLUMNS + ",Vendor,Payment Method,Deductible"

  /** How a date (the part of its ISO text before 'T') and an amount are
      written. */
  datatype Formats = Formats(dateText: Date -> string, amountText: real -> string)

  function BoolText(b: bool): string {
    if b then "true" else "false"
  }

  /** `value || ''` for an optional text field. */
  function OrEmpty(o: Option<string>): string {
    if o.Some? then o.value else ""
  }

  function IncomeRow(f: Formats, e: Income): string {
    "Income," + f.dateText(e.date) + "," + e.description + "," + f.amountText(e.amount) + ","
    + e.category + "," + e.source + "," + OrEmpty(e.platform) + "," + BoolText(e.taxable)
  }

  function ExpenseRow(f: Formats, e: Expense): string {
    "Expense," + f.dateText(e.date) + "," + e.description + "," + f.amountText(e.amount) + ","
    + e.category + "," + OrEmpty(e.vendor) + "," + e.paymentMethod + "," + BoolText(e.isDeductible)
  }

  function IncomeRows(f: Formats, xs: seq<Income>): (rows: seq<string>)
    ensures |rows| == |xs| && forall k :: 0 <= k < |xs| ==> rows[k] == IncomeRow(f, xs[k])
  {
    seq(|xs|, k requires 0 <= k < |xs| => IncomeRow(f, xs[k]))
  }

  function ExpenseRows(f: Formats, xs: seq<Expense>): (rows: seq<string>)
    ensures |rows| == |xs| && forall k :: 0 <= k < |xs| ==> rows[k] == ExpenseRow(f, xs[k])
  {
    seq(|xs|, k requires 0 <= k < |xs| => ExpenseRow(f, xs[k]))
  }

  /** Each line followed by a newline, concatenated. */
  function Lines(ls: seq<string>): string
    decreases |ls|
  {
    if |ls| == 0 then "" else ls[0] + "\n" + Lines(ls[1..])
  }

  /** The `type` parameter selects the sections. */
  predicate IncludesIncome(kind: string) { kind == "all" || kind == "income" }
  predicate IncludesExpenses(kind: string) { kind == "all" || kind == "expenses" }

  /** The CSV text as the handler builds it, section by section. */
  function ExportCsv(f: Formats, kind: string, incomes: seq<Income>, expenses: seq<Expense>): string {
    var afterIncome := if IncludesIncome(kind) then INCOME_HEADER + "\n" + Lines(IncomeRows(f, incomes)) else "";
    if IncludesExpenses(kind) then
      var withHeader := if !Contains(afterIncome, HEADER_MARK) then afterIncome + EXPENSE_HEADER + "\n" else afterIncome;
      withHeader + Lines(ExpenseRows(f, expenses))
    else afterIncome
  }

  /** `metadata.totalRecords`: the records of the selected sections. */
  function TotalRecords(kind: string, incomes: seq<Income>, expenses: seq<Expense>): (n: nat)
    ensures n <= |incomes| + |expenses|
    ensures kind == "all" ==> n == |incomes| + |expenses|
  {
    (if IncludesIncome(kind) then |incomes| else 0) + (if IncludesExpenses(kind) then |expenses| else 0)
  }

  // ---------------------------------------------------------------------
  // Line structure

  lemma {:induction false} LinesAppend(a: seq<string>, b: seq<string>)
    ensures Lines(a + b) == Lines(a) + Lines(b)
    decreases |a|
  {
    if |a| == 0 {
      assert a + b == b;
    } else {
      assert (a + b)[1..] == a[1..] + b;
      LinesAppend(a[1..], b);
    }
  }

  lemma {:induction false} LinesIsJoin(ls: seq<string>)
    ensures Lines(ls) == Join(ls + [""], '\n')
    decreases |ls|
  {
    if |ls| > 0 {
      var parts := ls + [""];
      assert parts[0] == ls[0] && parts[1..] == ls[1..] + [""];
      LinesIsJoin(ls[1..]);
    }
  }

  predicate NoNewline(s: string) { '\n' !in s }

  /** No field of a record holds a line break. */
  predicate IncomeClean(f: Formats, e: Income) {
    NoNewline(f.dateText(e.date)) && NoNewline(e.description) && NoNewline(f.amountText(e.amount))
    && NoNewline(e.category) && NoNewline(e.source) && NoNewline(OrEmpty(e.platform))
  }

  predicate ExpenseClean(f: Formats, e: Expense) {
    NoNewline(f.dateText(e.date)) && NoNewline(e.description) && NoNewline(f.amountText(e.amount))
    && NoNewline(e.category) && NoNewline(OrEmpty(e.vendor)) && NoNewline(e.paymentMethod)
  }

  lemma NoNewlineConcat(a: string, b: string)
    requires NoNewline(a) && NoNewline(b)
    ensures NoNewline(a + b)
  {
  }

  lemma IncomeRowClean(f: Formats, e: Income)
    requires IncomeClean(f, e)
    ensures NoNewline(IncomeRow(f, e))
  {
    var s := "Income," + f.dateText(e.date);
    NoNewlineConcat("Income,", f.dateText(e.date));
    NoNewlineConcat(s, ",");
    s := s + ",";
    NoNewlineConcat(s, e.description);
    s := s + e.description;
    NoNewlineConcat(s, ",");
    s := s + ",";
    NoNewlineConcat(s, f.amountText(e.amount));
    s := s + f.amountText(e.amount);
    NoNewlineConcat(s, ",");
    s := s + ",";
    NoNewlineConcat(s, e.category);
    s := s + e.category;
    NoNewlineConcat(s, ",");
    s := s + ",";
    NoNewlineConcat(s, e.source);
    s := s + e.source;
    NoNewlineConcat(s, ",");
    s := s + ",";
    NoNewlineConcat(s, OrEmpty(e.platform));
    s := s + OrEmpty(e.platform);
    NoNewlineConcat(s, ",");
    s := s + ",";
    NoNewlineConcat(s, BoolText(e.taxable));
  }

  lemma ExpenseRowClean(f: Formats, e: Expense)
    requires ExpenseClean(f, e)
    ensures NoNewline(ExpenseRow(f, e))
  {
    var s := "Expense," + f.dateText(e.date);
    NoNewlineConcat("Expense,", f.dateText(e.date));
    NoNewlineConcat(s, ",");
    s := s + ",";
    NoNewlineConcat(s, e.description);
    s := s + e.description;
    NoNewlineConcat(s, ",");
    s := s + ",";
    NoNewlineConcat(s, f.amountText(e.amount));
    s := s + f.amountText(e.amount);
    NoNewlineConcat(s, ",");
    s := s + ",";
    NoNewlineConcat(s, e.category);
    s := s + e.category;
    NoNewlineConcat(s, ",");
    s := s + ",";
    NoNewlineConcat(s, OrEmpty(e.vendor));
    s := s + OrEmpty(e.vendor);
    NoNewlineConcat(s, ",");
    s := s + ",";
    NoNewlineConcat(s, e.paymentMethod);
    s := s + e.paymentMethod;
    NoNewlineConcat(s, ",");
    s := s + ",";
    NoNewlineConcat(s, BoolText(e.isDeductible));
  }

  lemma HeadersClean()
    ensures NoNewline(INCOME_HEADER) && NoNewline(EXPENSE_HEADER)
    ensures INCOME_HEADER[..|HEADER_MARK|] == HEADER_MARK
  {
    IncomeHeaderClean();
    ExpenseHeaderClean();
    assert INCOME_HEADER == HEADER_MARK + (SHARED_COLUMNS + ",Source,Platform,Taxable");
  }

  lemma SharedPartClean()
    ensures NoNewline(HEADER_MARK + SHARED_COLUMNS)
  {
    assert NoNewline(HEADER_MARK);
    assert NoNewline(SHARED_COLUMNS);
    NoNewlineConcat(HEADER_MARK, SHARED_COLUMNS);
  }

  lemma IncomeHeaderClean()
    ensures NoNewline(INCOME_HEADER)
  {
    SharedPartClean();
    assert NoNewline(",Source,Platform,Taxable");
    NoNewlineConcat(HEADER_MARK + SHARED_COLUMNS, ",Source,Platform,Taxable");
  }

  lemma ExpenseHeaderClean()
    ensures NoNewline(EXPENSE_HEADER)
  {
    SharedPartClean();
    assert NoNewline(",Vendor,Payment Method,Deductible");
    NoNewlineConcat(HEADER_MARK + SHARED_COLUMNS, ",Vendor,Payment Method,Deductible");
  }

  /** The lines the export should consist of: one header, the header of the
      first section written, then one line per exported record. */
  function ExpectedLines(f: Formats, kind: string, incomes: seq<Income>, expenses: seq<Expense>): seq<string> {
    [if IncludesIncome(kind) then INCOME_HEADER else EXPENSE_HEADER]
    + (if IncludesIncome(kind) then IncomeRows(f, incomes) else [])
    + (if IncludesExpenses(kind) then ExpenseRows(f, expenses) else [])
  }

  /** The export is exactly one header line followed by one line per
      exported record, every line ending in a newline; with no section
      selected it is empty. */
  lemma ExportHasOneHeader(f: Formats, kind: string, incomes: seq<Income>, expenses: seq<Expense>)
    ensures !IncludesIncome(kind) && !IncludesExpenses(kind) ==> ExportCsv(f, kind, incomes, expenses) == ""
    ensures IncludesIncome(kind) || IncludesExpenses(kind) ==>
      ExportCsv(f, kind, incomes, expenses) == Lines(ExpectedLines(f, kind, incomes, expenses))
  {
    var ir := IncomeRows(f, incomes);
    var er := ExpenseRows(f, expenses);
    var afterIncome := if IncludesIncome(kind) then INCOME_HEADER + "\n" + Lines(ir) else "";
    if IncludesIncome(kind) {
      HeadersClean();
      ContainsPrefix(afterIncome, HEADER_MARK);
      assert afterIncome == Lines([INCOME_HEADER] + ir) by {
        assert ([INCOME_HEADER] + ir)[1..] == ir;
      }
      if IncludesExpenses(kind) {
        LinesAppend([INCOME_HEADER] + ir, er);
      } else {
        assert ExpectedLines(f, kind, incomes, expenses) == [INCOME_HEADER] + ir;
      }
    } else if IncludesExpenses(kind) {
      NotContainedInEmpty(HEADER_MARK);
      assert ExpectedLines(f, kind, incomes, expenses) == [EXPENSE_HEADER] + er;
      assert ([EXPENSE_HEADER] + er)[1..] == er;
    }
  }

  /** Splitting the export at line breaks gives the header, the record lines
      and the empty text after the final newline, provided no field holds a
      line break. */
  lemma ExportLines(f: Formats, kind: string, incomes: seq<Income>, expenses: seq<Expense>)
    requires IncludesIncome(kind) || IncludesExpenses(kind)
    requires forall k :: 0 <= k < |incomes| ==> IncomeClean(f, incomes[k])
    requires forall k :: 0 <= k < |expenses| ==> ExpenseClean(f, expenses[k])
    ensures Split(ExportCsv(f, kind, incomes, expenses), '\n') == ExpectedLines(f, kind, incomes, expenses) + [""]
    ensures |Split(ExportCsv(f, kind, incomes, expenses), '\n')| == TotalRecords(kind, incomes, expenses) + 2
  {
    var ls := ExpectedLines(f, kind, incomes, expenses);
    ExportHasOneHeader(f, kind, incomes, expenses);
    LinesIsJoin(ls);
    HeadersClean();
    var parts := ls + [""];
    forall k | 0 <= k < |parts| ensures '\n' !in parts[k] {
      if k > 0 && k < |ls| {
        var ni := if IncludesIncome(kind) then |incomes| else 0;
        if k - 1 < ni {
          IncomeRowClean(f, incomes[k - 1]);
        } else {
          ExpenseRowClean(f, expenses[k - 1 - ni]);
        }
      }
    }
    SplitJoin(parts, '\n');
  }
}

=== FILE: rules.dfy ===
/** Ordered rule tables. The application's recommendation lists are written
    as a fixed sequence of `if (condition) list.push(message)` steps; here a
    list of rules is a sequence, and the rules that fire are the ones whose
    condition holds, kept in table order. */
module Rules {

  /** The rules of `rules` whose condition holds, in table order. */
  function Fired<R(==,!new)>(rules: seq<R>, fires: R -> bool): (fired: seq<R>)
    ensures |fired| <= |rules|
    ensures forall x :: x in fired <==> x in rules && fires(x)
    decreases |rules|
  {
    if |rules| == 0 then []
    else (if fires(rules[0]) then [rules[0]] else []) + Fired(rules[1..], fires)
  }

  /** Strictly increasing in `rank` along the sequence. */
  predicate StrictlyRanked<R>(s: seq<R>, rank: R -> int) {
    forall i, j :: 0 <= i < j < |s| ==> rank(s[i]) < rank(s[j])
  }

  /** Filtering never reorders: if the table is strictly increasing in
      `rank`, so is the list of fired rules. */
  lemma {:induction false} FiredKeepsOrder<R(!new)>(rules: seq<R>, fires: R -> bool, rank: R -> int)
    requires StrictlyRanked(rules, rank)
    ensures StrictlyRanked(Fired(rules, fires), rank)
    decreases |rules|
  {
    if |rules| > 0 {
      var head := if fires(rules[0]) then [rules[0]] else [];
      var tail := Fired(rules[1..], fires);
      var fired := Fired(rules, fires);
      assert fired == head + tail;
      assert StrictlyRanked(rules[1..], rank) by {
        forall i, j | 0 <= i < j < |rules[1..]| ensures rank(rules[1..][i]) < rank(rules[1..][j]) {
          assert rules[1..][i] == rules[i + 1] && rules[1..][j] == rules[j + 1];
        }
      }
      FiredKeepsOrder(rules[1..], fires, rank);
      if fires(rules[0]) {
        assert forall j :: 0 <= j < |tail| ==> rank(rules[0]) < rank(tail[j]) by {
          forall j | 0 <= j < |tail| ensures rank(rules[0]) < rank(tail[j]) {
            assert tail[j] in rules[1..];
            var k :| 0 <= k < |rules[1..]| && rules[1..][k] == tail[j];
            assert rules[k + 1] == tail[j];
          }
        }
        forall i, j | 0 <= i < j < |fired| ensures rank(fired[i]) < rank(fired[j]) {
          assert fired[j] == tail[j - 1];
          if i > 0 {
            assert fired[i] == tail[i - 1];
          }
        }
      } else {
        assert fired == tail;
      }
    }
  }

  /** A strictly ranked sequence is fixed by its members: two of them with
      the same members are equal. */
  lemma {:induction false} RankedUnique<R(!new)>(s: seq<R>, t: seq<R>, rank: R -> int)
    requires StrictlyRanked(s, rank) && StrictlyRanked(t, rank)
    requires forall x :: x in s <==> x in t
    ensures s == t
    decreases |s|
  {
    if |t| > 0 {
      assert t[0] in s;
    }
    if |s| > 0 {
      assert s[0] in t;
    }
    if |s| == 0 {
    } else {
      assert s[0] in t;
      var k :| 0 <= k < |t| && t[k] == s[0];
      assert t[0] in s;
      var m :| 0 <= m < |s| && s[m] == t[0];
      assert k == 0;
      assert StrictlyRanked(s[1..], rank) by {
        forall i, j | 0 <= i < j < |s[1..]| ensures rank(s[1..][i]) < rank(s[1..][j]) {
          assert s[1..][i] == s[i + 1] && s[1..][j] == s[j + 1];
        }
      }
      assert StrictlyRanked(t[1..], rank) by {
        forall i, j | 0 <= i < j < |t[1..]| ensures rank(t[1..][i]) < rank(t[1..][j]) {
          assert t[1..][i] == t[i + 1] && t[1..][j] == t[j + 1];
        }
      }
      forall x ensures x in s[1..] <==> x in t[1..] {
        if x in s[1..] {
          var i :| 0 <= i < |s[1..]| && s[1..][i] == x;
          assert rank(s[0]) < rank(s[i + 1]);
          assert x in t;
          var j :| 0 <= j < |t| && t[j] == x;
          assert j != 0;
          assert t[1..][j - 1] == x;
        }
        if x in t[1..] {
          var j :| 0 <= j < |t[1..]| && t[1..][j] == x;
          assert rank(t[0]) < rank(t[j + 1]);
          assert x in s;
          var i :| 0 <= i < |s| && s[i] == x;
          assert i != 0;
          assert s[1..][i - 1] == x;
        }
      }
      RankedUnique(s[1..], t[1..], rank);
      assert s == [s[0]] + s[1..] && t == [t[0]] + t[1..];
    }
  }
}

=== FILE: sorting.dfy ===
/** A stable sort by a numeric key, standing for `Array.prototype.sort` with
    a subtracting comparator (`(a, b) => key(a) - key(b)`); a descending sort
    is the same sort on the negated key. */
module Sorting {

  predicate SortedBy<T>(s: seq<T>, key: T -> real) {
    forall i, j :: 0 <= i < j < |s| ==> key(s[i]) <= key(s[j])
  }

  /** Places `x` in front of the first element whose key is not smaller. */
  function Insert<T>(x: T, s: seq<T>, key: T -> real): seq<T>
    decreases |s|
  {
    if |s| == 0 then [x]
    else if key(x) <= key(s[0]) then [x] + s
    else [s[0]] + Insert(x, s[1..], key)
  }

  lemma {:induction false} InsertKeepsElements<T>(x: T, s: seq<T>, key: T -> real)
    ensures multiset(Insert(x, s, key)) == multiset(s) + multiset{x}
    decreases |s|
  {
    if |s| > 0 && key(x) > key(s[0]) {
      InsertKeepsElements(x, s[1..], key);
      assert s == [s[0]] + s[1..];
    }
  }

  /** A bound below `x` and below every element of `s` stays below every
      element after the insertion. */
  lemma {:induction false} InsertAbove<T>(x: T, s: seq<T>, key: T -> real, b: real)
    requires forall k :: 0 <= k < |s| ==> b <= key(s[k])
    requires b <= key(x)
    ensures forall k :: 0 <= k < |Insert(x, s, key)| ==> b <= key(Insert(x, s, key)[k])
    decreases |s|
  {
    if |s| > 0 && key(x) > key(s[0]) {
      var rest := Insert(x, s[1..], key);
      InsertAbove(x, s[1..], key, b);
      var r := [s[0]] + rest;
      forall k | 0 <= k < |r| ensures b <= key(r[k]) {
        if k > 0 {
          assert r[k] == rest[k - 1];
        }
      }
    }
  }

  lemma {:induction false} InsertKeepsSorted<T>(x: T, s: seq<T>, key: T -> real)
    requires SortedBy(s, key)
    ensures SortedBy(Insert(x, s, key), key)
    decreases |s|
  {
    if |s| > 0 && key(x) > key(s[0]) {
      var rest := Insert(x, s[1..], key);
      assert SortedBy(s[1..], key) by {
        forall i, j | 0 <= i < j < |s| - 1 ensures key(s[1..][i]) <= key(s[1..][j]) {
          assert s[1..][i] == s[i + 1] && s[1..][j] == s[j + 1];
        }
      }
      InsertKeepsSorted(x, s[1..], key);
      assert forall k :: 0 <= k < |s[1..]| ==> key(s[0]) <= key(s[1..][k]) by {
        forall k | 0 <= k < |s[1..]| ensures key(s[0]) <= key(s[1..][k]) {
          assert s[1..][k] == s[k + 1];
        }
      }
      InsertAbove(x, s[1..], key, key(s[0]));
      var r := [s[0]] + rest;
      forall i, j | 0 <= i < j < |r| ensures key(r[i]) <= key(r[j]) {
        if i == 0 {
          assert r[j] == rest[j - 1];
        } else {
          assert r[i] == rest[i - 1] && r[j] == rest[j - 1];
        }
      }
    }
  }

  /** The elements whose key is `v`, in their order. */
  function WithKey<T>(s: seq<T>, key: T -> real, v: real): seq<T>
    decreases |s|
  {
    if |s| == 0 then [] else (if key(s[0]) == v then [s[0]] else []) + WithKey(s[1..], key, v)
  }

  /** Inserting `x` puts it in front of every element with the same key. */
  lemma {:induction false} InsertWithKey<T>(x: T, s: seq<T>, key: T -> real, v: real)
    ensures WithKey(Insert(x, s, key), key, v) == (if key(x) == v then [x] else []) + WithKey(s, key, v)
    decreases |s|
  {
    if |s| == 0 {
      assert Insert(x, s, key) == [x];
      assert [x][1..] == [];
    } else if key(x) <= key(s[0]) {
      assert ([x] + s)[1..] == s;
    } else {
      var rest := Insert(x, s[1..], key);
      var tail := WithKey(s[1..], key, v);
      assert Insert(x, s, key) == [s[0]] + rest;
      assert ([s[0]] + rest)[1..] == rest;
      InsertWithKey(x, s[1..], key, v);
      if key(s[0]) == v {
        assert key(x) != v;
        assert WithKey(rest, key, v) == tail;
        assert WithKey(Insert(x, s, key), key, v) == [s[0]] + tail;
        assert WithKey(s, key, v) == [s[0]] + tail;
      } else {
        assert WithKey(Insert(x, s, key), key, v) == WithKey(rest, key, v);
        assert WithKey(s, key, v) == tail;
      }
    }
  }

  /** Sorted in ascending key order, a permutation of the input, and stable:
      the elements of any one key keep their input order. */
  function SortBy<T>(xs: seq<T>, key: T -> real): (r: seq<T>)
    ensures multiset(r) == multiset(xs)
    ensures SortedBy(r, key)
    ensures forall v :: WithKey(r, key, v) == WithKey(xs, key, v)
    decreases |xs|
  {
    if |xs| == 0 then []
    else
      var rest := SortBy(xs[1..], key);
      InsertKeepsElements(xs[0], rest, key);
      InsertKeepsSorted(xs[0], rest, key);
      assert forall v :: WithKey(Insert(xs[0], rest, key), key, v) == WithKey(xs, key, v) by {
        forall v ensures WithKey(Insert(xs[0], rest, key), key, v) == WithKey(xs, key, v) {
          InsertWithKey(xs[0], rest, key, v);
        }
      }
      assert xs == [xs[0]] + xs[1..];
      Insert(xs[0], rest, key)
  }

  /** Keys strictly increase along the sequence. */
  predicate StrictlySortedBy<T>(s: seq<T>, key: T -> real) {
    forall i, j :: 0 <= i < j < |s| ==> key(s[i]) < key(s[j])
  }

  /** The head of a sorted sequence has the least key. */
  lemma SortedHeadLeast<T>(r: seq<T>, key: T -> real, x: T)
    requires SortedBy(r, key) && x in r
    ensures key(r[0]) <= key(x)
  {
    var m :| 0 <= m < |r| && r[m] == x;
    if m > 0 {
      assert key(r[0]) <= key(r[m]);
    }
  }

  /** In a strictly sorted sequence only the head has the head's key. */
  lemma StrictHeadUnique<T>(e: seq<T>, key: T -> real, x: T)
    requires StrictlySortedBy(e, key) && x in e && key(x) <= key(e[0])
    ensures x == e[0]
  {
    var k :| 0 <= k < |e| && e[k] == x;
  }

  lemma TailsSorted<T>(r: seq<T>, e: seq<T>, key: T -> real)
    requires |r| > 0 && |e| > 0
    requires SortedBy(r, key) && StrictlySortedBy(e, key)
    ensures SortedBy(r[1..], key) && StrictlySortedBy(e[1..], key)
  {
    forall i, j | 0 <= i < j < |r| - 1 ensures key(r[1..][i]) <= key(r[1..][j]) {
      assert r[1..][i] == r[i + 1] && r[1..][j] == r[j + 1];
    }
    forall i, j | 0 <= i < j < |e| - 1 ensures key(e[1..][i]) < key(e[1..][j]) {
      assert e[1..][i] == e[i + 1] && e[1..][j] == e[j + 1];
    }
  }

  /** When the keys are all different there is only one sorted order: a
      sorted permutation of a strictly sorted sequence is that sequence. */
  lemma {:induction false} SortedPermutationUnique<T>(r: seq<T>, e: seq<T>, key: T -> real)
    requires SortedBy(r, key) && StrictlySortedBy(e, key)
    requires multiset(r) == multiset(e)
    ensures r == e
    decreases |r|
  {
    assert |r| == |multiset(r)| == |multiset(e)| == |e|;
    if |r| > 0 {
      assert r[0] in multiset(r) && e[0] in multiset(e);
      SortedHeadLeast(r, key, e[0]);
      StrictHeadUnique(e, key, r[0]);
      assert r == [r[0]] + r[1..] && e == [e[0]] + e[1..];
      assert multiset(r[1..]) == multiset(r) - multiset{r[0]};
      assert multiset(e[1..]) == multiset(e) - multiset{e[0]};
      TailsSorted(r, e, key);
      SortedPermutationUnique(r[1..], e[1..], key);
    }
  }

  /** A prefix holds no more copies of any element than the whole. */
  lemma PrefixWithin<T>(s: seq<T>, n: nat)
    requires n <= |s|
    ensures multiset(s[..n]) <= multiset(s)
  {
    assert s == s[..n] + s[n..];
  }

  /** The first `n` elements of a sorted permutation of `xs`: sorted, drawn
      from `xs`, and no later than any element of `xs` they leave out. */
  lemma SortedPrefix<T>(xs: seq<T>, s: seq<T>, key: T -> real, n: nat)
    requires multiset(s) == multiset(xs) && SortedBy(s, key) && n <= |xs|
    ensures n <= |s|
    ensures multiset(s[..n]) <= multiset(xs)
    ensures forall e :: e in s[..n] ==> e in xs
    ensures forall i, j :: 0 <= i < j < n ==> key(s[..n][i]) <= key(s[..n][j])
    ensures forall e :: e in xs && e !in s[..n] ==> forall k :: 0 <= k < n ==> key(s[k]) <= key(e)
  {
    assert |s| == |xs| by {
      assert |multiset(s)| == |multiset(xs)|;
    }
    PrefixWithin(s, n);
    forall e | e in s[..n] ensures e in xs {
      assert e in multiset(s[..n]);
    }
    forall e | e in xs && e !in s[..n] ensures forall k :: 0 <= k < n ==> key(s[k]) <= key(e) {
      assert e in multiset(s);
      var m :| 0 <= m < |s| && s[m] == e;
      assert m >= n;
    }
  }
}

=== FILE: tax_brackets.dfy ===
/** The progressive federal income-tax calculator of the tax controller:
    the 2024 single-filer bracket table, the standard deduction, the bracket
    walk that accumulates tax, and the marginal-rate lookup. */
module TaxBrackets {
  import opened Common

  /** One bracket: incomes between `min` and `max` are taxed at `rate`;
      `max == None` is the unbounded top bracket (`Infinity`). */
  datatype Bracket = Bracket(min: real, max: Option<real>, rate: real)

  const TAX_BRACKETS: seq<Bracket> := [
    Bracket(0.0, Some(11000.0), 0.10),
    Bracket(11000.0, Some(44725.0), 0.12),
    Bracket(44725.0, Some(95375.0), 0.22),
    Bracket(95375.0, Some(182050.0), 0.24),
    Bracket(182050.0, Some(231250.0), 0.32),
    Bracket(231250.0, Some(578125.0), 0.35),
    Bracket(578125.0, None, 0.37)
  ]

  const STANDARD_DEDUCTION: real := 13850.0

  /** The bracket table covers [0, infinity) without gaps or overlaps:
      the first bracket starts at 0, each bracket starts where the previous
      one ends, rates strictly increase and only the last is unbounded. */
  predicate Contiguous(bs: seq<Bracket>) {
    && |bs| > 0
    && bs[0].min == 0.0
    && (forall i :: 0 <= i < |bs| - 1 ==> bs[i].max == Some(bs[i + 1].min))
    && (forall i :: 0 <= i < |bs| - 1 ==> bs[i].rate < bs[i + 1].rate)
    && (forall i :: 0 <= i < |bs| - 1 ==> bs[i].min < bs[i + 1].min)
    && bs[|bs| - 1].max == None
  }

  lemma BracketTableContiguous()
    ensures Contiguous(TAX_BRACKETS)
    ensures TAX_BRACKETS[0].rate == 0.10 && TAX_BRACKETS[|TAX_BRACKETS| - 1].rate == 0.37
  {
  }

  /** The recursive shape of a contiguous table whose first bracket starts at
      `m`, with every rate in [lo, hi]. */
  predicate ChainFrom(bs: seq<Bracket>, m: real, lo: real, hi: real)
    decreases |bs|
  {
    && |bs| > 0
    && bs[0].min == m
    && 0.0 <= lo <= bs[0].rate <= hi
    && match bs[0].max
       case None => |bs| == 1
       case Some(top) => m < top && ChainFrom(bs[1..], top, lo, hi)
  }

  lemma TableIsChain()
    ensures ChainFrom(TAX_BRACKETS, 0.0, 0.10, 0.37)
  {
    var t := TAX_BRACKETS;
    assert ChainFrom(t[6..], 578125.0, 0.10, 0.37);
    assert t[5..][1..] == t[6..];
    assert ChainFrom(t[5..], 231250.0, 0.10, 0.37);
    assert t[4..][1..] == t[5..];
    assert ChainFrom(t[4..], 182050.0, 0.10, 0.37);
    assert t[3..][1..] == t[4..];
    assert ChainFrom(t[3..], 95375.0, 0.10, 0.37);
    assert t[2..][1..] == t[3..];
    assert ChainFrom(t[2..], 44725.0, 0.10, 0.37);
    assert t[1..][1..] == t[2..];
    assert ChainFrom(t[1..], 11000.0, 0.10, 0.37);
    assert t[0..][1..] == t[1..];
    assert t[0..] == t;
  }

  // ---------------------------------------------------------------------
  // The bracket walk

  /** One step of the loop: the part of the remaining income this bracket
      taxes, `Math.min(remainingIncome, bracket.max - bracket.min)`. */
  function TaxedAt(b: Bracket, remaining: real): real {
    match b.max
    case None => remaining
    case Some(top) => Min(remaining, top - b.min)
  }

  /** The loop over the brackets: stop once nothing remains, otherwise tax
      this bracket's share and carry the rest to the next bracket. */
  function Walk(bs: seq<Bracket>, remaining: real): real
    decreases |bs|
  {
    if |bs| == 0 || remaining <= 0.0 then 0.0
    else
      var taxed := TaxedAt(bs[0], remaining);
      taxed * bs[0].rate + Walk(bs[1..], remaining - taxed)
  }

  /** The textbook definition of a progressive tax, independent of the loop:
      the part of income `y` that falls inside bracket `b`. */
  function Portion(b: Bracket, y: real): real {
    if y <= b.min then 0.0
    else match b.max
      case None => y - b.min
      case Some(top) => Min(y, top) - b.min
  }

  /** Each bracket's portion taxed at its own rate, summed over the table. */
  function PortionTax(bs: seq<Bracket>, y: real): real
    decreases |bs|
  {
    if |bs| == 0 then 0.0 else bs[0].rate * Portion(bs[0], y) + PortionTax(bs[1..], y)
  }

  /** The portions of all brackets, summed. */
  function PortionSum(bs: seq<Bracket>, y: real): real
    decreases |bs|
  {
    if |bs| == 0 then 0.0 else Portion(bs[0], y) + PortionSum(bs[1..], y)
  }

  lemma {:induction false} PortionsBelowChain(bs: seq<Bracket>, m: real, lo: real, hi: real, y: real)
    requires ChainFrom(bs, m, lo, hi)
    requires y <= m
    ensures PortionTax(bs, y) == 0.0 && PortionSum(bs, y) == 0.0
    decreases |bs|
  {
    if bs[0].max.Some? {
      PortionsBelowChain(bs[1..], bs[0].max.value, lo, hi, y);
    }
  }

  /** The loop computes the textbook progressive tax: walking a table that
      starts at `m` with `y - m` remaining taxes each bracket's portion of
      `y` at that bracket's rate. */
  lemma {:induction false} WalkIsPortionTax(bs: seq<Bracket>, m: real, lo: real, hi: real, y: real)
    requires ChainFrom(bs, m, lo, hi)
    ensures Walk(bs, y - m) == PortionTax(bs, y)
    decreases |bs|
  {
    if y <= m {
      PortionsBelowChain(bs, m, lo, hi, y);
    } else {
      match bs[0].max
      case None =>
        assert bs[1..] == [];
      case Some(top) =>
        var taxed := TaxedAt(bs[0], y - m);
        if y <= top {
          assert taxed == y - m;
          PortionsBelowChain(bs[1..], top, lo, hi, y);
        } else {
          assert y - m - taxed == y - top;
          WalkIsPortionTax(bs[1..], top, lo, hi, y);
        }
    }
  }

  /** The portions of a contiguous table starting at `m` add up to the part
      of `y` above `m`. */
  lemma {:induction false} PortionSumCoversIncome(bs: seq<Bracket>, m: real, lo: real, hi: real, y: real)
    requires ChainFrom(bs, m, lo, hi)
    requires y >= m
    ensures PortionSum(bs, y) == y - m
    decreases |bs|
  {
    match bs[0].max
    case None =>
      assert bs[1..] == [];
    case Some(top) =>
      if y <= top {
        PortionsBelowChain(bs[1..], top, lo, hi, y);
      } else {
        PortionSumCoversIncome(bs[1..], top, lo, hi, y);
      }
  }

  /** With every rate between `lo` and `hi`, the tax lies between `lo` and
      `hi` times the taxed income. */
  lemma PortionTaxBetweenRates(bs: seq<Bracket>, m: real, lo: real, hi: real, y: real)
    requires ChainFrom(bs, m, lo, hi)
    ensures lo * PortionSum(bs, y) <= PortionTax(bs, y) <= hi * PortionSum(bs, y)
  {
    PortionTaxAtLeast(bs, m, lo, hi, y);
    PortionTaxAtMost(bs, m, lo, hi, y);
  }

  lemma {:induction false} PortionTaxAtLeast(bs: seq<Bracket>, m: real, lo: real, hi: real, y: real)
    requires ChainFrom(bs, m, lo, hi)
    ensures lo * PortionSum(bs, y) <= PortionTax(bs, y)
    decreases |bs|
  {
    var rest, restTax := PortionSum(bs[1..], y), PortionTax(bs[1..], y);
    assert lo * rest <= restTax by {
      if bs[0].max.Some? {
        PortionTaxAtLeast(bs[1..], bs[0].max.value, lo, hi, y);
      } else {
        assert bs[1..] == [];
        ScaleZero(lo);
      }
    }
    PortionGrows(bs[0], y, y);
    StepAtLeast(lo, bs[0].rate, Portion(bs[0], y), rest, restTax, PortionSum(bs, y), PortionTax(bs, y));
  }

  lemma {:induction false} PortionTaxAtMost(bs: seq<Bracket>, m: real, lo: real, hi: real, y: real)
    requires ChainFrom(bs, m, lo, hi)
    ensures PortionTax(bs, y) <= hi * PortionSum(bs, y)
    decreases |bs|
  {
    var rest, restTax := PortionSum(bs[1..], y), PortionTax(bs[1..], y);
    assert restTax <= hi * rest by {
      if bs[0].max.Some? {
        PortionTaxAtMost(bs[1..], bs[0].max.value, lo, hi, y);
      } else {
        assert bs[1..] == [];
        ScaleZero(hi);
      }
    }
    PortionGrows(bs[0], y, y);
    StepAtMost(hi, bs[0].rate, Portion(bs[0], y), rest, restTax, PortionSum(bs, y), PortionTax(bs, y));
  }

  /** One bracket's step of the lower bound: a rate of at least `lo` on the
      first portion, and the bound on the rest. */
  lemma StepAtLeast(lo: real, r: real, p: real, rest: real, restTax: real, sum: real, tax: real)
    requires lo <= r && p >= 0.0 && lo * rest <= restTax
    requires sum == p + rest && tax == r * p + restTax
    ensures lo * sum <= tax
  {
    assert (r - lo) * p >= 0.0;
    Distribute(lo, p, rest);
  }

  /** One bracket's step of the upper bound. */
  lemma StepAtMost(hi: real, r: real, p: real, rest: real, restTax: real, sum: real, tax: real)
    requires r <= hi && p >= 0.0 && restTax <= hi * rest
    requires sum == p + rest && tax == r * p + restTax
    ensures tax <= hi * sum
  {
    assert (hi - r) * p >= 0.0;
    Distribute(hi, p, rest);
  }

  lemma ScaleZero(a: real)
    ensures a * 0.0 == 0.0
  {
  }

  lemma Distribute(a: real, p: real, q: real)
    ensures a * (p + q) == a * p + a * q
  {
  }

  lemma PortionGrows(b: Bracket, y: real, z: real)
    requires b.max.Some? ==> b.min < b.max.value
    requires y <= z
    ensures 0.0 <= Portion(b, y) <= Portion(b, z)
  {
  }

  /** More income never lowers any bracket's share, so never lowers the tax. */
  lemma {:induction false} PortionTaxMonotone(bs: seq<Bracket>, m: real, lo: real, hi: real, y: real, z: real)
    requires ChainFrom(bs, m, lo, hi)
    requires y <= z
    ensures PortionTax(bs, y) <= PortionTax(bs, z)
    decreases |bs|
  {
    var ty, tz := PortionTax(bs[1..], y), PortionTax(bs[1..], z);
    assert ty <= tz by {
      if bs[0].max.Some? {
        PortionTaxMonotone(bs[1..], bs[0].max.value, lo, hi, y, z);
      } else {
        assert bs[1..] == [];
      }
    }
    PortionGrows(bs[0], y, z);
    StepMonotone(bs[0].rate, Portion(bs[0], y), Portion(bs[0], z), ty, tz, PortionTax(bs, y), PortionTax(bs, z));
  }

  /** One bracket's step of monotonicity: a larger portion at the same
      non-negative rate, and a larger rest. */
  lemma StepMonotone(r: real, py: real, pz: real, ty: real, tz: real, sy: real, sz: real)
    requires r >= 0.0 && py <= pz && ty <= tz
    requires sy == r * py + ty && sz == r * pz + tz
    ensures sy <= sz
  {
    assert r * (pz - py) >= 0.0;
  }

  /** The income the bracket walk taxes: above the standard deduction. */
  function AdjustedIncome(taxableIncome: real): (a: real)
    ensures a >= 0.0
    ensures taxableIncome <= STANDARD_DEDUCTION ==> a == 0.0
    ensures taxableIncome >= STANDARD_DEDUCTION ==> a + STANDARD_DEDUCTION == taxableIncome
  {
    Max(0.0, taxableIncome - STANDARD_DEDUCTION)
  }

  /** `calculateFederalTax`: the bracket walk over the income above the
      standard deduction. It equals the sum of each bracket's portion taxed
      at its rate, is never negative, is zero up to the standard deduction
      and lies between 10% and 37% of the income above it. */
  function CalculateFederalTax(taxableIncome: real): (tax: real)
    ensures tax == PortionTax(TAX_BRACKETS, AdjustedIncome(taxableIncome))
    ensures tax >= 0.0
    ensures taxableIncome <= STANDARD_DEDUCTION ==> tax == 0.0
    ensures 0.10 * AdjustedIncome(taxableIncome) <= tax <= 0.37 * AdjustedIncome(taxableIncome)
  {
    var y := AdjustedIncome(taxableIncome);
    TableIsChain();
    WalkIsPortionTax(TAX_BRACKETS, 0.0, 0.10, 0.37, y);
    PortionSumCoversIncome(TAX_BRACKETS, 0.0, 0.10, 0.37, y);
    PortionTaxBetweenRates(TAX_BRACKETS, 0.0, 0.10, 0.37, y);
    assert y - 0.0 == y;
    Walk(TAX_BRACKETS, y)
  }

  /** The federal tax never decreases as taxable income grows. */
  lemma FederalTaxMonotone(a: real, b: real)
    requires a <= b
    ensures CalculateFederalTax(a) <= CalculateFederalTax(b)
  {
    TableIsChain();
    PortionTaxMonotone(TAX_BRACKETS, 0.0, 0.10, 0.37, AdjustedIncome(a), AdjustedIncome(b));
  }

  /** Worked values at the tops of the first two brackets and inside the
      third. */
  lemma FederalTaxAtBracketTops()
    ensures CalculateFederalTax(24850.0) == 1100.0
    ensures CalculateFederalTax(58575.0) == 5147.0
    ensures CalculateFederalTax(70000.0) == 7660.5
  {
    FirstBracketTop();
    SecondBracketTop();
    InsideThirdBracket();
  }

  lemma FirstBracketTop()
    ensures CalculateFederalTax(24850.0) == 1100.0
  {
    var t := TAX_BRACKETS;
    assert AdjustedIncome(24850.0) == 11000.0;
    WalkStep(t, 11000.0);
    assert Walk(t[1..], 0.0) == 0.0;
  }

  lemma SecondBracketTop()
    ensures CalculateFederalTax(58575.0) == 5147.0
  {
    var t := TAX_BRACKETS;
    assert AdjustedIncome(58575.0) == 44725.0;
    assert t[1..][1..] == t[2..];
    WalkStep(t, 44725.0);
    WalkStep(t[1..], 33725.0);
    assert Walk(t[2..], 0.0) == 0.0;
  }

  lemma InsideThirdBracket()
    ensures CalculateFederalTax(70000.0) == 7660.5
  {
    var t := TAX_BRACKETS;
    assert AdjustedIncome(70000.0) == 56150.0;
    assert t[1..][1..] == t[2..] && t[2..][1..] == t[3..];
    WalkStep(t, 56150.0);
    WalkStep(t[1..], 45150.0);
    WalkStep(t[2..], 11425.0);
    assert Walk(t[3..], 0.0) == 0.0;
  }

  /** One turn of the loop with income left to tax. */
  lemma WalkStep(bs: seq<Bracket>, remaining: real)
    requires |bs| > 0 && remaining > 0.0
    ensures Walk(bs, remaining)
         == TaxedAt(bs[0], remaining) * bs[0].rate + Walk(bs[1..], remaining - TaxedAt(bs[0], remaining))
  {
  }

  /** The loop of `calculateFederalTax` as written, with its early exit,
      over any table. */
  method WalkLoop(bs: seq<Bracket>, income: real) returns (tax: real)
    ensures tax == Walk(bs, income)
  {
    tax := 0.0;
    var remainingIncome := income;
    var i := 0;
    while i < |bs|
      invariant 0 <= i <= |bs|
      invariant tax + Walk(bs[i..], remainingIncome) == Walk(bs, income)
    {
      if remainingIncome <= 0.0 {
        break;
      }
      var bracket := bs[i];
      var taxableAtThisBracket := TaxedAt(bracket, remainingIncome);
      var share := taxableAtThisBracket * bracket.rate;
      assert Walk(bs[i..], remainingIncome) == share + Walk(bs[i + 1..], remainingIncome - taxableAtThisBracket) by {
        WalkStep(bs[i..], remainingIncome);
        assert bs[i..][0] == bracket;
        assert bs[i..][1..] == bs[i + 1..];
      }
      tax := tax + share;
      remainingIncome := remainingIncome - taxableAtThisBracket;
      i := i + 1;
    }
  }

  /** `calculateFederalTax` run as a loop over the table. */
  method FederalTaxLoop(taxableIncome: real) returns (tax: real)
    ensures tax == CalculateFederalTax(taxableIncome)
  {
    tax := WalkLoop(TAX_BRACKETS, Max(0.0, taxableIncome - STANDARD_DEDUCTION));
  }

  // ---------------------------------------------------------------------
  // Marginal rate

  /** The loop's test `adjustedIncome <= bracket.max`, always true for the
      unbounded bracket. */
  predicate Fits(b: Bracket, a: real) {
    b.max.None? || a <= b.max.value
  }

  /** Index of the first bracket the amount fits in, if any. */
  function FirstFit(bs: seq<Bracket>, a: real): (r: Option<nat>)
    ensures r.Some? ==> r.value < |bs| && Fits(bs[r.value], a)
    ensures r.Some? ==> forall k :: 0 <= k < r.value ==> !Fits(bs[k], a)
    ensures r.None? ==> forall k :: 0 <= k < |bs| ==> !Fits(bs[k], a)
    decreases |bs|
  {
    if |bs| == 0 then None
    else if Fits(bs[0], a) then Some(0)
    else match FirstFit(bs[1..], a)
      case None => None
      case Some(k) => Some(k + 1)
  }

  /** `getMarginalTaxRate`: the rate, in percent, of the first bracket whose
      upper end is at least the income above the standard deduction; the
      fallback after the loop returns the top rate. */
  function GetMarginalTaxRate(taxableIncome: real): (r: real)
    ensures r in {10.0, 12.0, 22.0, 24.0, 32.0, 35.0, 37.0}
    ensures taxableIncome <= STANDARD_DEDUCTION ==> r == 10.0
  {
    match FirstFit(TAX_BRACKETS, AdjustedIncome(taxableIncome))
    case Some(i) => TAX_BRACKETS[i].rate * 100.0
    case None => TAX_BRACKETS[|TAX_BRACKETS| - 1].rate * 100.0
  }

  /** The fallback after the loop is never reached: the top bracket is
      unbounded, so some bracket always fits. */
  lemma MarginalFallbackUnreachable(taxableIncome: real)
    ensures FirstFit(TAX_BRACKETS, AdjustedIncome(taxableIncome)).Some?
  {
    assert Fits(TAX_BRACKETS[6], AdjustedIncome(taxableIncome));
  }

  /** The amount `a` lies in bracket `i`: above the bracket's lower end (the
      first bracket also takes 0) and not above its upper end. */
  predicate InBracket(bs: seq<Bracket>, i: int, a: real)
    requires 0 <= i < |bs|
  {
    (i == 0 || bs[i].min < a) && Fits(bs[i], a)
  }

  /** The marginal rate is the rate of the bracket the income above the
      standard deduction lies in. */
  lemma MarginalRateOfContainingBracket(taxableIncome: real)
    ensures exists i :: (0 <= i < |TAX_BRACKETS|
      && InBracket(TAX_BRACKETS, i, AdjustedIncome(taxableIncome))
      && GetMarginalTaxRate(taxableIncome) == TAX_BRACKETS[i].rate * 100.0)
  {
    BracketTableContiguous();
    MarginalFallbackUnreachable(taxableIncome);
    var a := AdjustedIncome(taxableIncome);
    var i := FirstFit(TAX_BRACKETS, a).value;
    if i > 0 {
      assert !Fits(TAX_BRACKETS[i - 1], a);
      assert TAX_BRACKETS[i - 1].max == Some(TAX_BRACKETS[i].min);
    }
    assert InBracket(TAX_BRACKETS, i, a);
  }

  /** Rates strictly increase along the table, so a later bracket has a
      higher rate. */
  lemma {:induction false} RatesIncrease(i: int, j: int)
    requires 0 <= i <= j < |TAX_BRACKETS|
    ensures TAX_BRACKETS[i].rate <= TAX_BRACKETS[j].rate
    decreases j - i
  {
    BracketTableContiguous();
    if i < j {
      RatesIncrease(i, j - 1);
    }
  }

  /** The marginal rate never decreases as taxable income grows. */
  lemma MarginalRateMonotone(x: real, y: real)
    requires x <= y
    ensures GetMarginalTaxRate(x) <= GetMarginalTaxRate(y)
  {
    MarginalFallbackUnreachable(x);
    MarginalFallbackUnreachable(y);
    var i := FirstFit(TAX_BRACKETS, AdjustedIncome(x)).value;
    var j := FirstFit(TAX_BRACKETS, AdjustedIncome(y)).value;
    assert Fits(TAX_BRACKETS[j], AdjustedIncome(x));
    assert i <= j;
    RatesIncrease(i, j);
  }

  /** At exactly a bracket's upper end the lower bracket's rate applies,
      because the test is `<=`; one cent more moves to the next bracket. */
  lemma MarginalRateAtBracketTop(i: int)
    requires 0 <= i < |TAX_BRACKETS| - 1
    ensures GetMarginalTaxRate(TAX_BRACKETS[i].max.value + STANDARD_DEDUCTION) == TAX_BRACKETS[i].rate * 100.0
    ensures GetMarginalTaxRate(TAX_BRACKETS[i].max.value + STANDARD_DEDUCTION + 0.01)
      == TAX_BRACKETS[i + 1].rate * 100.0
  {
    BracketTableContiguous();
    var top := TAX_BRACKETS[i].max.value;
    assert AdjustedIncome(top + STANDARD_DEDUCTION) == top;
    assert AdjustedIncome(top + STANDARD_DEDUCTION + 0.01) == top + 0.01;
    forall k | 0 <= k < i ensures !Fits(TAX_BRACKETS[k], top) && !Fits(TAX_BRACKETS[k], top + 0.01) {
      BracketTopsIncrease(k, i);
    }
    assert FirstFit(TAX_BRACKETS, top) == Some(i) by {
      FirstFitIsFirst(TAX_BRACKETS, top, i);
    }
    assert FirstFit(TAX_BRACKETS, top + 0.01) == Some(i + 1) by {
      FirstFitIsFirst(TAX_BRACKETS, top + 0.01, i + 1);
    }
  }

  lemma {:induction false} BracketTopsIncrease(k: int, i: int)
    requires 0 <= k < i < |TAX_BRACKETS| - 1
    ensures TAX_BRACKETS[k].max.value < TAX_BRACKETS[i].max.value
    decreases i - k
  {
    if k < i - 1 {
      BracketTopsIncrease(k, i - 1);
    }
  }

  /** FirstFit finds the first fitting index. */
  lemma {:induction false} FirstFitIsFirst(bs: seq<Bracket>, a: real, i: nat)
    requires i < |bs| && Fits(bs[i], a)
    requires forall k :: 0 <= k < i ==> !Fits(bs[k], a)
    ensures FirstFit(bs, a) == Some(i)
    decreases i
  {
    if i > 0 {
      FirstFitIsFirst(bs[1..], a, i - 1);
    }
  }
}

=== FILE: tax_estimate.dfy ===
/** The four tax endpoints built around the bracket calculator: the yearly
    estimate, the what-if scenario, the quarterly payment schedule and the
    sorted list of deadlines. The records a handler loads for the requested
    year are given as sequences. */
module TaxEstimate {
  import opened Common
  import opened Records
  import opened TaxBrackets
  import opened TaxRecommendations
  import Sorting

  /** Flat self-employment rate applied to all income. */
  const SE_TAX_RATE: real := 0.1413

  /** Taxable income: income less deductible expenses, never below zero. */
  function TaxableIncome(totalIncome: real, deductibleExpenses: real): (t: real)
    ensures t >= 0.0
    ensures totalIncome >= deductibleExpenses ==> t + deductibleExpenses == totalIncome
    ensures totalIncome <= deductibleExpenses ==> t == 0.0
  {
    Max(0.0, totalIncome - deductibleExpenses)
  }

  /** Federal tax on the taxable income plus self-employment tax on all
      income. */
  function TotalTax(totalIncome: real, deductibleExpenses: real): real {
    CalculateFederalTax(TaxableIncome(totalIncome, deductibleExpenses)) + totalIncome * SE_TAX_RATE
  }

  /** Total tax as a percentage of income, 0 when there is no income. */
  function EffectiveRate(totalIncome: real, totalTax: real): (rate: real)
    ensures totalIncome > 0.0 ==> rate * totalIncome == totalTax * 100.0
    ensures totalIncome <= 0.0 ==> rate == 0.0
  {
    if totalIncome > 0.0 then (totalTax / totalIncome) * 100.0 else 0.0
  }

  /** The response of the estimate endpoint. */
  datatype Estimate = Estimate(
    currentYear: int,
    totalIncome: real,
    totalExpenses: real,
    deductibleExpenses: real,
    taxableIncome: real,
    federalTax: real,
    selfEmploymentTax: real,
    totalTax: real,
    quarterlyPayment: real,
    effectiveRate: real,
    marginalRate: real,
    standardDeduction: real,
    recommendations: seq<Recommendation>)

  /** The estimate computed from the year's three totals. Tax is federal
      plus self-employment, split into four equal payments; the
      recommendations are the rules that fire on these figures. */
  function EstimateFromTotals(year: int, totalIncome: real, totalExpenses: real, deductibleExpenses: real): (e: Estimate)
    ensures e.currentYear == year
    ensures e.totalIncome == totalIncome && e.totalExpenses == totalExpenses
    ensures e.deductibleExpenses == deductibleExpenses
    ensures e.taxableIncome == TaxableIncome(totalIncome, deductibleExpenses)
    ensures e.taxableIncome >= 0.0 && e.federalTax >= 0.0
    ensures totalIncome >= deductibleExpenses ==> e.taxableIncome + deductibleExpenses == totalIncome
    ensures e.totalTax == e.federalTax + e.selfEmploymentTax
    ensures e.federalTax == CalculateFederalTax(e.taxableIncome)
    ensures e.selfEmploymentTax == totalIncome * SE_TAX_RATE
    ensures 4.0 * e.quarterlyPayment == e.totalTax
    ensures e.effectiveRate == EffectiveRate(totalIncome, e.totalTax)
    ensures totalIncome == 0.0 ==> e.effectiveRate == 0.0
    ensures e.marginalRate == GetMarginalTaxRate(e.taxableIncome)
    ensures e.standardDeduction == STANDARD_DEDUCTION
    ensures e.recommendations
      == GenerateTaxRecommendations(Figures(totalIncome, deductibleExpenses, totalExpenses, e.effectiveRate))
    ensures |e.recommendations| >= 1
    ensures forall r :: (Advice(r) in e.recommendations
      <==> Fires(r, Figures(totalIncome, deductibleExpenses, totalExpenses, e.effectiveRate)))
  {
    var taxable := TaxableIncome(totalIncome, deductibleExpenses);
    var se := totalIncome * SE_TAX_RATE;
    var federal := CalculateFederalTax(taxable);
    var total := federal + se;
    var rate := EffectiveRate(totalIncome, total);
    Estimate(year, totalIncome, totalExpenses, deductibleExpenses, taxable, federal, se, total,
      total / 4.0, rate, GetMarginalTaxRate(taxable), STANDARD_DEDUCTION,
      GenerateTaxRecommendations(Figures(totalIncome, deductibleExpenses, totalExpenses, rate)))
  }

  /** `getTaxEstimate` over the year's income and expense records. */
  function GetTaxEstimate(year: int, incomes: seq<Income>, expenses: seq<Expense>): (e: Estimate)
    ensures e == EstimateFromTotals(year, IncomeTotal(incomes), ExpenseTotal(expenses), DeductibleTotal(expenses))
    ensures e.totalIncome == IncomeTotal(incomes)
    ensures e.totalExpenses == ExpenseTotal(expenses)
    ensures e.deductibleExpenses == DeductibleTotal(expenses)
    ensures e.totalTax == TotalTax(e.totalIncome, e.deductibleExpenses)
    ensures IncomesValid(incomes) ==> e.totalTax >= 0.0
  {
    assert IncomesValid(incomes) ==> IncomeTotal(incomes) >= 0.0 by {
      if IncomesValid(incomes) {
        IncomeTotalNonNegative(incomes);
      }
    }
    EstimateFromTotals(year, IncomeTotal(incomes), ExpenseTotal(expenses), DeductibleTotal(expenses))
  }

  /** Income 80,000 with 10,000 of deductible expenses: taxable 70,000,
      federal 7,660.50, self-employment 11,304, total 18,964.50. */
  lemma EstimateOf80k()
    ensures var e := EstimateFromTotals(2024, 80000.0, 10000.0, 10000.0);
      && e.taxableIncome == 70000.0
      && e.federalTax == 7660.5
      && e.selfEmploymentTax == 11304.0
      && e.totalTax == 18964.5
      && e.quarterlyPayment == 4741.125
  {
    FederalTaxAtBracketTops();
  }

  // ---------------------------------------------------------------------
  // What-if scenario

  /** One side of the comparison. */
  datatype Snapshot = Snapshot(
    totalIncome: real,
    deductibleExpenses: real,
    taxableIncome: real,
    totalTax: real,
    effectiveRate: real)

  datatype Difference = Difference(
    income: real,
    expenses: real,
    retirementContribution: real,
    taxSavings: real,
    netImpact: real)

  datatype Scenario = Scenario(current: Snapshot, scenario: Snapshot, difference: Difference)

  function SnapshotOf(income: real, deductible: real): (s: Snapshot)
    ensures s.totalIncome == income && s.deductibleExpenses == deductible
    ensures s.taxableIncome == TaxableIncome(income, deductible)
    ensures s.totalTax == TotalTax(income, deductible)
    ensures s.effectiveRate == EffectiveRate(income, s.totalTax)
  {
    var total := TotalTax(income, deductible);
    Snapshot(income, deductible, TaxableIncome(income, deductible), total, EffectiveRate(income, total))
  }

  /** A request field that defaults to 0 when it is left out. */
  function OrZero(x: Option<real>): (v: real)
    ensures x.Some? ==> v == x.value
    ensures x.None? ==> v == 0.0
  {
    if x.Some? then x.value else 0.0
  }

  /** `calculateTaxScenario`: the current figures against the figures with
      extra income added and extra expenses and a retirement contribution
      both counted as deductible. */
  function CalculateTaxScenario(currentIncome: real, currentDeductible: real,
                                additionalIncome: Option<real>, additionalExpenses: Option<real>,
                                retirementContribution: Option<real>): (s: Scenario)
    ensures s.current == SnapshotOf(currentIncome, currentDeductible)
    ensures s.scenario.totalIncome == currentIncome + OrZero(additionalIncome)
    ensures s.scenario.deductibleExpenses
      == currentDeductible + OrZero(additionalExpenses) + OrZero(retirementContribution)
    ensures s.scenario == SnapshotOf(s.scenario.totalIncome, s.scenario.deductibleExpenses)
    ensures s.difference.taxSavings == s.current.totalTax - s.scenario.totalTax
    ensures s.difference.netImpact == s.difference.income + s.difference.taxSavings
    ensures s.difference.income == OrZero(additionalIncome)
    ensures s.difference.expenses == OrZero(additionalExpenses)
    ensures s.difference.retirementContribution == OrZero(retirementContribution)
  {
    var addIncome := OrZero(additionalIncome);
    var addExpenses := OrZero(additionalExpenses);
    var retirement := OrZero(retirementContribution);
    var current := SnapshotOf(currentIncome, currentDeductible);
    var scenario := SnapshotOf(currentIncome + addIncome, currentDeductible + addExpenses + retirement);
    Scenario(current, scenario,
      Difference(addIncome, addExpenses, retirement,
        current.totalTax - scenario.totalTax,
        addIncome - (scenario.totalTax - current.totalTax)))
  }

  /** With no changes the scenario is the current situation and nothing is
      saved or gained. */
  lemma ScenarioZeroDeltas(income: real, deductible: real, a: Option<real>, e: Option<real>, r: Option<real>)
    requires OrZero(a) == 0.0 && OrZero(e) == 0.0 && OrZero(r) == 0.0
    ensures CalculateTaxScenario(income, deductible, a, e, r).scenario
      == CalculateTaxScenario(income, deductible, a, e, r).current
    ensures CalculateTaxScenario(income, deductible, a, e, r).difference.taxSavings == 0.0
    ensures CalculateTaxScenario(income, deductible, a, e, r).difference.netImpact == 0.0
  {
  }

  /** Extra deductions without extra income never raise the tax. */
  lemma ScenarioSavingsNonNegative(income: real, deductible: real, a: Option<real>, e: Option<real>, r: Option<real>)
    requires OrZero(a) == 0.0 && OrZero(e) >= 0.0 && OrZero(r) >= 0.0
    ensures CalculateTaxScenario(income, deductible, a, e, r).difference.taxSavings >= 0.0
  {
    var more := deductible + OrZero(e) + OrZero(r);
    assert TaxableIncome(income, more) <= TaxableIncome(income, deductible);
    FederalTaxMonotone(TaxableIncome(income, more), TaxableIncome(income, deductible));
  }

  // ---------------------------------------------------------------------
  // Quarterly schedule

  /** The months a payment covers, first day to last day. */
  datatype Period = Period(start: Date, end: Date)

  datatype Installment = Installment(quarter: nat, period: Period, dueDate: Date, amount: real)

  function Sum(xs: seq<Installment>): real
    decreases |xs|
  {
    if |xs| == 0 then 0.0 else xs[0].amount + Sum(xs[1..])
  }

  /** `getQuarterlySchedule`: four equal installments Q1..Q4 covering the
      year in consecutive periods, each due after its period ends; they add
      up to the year's tax. */
  function QuarterlySchedule(year: int, totalTax: real): (s: seq<Installment>)
    ensures |s| == 4
    ensures forall i :: 0 <= i < 4 ==> s[i].quarter == i + 1 && 4.0 * s[i].amount == totalTax
    ensures Sum(s) == totalTax
    ensures s[0].period.start == Date(year, 1, 1) && s[0].period.end == Date(year, 3, 31)
    ensures s[1].period.end == Date(year, 5, 31) && s[2].period.end == Date(year, 8, 31)
    ensures s[3].period.end == Date(year, 12, 31)
    ensures s[0].dueDate == Date(year, 4, 15) && s[1].dueDate == Date(year, 6, 17)
    ensures s[2].dueDate == Date(year, 9, 16) && s[3].dueDate == Date(year + 1, 1, 15)
    ensures forall i :: 0 <= i < 3 ==>
      s[i + 1].period.start == Date(year, s[i].period.end.month + 1, 1)
    ensures forall i :: 0 <= i < 4 ==> Before(s[i].period.end, s[i].dueDate)
    ensures forall i :: 0 <= i < 3 ==> Before(s[i].dueDate, s[i + 1].dueDate)
  {
    var q := totalTax / 4.0;
    var s := [
      Installment(1, Period(Date(year, 1, 1), Date(year, 3, 31)), Date(year, 4, 15), q),
      Installment(2, Period(Date(year, 4, 1), Date(year, 5, 31)), Date(year, 6, 17), q),
      Installment(3, Period(Date(year, 6, 1), Date(year, 8, 31)), Date(year, 9, 16), q),
      Installment(4, Period(Date(year, 9, 1), Date(year, 12, 31)), Date(year + 1, 1, 15), q)
    ];
    assert s[3..][1..] == [] && s[2..][1..] == s[3..] && s[1..][1..] == s[2..];
    assert Sum(s[3..]) == q;
    assert Sum(s[2..]) == q + q;
    assert Sum(s[1..]) == q + q + q;
    assert Sum(s) == q + q + q + q;
    s
  }

  // ---------------------------------------------------------------------
  // Deadlines

  datatype DeadlineKind = Quarterly | Annual | Informational

  datatype DeadlineId = Q1Payment | Q2Payment | Q3Payment | AnnualReturn | Q4Payment | FormsAvailable

  datatype Deadline = Deadline(id: DeadlineId, date: Date, kind: DeadlineKind)

  /** The six deadlines in the order the handler lists them. */
  function DeadlineList(year: int): seq<Deadline> {
    [
      Deadline(Q1Payment, Date(year, 4, 15), Quarterly),
      Deadline(Q2Payment, Date(year, 6, 17), Quarterly),
      Deadline(Q3Payment, Date(year, 9, 16), Quarterly),
      Deadline(AnnualReturn, Date(year + 1, 4, 15), Annual),
      Deadline(Q4Payment, Date(year + 1, 1, 15), Quarterly),
      Deadline(FormsAvailable, Date(year + 1, 1, 31), Informational)
    ]
  }

  function DeadlineKey(d: Deadline): real {
    DayKey(d.date) as real
  }

  /** `getTaxDeadlines`: the list sorted by date. */
  function GetTaxDeadlines(year: int): (ds: seq<Deadline>)
    ensures multiset(ds) == multiset(DeadlineList(year))
    ensures Sorting.SortedBy(ds, DeadlineKey)
  {
    Sorting.SortBy(DeadlineList(year), DeadlineKey)
  }

  lemma DeadlineKeysIncrease(year: int, e: seq<Deadline>)
    requires e == [DeadlineList(year)[0], DeadlineList(year)[1], DeadlineList(year)[2],
                   DeadlineList(year)[4], DeadlineList(year)[5], DeadlineList(year)[3]]
    ensures Sorting.StrictlySortedBy(e, DeadlineKey)
  {
    var keys := seq(6, i requires 0 <= i < 6 => DeadlineKey(e[i]));
    assert keys == [(year * 10000 + 415) as real, (year * 10000 + 617) as real, (year * 10000 + 916) as real,
                    (year * 10000 + 10115) as real, (year * 10000 + 10131) as real, (year * 10000 + 10415) as real];
    forall i, j | 0 <= i < j < 6 ensures DeadlineKey(e[i]) < DeadlineKey(e[j]) {
      assert keys[i] < keys[j];
    }
  }

  /** After sorting, the Q4 payment and the 1099 forms move ahead of the
      annual return. */
  lemma DeadlinesInDateOrder(year: int)
    ensures GetTaxDeadlines(year) == [
      Deadline(Q1Payment, Date(year, 4, 15), Quarterly),
      Deadline(Q2Payment, Date(year, 6, 17), Quarterly),
      Deadline(Q3Payment, Date(year, 9, 16), Quarterly),
      Deadline(Q4Payment, Date(year + 1, 1, 15), Quarterly),
      Deadline(FormsAvailable, Date(year + 1, 1, 31), Informational),
      Deadline(AnnualReturn, Date(year + 1, 4, 15), Annual)
    ]
  {
    var l := DeadlineList(year);
    var e := [l[0], l[1], l[2], l[4], l[5], l[3]];
    assert l == [l[0], l[1], l[2], l[3], l[4], l[5]];
    assert multiset(e) == multiset(l);
    DeadlineKeysIncrease(year, e);
    var ds := GetTaxDeadlines(year);
    Sorting.SortedPermutationUnique(ds, e, DeadlineKey);
  }
}

=== FILE: tax_recommendations.dfy ===
/** The recommendation list of the tax estimate: six fixed rules checked in
    order, each adding its message when its condition holds, and a single
    reassuring message when none of them holds. An entry is represented by
    the rule that produced it; `Text` gives the message it stands for. */
module TaxRecommendations {
  import Rules

  /** The four figures the rules look at. */
  datatype Figures = Figures(
    totalIncome: real,
    deductibleExpenses: real,
    totalExpenses: real,
    effectiveRate: real)

  datatype Rule =
    | MissingDeductions
    | HighEffectiveRate
    | NonDeductibleSpending
    | IncomeLevelDeductions
    | QuarterlyPayments
    | EquipmentDeduction

  /** The rules in the order they are checked. */
  const RULES: seq<Rule> := [
    MissingDeductions, HighEffectiveRate, NonDeductibleSpending,
    IncomeLevelDeductions, QuarterlyPayments, EquipmentDeduction
  ]

  /** Position of a rule in `RULES`. */
  function Rank(r: Rule): int {
    match r
    case MissingDeductions => 0
    case HighEffectiveRate => 1
    case NonDeductibleSpending => 2
    case IncomeLevelDeductions => 3
    case QuarterlyPayments => 4
    case EquipmentDeduction => 5
  }

  /** The condition of each rule. */
  predicate Fires(r: Rule, f: Figures) {
    match r
    case MissingDeductions => f.deductibleExpenses < f.totalIncome * 0.15
    case HighEffectiveRate => f.effectiveRate > 25.0
    case NonDeductibleSpending => f.totalExpenses - f.deductibleExpenses > f.totalIncome * 0.10
    case IncomeLevelDeductions => f.totalIncome > 50000.0 && f.deductibleExpenses < 5000.0
    case QuarterlyPayments => f.totalIncome > 30000.0
    case EquipmentDeduction => f.totalIncome > 40000.0 && f.deductibleExpenses < f.totalIncome * 0.20
  }

  /** One entry of the list: the advice of a rule, or the closing message
      used when no rule applies. */
  datatype Recommendation = Advice(rule: Rule) | WellOptimized

  /** The text each entry stands for. */
  function Text(rec: Recommendation): string {
    match rec
    case Advice(MissingDeductions) =>
      "Consider tracking more business expenses - you may be missing valuable deductions"
    case Advice(HighEffectiveRate) =>
      "Your effective tax rate is high - consider maximizing retirement contributions (SEP-IRA, Solo 401k)"
    case Advice(NonDeductibleSpending) =>
      "You have significant non-deductible expenses - review your business spending strategy"
    case Advice(IncomeLevelDeductions) =>
      "With your income level, you should have more business deductions - track home office, equipment, and professional expenses"
    case Advice(QuarterlyPayments) =>
      "Consider making quarterly estimated tax payments to avoid penalties"
    case Advice(EquipmentDeduction) =>
      "Look into Section 179 deductions for business equipment purchases"
    case WellOptimized =>
      "Your tax situation looks well-optimized! Keep tracking expenses consistently."
  }

  lemma RulesRanked()
    ensures Rules.StrictlyRanked(RULES, Rank)
    ensures forall r :: r in RULES
  {
    forall r ensures r in RULES {
      assert RULES[Rank(r)] == r;
    }
  }

  /** The rules that fire, in table order. */
  function FiredRules(f: Figures): (fired: seq<Rule>)
    ensures forall r :: r in fired <==> Fires(r, f)
    ensures Rules.StrictlyRanked(fired, Rank)
  {
    RulesRanked();
    Rules.FiredKeepsOrder(RULES, r => Fires(r, f), Rank);
    Rules.Fired(RULES, r => Fires(r, f))
  }

  /** The advice of each fired rule, or the closing message alone. */
  function AdviceOrFallback(fired: seq<Rule>): (recs: seq<Recommendation>)
    ensures |fired| == 0 ==> recs == [WellOptimized]
    ensures |fired| > 0 ==> |recs| == |fired| && forall i :: 0 <= i < |fired| ==> recs[i] == Advice(fired[i])
  {
    if |fired| == 0 then [WellOptimized] else seq(|fired|, i requires 0 <= i < |fired| => Advice(fired[i]))
  }

  /** Advice entries keep the order of their rules. */
  lemma AdviceRanked(fired: seq<Rule>)
    requires Rules.StrictlyRanked(fired, Rank)
    ensures forall i, j :: 0 <= i < j < |AdviceOrFallback(fired)| ==>
      AdviceOrFallback(fired)[i].Advice? && AdviceOrFallback(fired)[j].Advice?
      && Rank(AdviceOrFallback(fired)[i].rule) < Rank(AdviceOrFallback(fired)[j].rule)
  {
    var recs := AdviceOrFallback(fired);
    if |fired| > 0 {
      forall i, j | 0 <= i < j < |recs| ensures recs[i].Advice? && recs[j].Advice? && Rank(recs[i].rule) < Rank(recs[j].rule) {
        assert recs[i] == Advice(fired[i]) && recs[j] == Advice(fired[j]);
      }
    }
  }

  /** An entry is in the list exactly when its rule is among the fired ones;
      the closing message is there exactly when none fired. */
  lemma AdviceListsFired(fired: seq<Rule>, r: Rule)
    ensures Advice(r) in AdviceOrFallback(fired) <==> r in fired
    ensures WellOptimized in AdviceOrFallback(fired) <==> |fired| == 0
  {
    var recs := AdviceOrFallback(fired);
    if r in fired {
      var i :| 0 <= i < |fired| && fired[i] == r;
      assert recs[i] == Advice(r);
    }
  }

  /** What the list of the fired rules says about the figures. */
  lemma FiredAdvice(f: Figures)
    ensures |AdviceOrFallback(FiredRules(f))| >= 1
    ensures forall r :: Advice(r) in AdviceOrFallback(FiredRules(f)) <==> Fires(r, f)
    ensures WellOptimized in AdviceOrFallback(FiredRules(f)) <==> forall r :: !Fires(r, f)
    ensures WellOptimized in AdviceOrFallback(FiredRules(f)) ==> AdviceOrFallback(FiredRules(f)) == [WellOptimized]
  {
    var fired := FiredRules(f);
    forall r ensures Advice(r) in AdviceOrFallback(fired) <==> Fires(r, f) {
      AdviceListsFired(fired, r);
    }
    AdviceListsFired(fired, MissingDeductions);
    if |fired| > 0 {
      assert Fires(fired[0], f);
    }
  }

  /** `generateTaxRecommendations`: never empty; a rule's advice is in the
      list exactly when the rule fires, in the order the rules are checked;
      the closing message is in the list exactly when no rule fires, and is
      then the whole list. */
  function GenerateTaxRecommendations(f: Figures): (recs: seq<Recommendation>)
    ensures |recs| >= 1
    ensures forall i, j :: 0 <= i < j < |recs| ==>
      recs[i].Advice? && recs[j].Advice? && Rank(recs[i].rule) < Rank(recs[j].rule)
    ensures forall r :: Advice(r) in recs <==> Fires(r, f)
    ensures WellOptimized in recs <==> forall r :: !Fires(r, f)
    ensures WellOptimized in recs ==> recs == [WellOptimized]
  {
    FiredAdvice(f);
    AdviceRanked(FiredRules(f));
    AdviceOrFallback(FiredRules(f))
  }

  /** The list is the advice of the fired rules in table order: for any
      list of rules holding exactly the ones that fire, in the order they
      are checked, the recommendations are the advice of each in turn, or
      the closing message alone when it is empty. */
  lemma RecommendationsInRuleOrder(f: Figures, fired: seq<Rule>)
    requires forall r :: r in fired <==> Fires(r, f)
    requires Rules.StrictlyRanked(fired, Rank)
    ensures GenerateTaxRecommendations(f) == AdviceOrFallback(fired)
  {
    Rules.RankedUnique(fired, FiredRules(f), Rank);
  }

  /** A high income with under 5,000 of deductions also triggers the
      missing-deductions, quarterly-payment and equipment rules. */
  lemma IncomeRuleImpliesOthers(f: Figures)
    requires Fires(IncomeLevelDeductions, f)
    ensures Fires(MissingDeductions, f)
    ensures Fires(QuarterlyPayments, f)
    ensures Fires(EquipmentDeduction, f)
  {
  }
}
